=== FILE: README.md ===
# A verified model of the gh-again game engine

gh-again is a timed guessing game. Each round shows a historical photograph. The
player drops a pin where the picture was taken and picks the year it was taken.
Each round is scored on distance and on year difference. Hints cost points. A
game of rounds ends on a summary page that reports metrics and tracks badge
statistics.

This project models the engine's logic as pure state-transition functions over
immutable records. It proves what each transition promises. The modules follow
the source files:

| module | file | source |
|---|---|---|
| `Js` | js.dfy | JavaScript built-ins the engine relies on: `Math.round`, `x \|\| d`, `x ?? d`, integer `toString`, `padStart`, `includes`, `toLowerCase` |
| `GameTypes` | game_types.dfy | src/types/game.ts and src/constants/game.ts |
| `LocalStore` | local_store.dfy | `localStorage` as a map from keys to parsed JSON values |
| `Scoring` | scoring.dfy | src/contexts/GameContext/gameUtils.ts |
| `RoundScores` | round_scores.dfy | src/hooks/useRoundScores.ts |
| `RoundResultsPage` | round_results.dfy | src/pages/RoundResultsPage.tsx |
| `FinalResultsPage` | final_results.dfy | src/pages/FinalResultsPage.tsx |
| `Hints` | hints.dfy | src/hooks/useHint.ts |
| `HintsV2` | hints_v2.dfy | src/hooks/useHintV2.ts |
| `GameTimer` | timer.dfy | src/hooks/useGameTimer.ts |
| `GameLayout` | layout.dfy | src/components/layouts/GameLayout1.tsx |
| `GameRound` | game_round.dfy | src/hooks/useGameRound.ts |
| `Reducer` | reducer.dfy | src/contexts/GameContext/reducer.ts |
| `GameContext` | game_context.dfy | src/contexts/GameContext/GameContext.tsx |
| `GameLogic` | game_logic.dfy | src/contexts/GameContext/useGameLogic.ts |
| `GameActions` | game_actions.dfy | src/hooks/useGameActions.ts |
| `GameStateHook` | game_state.dfy | src/hooks/useGameState.ts |
| `SettingsStore` | settings.dfy | src/lib/useSettingsStore.ts |
| `Validation` | validation.dfy | src/contexts/GameContext/validation.ts |
| `Storage` | storage.dfy | src/contexts/GameContext/storage.ts |
| `Badges` | badges.dfy | src/utils/badges/badgeService.ts |
| `ContextErrors` | errors.dfy | src/contexts/GameContext/errors.ts |
| `ErrorHandling` | error_handling.dfy | src/utils/errorHandling.ts (its `createError`, lines 13-17, builds the same record as the game context's and is modelled by `ContextErrors.CreateError`) |

Conventions:
- **Numbers.** Scores, coordinates, distances and accuracies are `real`. Years,
  counters, seconds and millisecond timestamps are `int`.
- **`Math.round`** is `floor(x + 0.5)`, which rounds half-way cases up, as in
  section 21.3.2.28 of ECMA-262.
- **Falsy values.** JavaScript's `x || d` is written out: 0, the empty string
  and a missing value all give `d`. Several results depend on it. For example,
  a saved hint allowance of 0 restores as 3.
- **Storage.** `localStorage` is a map from keys to stored values, and JSON
  encoding is the identity. The two save slots that share the key
  `gh_current_game` can therefore be compared. One is the game context's
  validated slot, which never expires. The other is the game-state hook's
  slot, which expires after 24 hours.
- **Outside inputs.** The clock, the current year, fresh ids and database
  answers are parameters, and so are helper modules outside the core. A
  thrown exception is a value of the datatype `GameTypes.Thrown`.
- **Recording a round.** There are three competing implementations: in the
  game context, in the game-logic hook and in the game-actions hook. Each is
  modelled as written, with its own aggregation rule, and they are not
  reconciled.
- **The game-actions hook writes by index.** A round recorded past the end of
  the list leaves holes. The next call copies the list with `[...prev]`,
  which turns those holes into `undefined` entries. Summing accuracies over
  that copy then throws. `GameActions.RecordRoundResult` returns `None` in
  exactly that case.

## Model

| member | source | states |
|---|---|---|
| Js.Round | src/contexts/GameContext/gameUtils.ts:28 | `Math.round` lands within half a unit of its argument: x − 0.5 < r ≤ x + 0.5 |
| Js.RoundMonotone | src/contexts/GameContext/gameUtils.ts:28 | rounding never reverses the order of two numbers |
| Js.SumBounds | src/contexts/GameContext/useGameLogic.ts:307-311 | a sum of n numbers that each lie in [lo, hi] lies in [n·lo, n·hi] |
| Js.Mean | src/pages/FinalResultsPage.tsx:78-81 | the mean of an empty list is 0; otherwise the mean times the length equals the sum |
| Js.ParseNatToString | src/pages/RoundResultsPage.tsx:80 | reading the decimal digits of n back gives n |
| Js.PadStart2 | src/components/layouts/GameLayout1.tsx:15 | `padStart(2, '0')` leaves strings of length 2 or more alone; shorter ones become exactly 2 characters, with zeros in front of the original |
| Js.ContainsMeansOccurs | src/hooks/useHint.ts:123-128 | `includes` holds exactly when the substring occurs at some position |
| Js.ToLower | src/hooks/useHint.ts:121 | lower-casing keeps the length and maps each character on its own |
| Scoring.Accuracy | src/contexts/GameContext/gameUtils.ts:25-29 | the result is within 0.005 of max(0, 100 − d/200) and has at most two decimals; it lies in [0, 100] for d ≥ 0, is 100 at d = 0 and is 0 from 20000 km on |
| Scoring.AccuracyNonIncreasing | src/contexts/GameContext/gameUtils.ts:26-27 | a farther guess never has higher accuracy |
| Scoring.TimeFactor | src/contexts/GameContext/gameUtils.ts:33-34 | the time factor is never negative and is at most 1 for a non-negative time |
| Scoring.Score | src/contexts/GameContext/gameUtils.ts:32-36 | the score is 0 from 300 seconds on and round(a) at 0 seconds; for a ≥ 0 and t ≥ 0 it lies between 0 and round(a) |
| Scoring.RoundScaledBelow | src/contexts/GameContext/gameUtils.ts:35 | scaling a non-negative accuracy by a factor in [0, 1] cannot round above the unscaled accuracy |
| Scoring.XPEarned | src/contexts/GameContext/gameUtils.ts:39-45 | up to 75 the XP is the rounded accuracy, above 75 and up to 90 the accuracy × 1.25, rounded, above 90 the accuracy × 1.5, rounded; for any accuracy ≥ 0 it is at least the rounded accuracy |
| Scoring.XPEarnedExamples | src/contexts/GameContext/gameUtils.ts:41-44 | accuracies 100, 80, 50 and 90 earn 150, 100, 50 and 113 XP |
| Scoring.XPEarnedMonotone | src/contexts/GameContext/gameUtils.ts:39-45 | more accuracy never earns less XP, across the 75 and 90 multiplier steps |
| RoundScores.LocationScore | src/hooks/useRoundScores.ts:31-36 | the location score lies in [0, 100] for any distance ≥ 0 and is 0 from 5000 km on |
| RoundScores.RoundToTenth | src/hooks/useRoundScores.ts:36 | the displayed distance is within 0.05 of the true one and has one decimal |
| RoundScores.LocationAccuracyOf | src/hooks/useRoundScores.ts:22-40 | no guess scores 0 at distance 0; a failing distance helper gives 0 and 0; otherwise the score is the location score of the distance |
| RoundScores.TimeAccuracyOf | src/hooks/useRoundScores.ts:42-50 | an unguessed (falsy) year scores 0 with no difference; otherwise the helper's accuracy and the absolute year gap |
| RoundScores.ScoreRound | src/hooks/useRoundScores.ts:53-68 | round XP is location score plus time score, and the percentage is half of it; the hint penalties are 30 and 15 per hint; every `original*` field is copied from the image and the result |
| RoundScores.PresentOfPrefix | src/hooks/useRoundScores.ts:70 | filtering out the missing entries of a list whose first n entries are the only present ones keeps exactly those n values, in order |
| RoundScores.RoundScoresSpec | src/hooks/useRoundScores.ts:9-14 | the scores are one per result up to the number of images, each computed against the image at the same index; no images or no results give none |
| RoundResultsPage.LeadingDigits | src/pages/RoundResultsPage.tsx:80 | the longest all-digit prefix: it stops at the first non-digit |
| RoundResultsPage.ParseRoundNumber | src/pages/RoundResultsPage.tsx:80 | a missing or empty parameter reads as round 1; a parameter not starting with a digit is `NaN` |
| RoundResultsPage.ParseRoundNumberRoundTrip | src/pages/RoundResultsPage.tsx:80 | the decimal text of a positive round number parses back to that number |
| RoundResultsPage.LeadingDigitsOfDigits | src/pages/RoundResultsPage.tsx:80 | an all-digit string is its own longest digit prefix |
| RoundResultsPage.TotalRounds | src/pages/RoundResultsPage.tsx:82 | the number of rounds is the number of images, or 5 without images, so it is at least 1 |
| RoundResultsPage.FindResult | src/pages/RoundResultsPage.tsx:89 | a found result is in the list and has the requested index; nothing is found only when no result has that index |
| RoundResultsPage.FindResultFirst | src/pages/RoundResultsPage.tsx:89 | `find` returns the first result with the requested index |
| RoundResultsPage.CurrentImage | src/pages/RoundResultsPage.tsx:90 | an image is shown exactly when the index is in range, and it is the image at that index |
| RoundResultsPage.BadgeYearAccuracy | src/pages/RoundResultsPage.tsx:104-105 | 100 exactly for the right year, 2 points off per year, 0 from 50 years off, always in [0, 100] |
| RoundResultsPage.BadgeLocationAccuracy | src/pages/RoundResultsPage.tsx:108-110 | a missing distance gives 0; otherwise the result lies in [0, 100], is 100 at 0 km and 0 from 2000 km |
| RoundResultsPage.BadgeEffect | src/pages/RoundResultsPage.tsx:93-139 | badges are updated exactly when a user, a result, an image and a room id are all present; the year falls back to 1900, the guess to the actual year, and the year accuracy is the badge year accuracy of their gap, so 100 exactly when they agree; the location accuracy comes from the distance |
| RoundResultsPage.MapToLayout | src/pages/RoundResultsPage.tsx:142-215 | no layout exactly when the result or the image is missing; the year gap is non-negative and 0 without a guess; both hint penalties are 30 per hint; the XP total is the stored score, or else the non-negative max(0, xpWhere + xpWhen − penalty); XP, hints, guess coordinates and the rounded distance (0 when missing) are carried over, and the gap description comes from the guess and actual years |
| RoundResultsPage.LayoutAgreesWithBadges | src/pages/RoundResultsPage.tsx:93-215 | the badge call and the displayed layout take the same guess and actual years, and the badge's year accuracy is 100 exactly when the layout shows no gap |
| RoundResultsPage.HandleNext | src/pages/RoundResultsPage.tsx:224-249 | without a room id it only reports an error; otherwise it always starts navigating, to the final page exactly on the last round and otherwise to round n + 1 |
| RoundResultsPage.NextAfterEachRound | src/pages/RoundResultsPage.tsx:236-245 | after each of rounds 1..n of an n-image game "next" goes to the following round, and after round n to the final page |
| RoundResultsPage.NextWithoutImages | src/pages/RoundResultsPage.tsx:82 | without images the game ends after round 5 |
| FinalResultsPage.LocationScores | src/pages/FinalResultsPage.tsx:77 | one location score per round, in order |
| FinalResultsPage.NumericTimeScores | src/pages/FinalResultsPage.tsx:80 | exactly the time scores that are numbers survive the filter |
| FinalResultsPage.NumericTimeScoresPresent | src/pages/FinalResultsPage.tsx:80 | the surviving scores are the present per-round time scores, in round order and with repeats |
| FinalResultsPage.MetricsPayload | src/pages/FinalResultsPage.tsx:74-104 | XP and accuracy come from the final score; the game is perfect exactly at 100% with no hint used; both averages are means (0 when empty); each bullseye holds exactly when some round has year gap 0 or distance 0 |
| FinalResultsPage.HintsSpoilPerfection | src/pages/FinalResultsPage.tsx:74-75 | one hint in any round rules out a perfect game |
| FinalResultsPage.TotalHintsAtLeast | src/pages/FinalResultsPage.tsx:74 | the total hint count is at least any one round's count |
| FinalResultsPage.TotalHintsNonNegative | src/pages/FinalResultsPage.tsx:74 | with non-negative counts the total is non-negative |
| FinalResultsPage.MetricsEffect | src/pages/FinalResultsPage.tsx:70-121 | a payload is sent exactly for a signed-in user with a game id, before any successful update, with results and detail scores, when the game earned XP |
| FinalResultsPage.RedirectSendsNothing | src/pages/FinalResultsPage.tsx:46-51 | a page about to redirect home sends no metrics |
| FinalResultsPage.Step | src/pages/FinalResultsPage.tsx:107-141 | a successful update sets the flag; "play again" and "home" clear it; once it is set, nothing else sends again |
| FinalResultsPage.NothingSentAfterSuccess | src/pages/FinalResultsPage.tsx:71-113 | after a successful update, no sequence of events that stays on the page sends again |
| FinalResultsPage.PendingUpdateCanRepeat | src/pages/FinalResultsPage.tsx:70-121 | the flag is set only when the update returns, so the effect can send twice before that |
| FinalResultsPage.PlayAgainEffects | src/pages/FinalResultsPage.tsx:123-135 | "play again" resets the game first, clears the flag, navigates home and starts a solo game last |
| FinalResultsPage.HomeEffects | src/pages/FinalResultsPage.tsx:137-141 | "home" resets the game first, clears the flag and navigates home last, without starting a game |
| FinalResultsPage.TwoRoundFixture | src/pages/FinalResultsPage.test.tsx:267-279 | the two-round game of the page's test gives XP 170, 85%, not perfect, both averages 42.5 and no bullseye |
| Hints.SelectHint | src/hooks/useHint.ts:163-184 | selecting does nothing past either cap, for a null kind or for a kind without content; otherwise it appends the kind and raises both counters by exactly 1 |
| Hints.SameHintTwice | src/hooks/useHint.ts:177-183 | the hook accepts the same kind twice in one round |
| Hints.ResetHint | src/hooks/useHint.ts:193-203 | clears the selection, the contents, the loading flag, the error and the round counter, and keeps the game total |
| Hints.ResetHintsForRound | src/hooks/useHint.ts:206-213 | clears the selection and the round counter and keeps everything else, contents included |
| Hints.IncrementHints | src/hooks/useHint.ts:216-222 | raises the game total by 1 with no cap check and changes nothing else |
| Hints.CityRegion | src/hooks/useHint.ts:123-128 | a region is found exactly when one of the remaining city keywords occurs in the location, and it is the region of the first keyword that occurs |
| Hints.CityRegionFirstMatch | src/hooks/useHint.ts:123-128 | conversely, when keyword j occurs and no earlier one does, the region is keyword j's |
| Hints.CoordinateRegion | src/hooks/useHint.ts:134-139 | a southern latitude outside the European boxes gives "Southern Hemisphere" |
| Hints.RegionHint | src/hooks/useHint.ts:120-140 | always a non-empty region name; a city keyword wins, and only without one do the coordinates decide |
| Hints.CityRegionIsRegionName | src/hooks/useHint.ts:123-128 | every region a keyword yields is one of the known region names |
| Hints.SouthernHemisphere | src/hooks/useHint.ts:137 | a southern image without a city keyword is hinted "Southern Hemisphere" |
| Hints.KeywordBeatsCoordinates | src/hooks/useHint.ts:121-123 | "Old BERLIN" at Sydney's coordinates is "Central Europe": keywords ignore case and take precedence |
| Hints.DecadeOf | src/hooks/useHint.ts:146 | the decade is a multiple of 10 at most the year and less than 10 below it |
| Hints.DecadeHint | src/hooks/useHint.ts:143-148 | year 0 is exactly the "Unknown Period" case; otherwise the decade's digits followed by "s" |
| Hints.DecadeHintExample | src/hooks/useHint.ts:146-147 | 1948 is hinted "1940s" |
| Hints.GenerateHintData | src/hooks/useHint.ts:69-117 | without an image nothing changes; with one, both kinds have content (so the "no hint data" error never fires) and the counters and selection are kept |
| Hints.ApplyKeepsLimits | src/hooks/useHint.ts:163-213 | each of select, reset, round reset and generation keeps the round counter within 2 and the game counter within 10 |
| Hints.ApplyAllKeepsLimits | src/hooks/useHint.ts:163-213 | starting within the caps, no sequence of those operations exceeds them |
| Hints.IncrementPassesCap | src/hooks/useHint.ts:216-222 | `incrementHints` alone can push the game total past 10 |
| HintsV2.BeginPurchase | src/hooks/useHintV2.ts:114-130 | a purchase starts exactly with a user, an image and a known hint id not yet bought, whether or not another purchase is loading, and it only sets the loading flag |
| HintsV2.FinishPurchase | src/hooks/useHintV2.ts:142-155 | loading always ends; a failed call keeps the bought ids, a successful one appends the id |
| HintsV2.CountAppend | src/hooks/useHintV2.ts:150 | appending one id adds 1 to its count and nothing to the others |
| HintsV2.CountAbsent | src/hooks/useHintV2.ts:150 | an absent id has count 0 |
| HintsV2.PurchaseHint | src/hooks/useHintV2.ts:113-156 | a refused purchase changes nothing; a failed call only ends the hint loading; a successful one also appends the id, once, and changes nothing else |
| HintsV2.PurchaseKeepsIdsDistinct | src/hooks/useHintV2.ts:124-150 | if every bought id occurs once, it still does after any purchase |
| HintsV2.OfLevel | src/hooks/useHintV2.ts:246-252 | a level's bucket holds exactly the available hints of that level |
| HintsV2.Levels | src/hooks/useHintV2.ts:246-252 | the levels are exactly those some hint has |
| HintsV2.HintsByLevelPartitions | src/hooks/useHintV2.ts:246-252 | the grouping has a bucket for each level that occurs and no other, each holding exactly that level's hints in order |
| HintsV2.PurchasedHints | src/hooks/useHintV2.ts:255-257 | exactly the available hints whose id was bought, never more than are available |
| HintsV2.PurchasedHintsSnoc | src/hooks/useHintV2.ts:255-257 | a hint appended to the available ones is appended to the purchased ones exactly when its id was bought, so the order of the available hints is kept |
| HintsV2.PurchasedHintsCount | src/hooks/useHintV2.ts:255-257 | each bought hint appears as often as it is available, and any other hint not at all |
| HintsV2.Debts | src/hooks/useHintV2.ts:260-261 | nothing bought means no XP or accuracy debt |
| HintsV2.NothingPurchased | src/hooks/useHintV2.ts:255-257 | with no ids bought the purchased list is empty |
| HintsV2.SumXpConcat | src/hooks/useHintV2.ts:260 | the XP debt of two lists joined is the sum of their debts |
| HintsV2.SumAccConcat | src/hooks/useHintV2.ts:261 | likewise for the accuracy debt |
| HintsV2.PurchaseAddsCost | src/hooks/useHintV2.ts:255-261 | buying a new id adds exactly the costs of the hints with that id to both debts |
| HintsV2.PurchaseRaisesXpDebt | src/hooks/useHintV2.ts:255-261 | with unique ids, a successful purchase raises the XP debt by that hint's cost (0 when missing) |
| HintsV2.WithIdUnique | src/hooks/useHintV2.ts:255-257 | with unique ids, selecting by an available hint's id yields just that hint |
| HintsV2.WithIdNone | src/hooks/useHintV2.ts:255-257 | selecting by an id no hint has yields nothing |
| HintsV2.GenerateSampleHints | src/hooks/useHintV2.ts:277-394 | 12 hints for the given image, every one with both costs, levels exactly 1 to 4, all ids distinct |
| HintsV2.SampleIdsDistinct | src/hooks/useHintV2.ts:277-394 | hints built from the twelve distinct id prefixes and one image id have distinct ids |
| HintsV2.SampleLevels | src/hooks/useHintV2.ts:277-394 | hints built from the sample specifications cover exactly levels 1 to 4 |
| HintsV2.SamplePrefixesDistinct | src/hooks/useHintV2.ts:277-394 | the twelve sample id prefixes differ pairwise |
| HintsV2.SuffixCancels | src/hooks/useHintV2.ts:277-394 | different prefixes stay different after the same suffix |
| GameTimer.Start | src/hooks/useGameTimer.ts:18-47 | a reset restores the full time and clears the timeout |
| GameTimer.Tick | src/hooks/useGameTimer.ts:24-42 | an inactive, expired or finished timer does not move; otherwise it loses exactly one second, stays non-negative and fires exactly when it reaches 0 |
| GameTimer.Pause | src/hooks/useGameTimer.ts:49-52 | pausing changes nothing |
| GameTimer.AtMostOncePerReset | src/hooks/useGameTimer.ts:27-35 | over any run of ticks and resets, the timeout fires at most once per reset (plus once before the first) |
| GameTimer.NeverNegative | src/hooks/useGameTimer.ts:27-30 | from a non-negative time, ticking never goes below 0 |
| GameTimer.ZeroNeverFires | src/hooks/useGameTimer.ts:27 | a timer started at 0 never fires and never changes |
| GameTimer.ActiveSeconds | src/hooks/useGameTimer.ts:28 | n active one-second ticks |
| GameTimer.FiresAfterFullCountdown | src/hooks/useGameTimer.ts:24-42 | from n > 0, n or more active seconds end at 0, timed out, with exactly one firing |
| GameLayout.FormatTime | src/components/layouts/GameLayout1.tsx:12-16 | for s ≥ 0: the minutes, a colon and the seconds padded to two digits |
| GameLayout.SplitAtColon | src/components/layouts/GameLayout1.tsx:15 | a split puts the colon-free part before the first colon |
| GameLayout.SplitAfterDigits | src/components/layouts/GameLayout1.tsx:15 | a digit string, a colon and the rest split back into those two parts |
| GameLayout.FormatTimeRoundTrip | src/components/layouts/GameLayout1.tsx:13-15 | for s ≥ 0 the seconds field has exactly two characters and minutes·60 + seconds reads back as s |
| GameLayout.PaddedSecondsReadBack | src/components/layouts/GameLayout1.tsx:13-15 | a seconds value below 60, padded with a leading zero, is two digits that read back as itself |
| GameLayout.FormatTimeExamples | src/components/layouts/GameLayout1.tsx:12-16 | 65 shows as "1:05"; −5 shows as "-1:-5", from floor division and a remainder that keeps the sign |
| GameLayout.SelectCoordinates | src/components/layouts/GameLayout1.tsx:270-275 | the guess becomes the clicked point and the same point is forwarded to the map callback |
| GameLayout.BeginSubmit | src/components/layouts/GameLayout1.tsx:281-311 | nothing happens without a callback, without a guess or while submitting; otherwise the screen is marked as submitting and calls completion once |
| GameLayout.FinishSubmit | src/components/layouts/GameLayout1.tsx:329-332 | the flag clears exactly when the component is still mounted; the source never unmounts it in that sense (its mounted flag is reset only in a cleanup closure nobody calls), so in the program the flag always clears |
| GameLayout.DisabledMeansNoSubmit | src/components/layouts/GameLayout1.tsx:283-286 | when the button is disabled a submission does nothing; when enabled and a callback exists it completes |
| GameLayout.SubmitOncePerSettlement | src/components/layouts/GameLayout1.tsx:281-335 | over any run of clicks, completion is called at most once per settled submission (plus once at the start) |
| GameLayout.HandleTimeout | src/components/layouts/GameLayout1.tsx:161-192 | an aborted timeout does nothing (the source's abort sits in a cleanup closure nobody calls, so it never happens); otherwise a missing guess becomes (0, 0) before completion, completion is called last whenever a callback exists, and an existing guess is never overwritten |
| GameRound.ImageForRound | src/hooks/useGameRound.ts:75 | round n shows image n − 1, and there is one exactly for 1 ≤ n ≤ the number of images |
| GameRound.ResetForRound | src/hooks/useGameRound.ts:78-84 | a round change clears the guess, the location flag and the hint count, and sets the year to the current one |
| GameRound.MapClick | src/hooks/useGameRound.ts:99-103 | the guess becomes the clicked point and the location flag is set; year, hints and submission are kept |
| GameRound.YearSelect | src/hooks/useGameRound.ts:106-108 | only the selected year changes |
| GameRound.HintAllowance | src/hooks/useGameRound.ts:112 | an allowance of 0 means 3 |
| GameRound.UseHint | src/hooks/useGameRound.ts:111-115 | a hint is counted only below the allowance, and only the hint counter changes |
| GameRound.UseHintBounded | src/hooks/useGameRound.ts:111-115 | any number of hint clicks keeps the count within the allowance |
| GameRound.FinalScore | src/hooks/useGameRound.ts:146-149 | the final score is never negative and is 0 or exactly the XP minus 30 per hint |
| GameRound.RoundPercent | src/hooks/useGameRound.ts:152 | a score in [0, 2000] gives a percentage in [0, 100], and 2000 gives 100 |
| GameRound.TimeTaken | src/hooks/useGameRound.ts:168 | time taken plus time left is the round length, or 60 when that is 0 |
| GameRound.BeginSubmit | src/hooks/useGameRound.ts:123-184 | nothing happens while submitting or without an image; otherwise it marks the submission and builds a result for index n − 1, with a guess of (0, 0) when none was made, the distance from the guess to the image, the location XP of that distance, the time XP of the selected year against the image's, the non-negative final score, its percentage and the time taken |
| GameRound.FinishSubmit | src/hooks/useGameRound.ts:186-206 | success shows the results and leaves the flag set; a false result or an exception clears it and shows an error |
| GameRound.SubmitOnlyOnce | src/hooks/useGameRound.ts:124-197 | after a successful submission, a second call records nothing |
| GameRound.TimeoutSubmission | src/hooks/useGameRound.ts:131-168 | submitting with 0 seconds left records the whole round length and, without a pin, the guess (0, 0) |
| Reducer.SameFieldsSameState | src/contexts/GameContext/reducer.ts:34-45 | two states that agree on all ten fields are equal |
| Reducer.Reduce | src/contexts/GameContext/reducer.ts:48-75 | a `SET_*` action stores its payload in its own field and leaves the other nine alone; `RESET_GAME` yields the initial state whatever its payload; an unknown action changes nothing |
| Reducer.ReduceCharacterised | src/contexts/GameContext/reducer.ts:50-69 | the result of a `SET_*` action is exactly the state that holds the payload and agrees with the old state elsewhere |
| Reducer.ReduceIdempotent | src/contexts/GameContext/reducer.ts:48-75 | applying an action twice is the same as applying it once |
| Reducer.LastWriteWins | src/contexts/GameContext/reducer.ts:50-69 | of two writes to the same field, only the second counts |
| Reducer.DistinctWritesCommute | src/contexts/GameContext/reducer.ts:50-69 | writes to different fields commute |
| Reducer.HoldsDeterminesField | src/contexts/GameContext/reducer.ts:50-69 | two states holding the same payload agree on the written field |
| Reducer.ResetGameAction | src/contexts/GameContext/reducer.ts:119-122 | the reset creator carries the initial state |
| Reducer.ResetCreatorsAgree | src/contexts/GameContext/reducer.ts:70-122 | any reset action, from any state, gives the initial state |
| GameContext.MapImage | src/contexts/GameContext/GameContext.tsx:71-80 | the URL prefers `image_url`, then `url`, then ""; the title is never empty ("Untitled"); coordinates default to 0 and the year to the current one |
| GameContext.MapCompleteRow | src/contexts/GameContext/GameContext.tsx:71-80 | a row with every field filled maps field for field |
| GameContext.MapImages | src/contexts/GameContext/GameContext.tsx:276 | one mapped image per row, in order |
| GameContext.CurrentImage | src/contexts/GameContext/GameContext.tsx:111-112 | there is a current image exactly while fewer results than images exist, and it is the one at the result count |
| GameContext.CurrentImageAdvances | src/contexts/GameContext/GameContext.tsx:111-112 | recording a result moves the current image to the next one |
| GameContext.UpdateSettings | src/contexts/GameContext/GameContext.tsx:115-122 | each setting given replaces the current one, and nothing else changes |
| GameContext.ApplyGlobalDefaults | src/contexts/GameContext/GameContext.tsx:125-128 | the timer and hint allowance become the store's, nothing else changes |
| GameContext.DefaultsAreFullUpdate | src/contexts/GameContext/GameContext.tsx:115-128 | applying the defaults is the same as updating with both store values |
| GameContext.StartGame | src/contexts/GameContext/GameContext.tsx:240-291 | results are cleared and loading ends false; the settings come from the caller or the store; a game id remains exactly when images were fetched, and then the mapped images are set and only a new game navigates; otherwise an error is set and the old images are kept |
| GameContext.StartFailed | src/contexts/GameContext/GameContext.tsx:283-287 | a failed start sets the handled error and nulls the game id, and nothing else |
| GameContext.EmptyTableMessage | src/contexts/GameContext/GameContext.tsx:262-264 | an empty image table reports the no-images message |
| GameContext.BuildResult | src/contexts/GameContext/GameContext.tsx:311-339 | the result is stamped with its round and image; a missing guess is stored as (0, 0) but scored at distance 0 (accuracy 100); a falsy year becomes the current one; both XP fields are 0 |
| GameContext.Accuracies | src/contexts/GameContext/GameContext.tsx:346-347 | one accuracy per result, 0 standing in for a falsy one |
| GameContext.CompleteRound | src/contexts/GameContext/GameContext.tsx:302-306 | without a current image only the `NO_IMAGE_FOR_ROUND` error is set, and the results and store are kept |
| GameContext.SaveAndNavigate | src/contexts/GameContext/GameContext.tsx:353-375 | only the error can change; a successful save navigates |
| GameContext.CompleteRoundAppends | src/contexts/GameContext/GameContext.tsx:325-350 | exactly one result is appended, for the current image, with earlier results untouched; the total accuracy times the count is the sum of accuracies; total XP becomes 0; loading stays on |
| GameContext.CompleteRoundEnding | src/contexts/GameContext/GameContext.tsx:353-375 | a successful save stores the new results and navigates to the summary from the last image on, otherwise to the next round; a failed save keeps the appended result, sets the persistence error and rethrows |
| GameLogic.Initial | src/contexts/GameContext/useGameLogic.ts:48-57 | the first render has no ids, no images or results, the store's settings and zero totals |
| GameLogic.Completed | src/contexts/GameContext/useGameLogic.ts:282-294 | filling in falsy numbers with 0 changes no result |
| GameLogic.AccuracyList | src/contexts/GameContext/useGameLogic.ts:307 | one accuracy per result, in order |
| GameLogic.XpList | src/contexts/GameContext/useGameLogic.ts:311 | one location-plus-time XP per result, in order |
| GameLogic.TotalAccuracy | src/contexts/GameContext/useGameLogic.ts:307-308 | the total accuracy is the mean accuracy rounded half up to a whole number: 100 when the mean is at least 99.5, otherwise within half a point of the mean |
| GameLogic.RecordRoundResult | src/contexts/GameContext/useGameLogic.ts:267-345 | a missing image or an invalid result sets the matching error, keeps the results and reports false; otherwise exactly the result is appended, the totals are recomputed, and only a throwing insert with a game id reports false |
| GameLogic.TotalsBounded | src/contexts/GameContext/useGameLogic.ts:297-312 | with valid results and totals in step, total accuracy lies in [0, 100] and total XP in [0, 200 per round] |
| GameLogic.RecordKeepsTotals | src/contexts/GameContext/useGameLogic.ts:267-345 | recording, whether it succeeds or not, keeps the totals in step with the results and in range |
| GameLogic.RecordAppendsOne | src/contexts/GameContext/useGameLogic.ts:303-304 | a successful record appends just the given result and advances the round index by 1 |
| GameLogic.ApplySettings | src/contexts/GameContext/useGameLogic.ts:60-68 | each setting given replaces the current one, and nothing else changes |
| GameLogic.StartGame | src/contexts/GameContext/useGameLogic.ts:139-264 | the id is the given one or a fresh one; success exactly when no query or insert failed, and then the results and totals are zeroed; a failure sets the handled error and keeps the results; settings and images already applied before the failing step stay applied; loading ends false |
| GameLogic.StartKeepsTotals | src/contexts/GameContext/useGameLogic.ts:139-264 | a successful start leaves the totals in step with the (empty) results at round 0, and a failed one keeps them in step |
| GameLogic.LateFailureKeepsNewImages | src/contexts/GameContext/useGameLogic.ts:211-228 | a new game whose game insert fails reports failure yet shows the newly fetched images and the store's timer beside the old results |
| GameLogic.ResetGame | src/contexts/GameContext/useGameLogic.ts:348-359 | back to the first-render state with the store's settings, the loading flag untouched, and the save slot cleared, or left in place when its removal fails (the failure is swallowed) |
| GameLogic.Persisted | src/contexts/GameContext/useGameLogic.ts:82-91 | the saved record carries the id, room, images and results |
| GameLogic.Save | src/contexts/GameContext/useGameLogic.ts:79-118 | nothing is written without a game id; otherwise the state is persisted |
| GameLogic.LoadOnMount | src/contexts/GameContext/useGameLogic.ts:121-133 | when nothing loads the state is kept, and the store ends as the loader leaves it |
| GameLogic.SaveRestoreRoundTrip | src/contexts/GameContext/useGameLogic.ts:79-133 | a valid state saved and restored on the next mount comes back whole, loading and error aside |
| GameActions.WriteAt | src/hooks/useGameActions.ts:104-105 | writing at index i puts the value at i and keeps every other entry; past the end the list grows to i + 1 with holes in between; a negative index changes nothing |
| GameActions.RecordRoundResult | src/hooks/useGameActions.ts:95-118 | it throws exactly when the copied list has a hole other than the written slot; otherwise the results are the indexed write of the stamped result; total accuracy times the length is the sum of present accuracies; total XP is the sum of present scores |
| GameActions.Stamped | src/hooks/useGameActions.ts:98-103 | index, image id and actual coordinates come from the arguments and the image; every other field comes from the input |
| GameActions.LastWriteWins | src/hooks/useGameActions.ts:104-105 | recording the same index twice keeps the length and the second value |
| GameActions.RecordNextRound | src/hooks/useGameActions.ts:104-109 | recording the next index on a list without holes appends, adds the score to total XP and averages accuracy over the longer list |
| GameActions.RecordNextAppends | src/hooks/useGameActions.ts:95-118 | on a list without holes, recording one past the end stores the list with the stamped result appended and totals taken over that list |
| GameActions.SkippedRoundsDiluteAccuracy | src/hooks/useGameActions.ts:104-109 | recording 90% at index 2 of an empty list gives two holes and a total accuracy of 30 |
| GameActions.RecordAfterSkipThrows | src/hooks/useGameActions.ts:104-108 | after a skipped round, the next recording throws |
| GameActions.TotalAccuracyBounded | src/hooks/useGameActions.ts:108 | with all accuracies in [0, 100], so is the total |
| GameActions.StartGame | src/hooks/useGameActions.ts:40-93 | everything is reset and the slot cleared first; the id is the given or a fresh one; it navigates to round 1 exactly when images came back and the upsert succeeded, and then the images are a permutation of the fetched rows, hints and timer default to 3 and 60, and the settings store gets the same timer; a failure leaves the store alone and reports its message; after an upsert failure the shuffled images stay set and the message is "Error creating/updating game entry: " followed by the error's message or "undefined" |
| GameActions.StartForgetsPreviousGame | src/hooks/useGameActions.ts:40-93 | the outcome does not depend on the state the previous game left |
| GameActions.StartThenSync | src/hooks/useGameActions.ts:40-93 | after a successful start the store-sync effect changes nothing; a failed start leaves the store alone, so the sync effect does not run, and with a store timer of 0 the hook shows 60 while the store says 0 |
| GameActions.UpsertWithoutError | src/hooks/useGameActions.ts:77-79 | an upsert failure without an error object reports "undefined" |
| GameStateHook.Initial | src/hooks/useGameState.ts:34-44 | the first render has 3 hints and the store's timer, or 60 when that is 0 |
| GameStateHook.SyncTimer | src/hooks/useGameState.ts:46-49 | the timer follows the store and nothing else changes |
| GameStateHook.MountedTimerFollowsStore | src/hooks/useGameState.ts:42-49 | the sync on mount overrides the first render's fallback, so a store timer of 0 ends as 0 |
| GameStateHook.SetRoundTimerSec | src/hooks/useGameState.ts:52-55 | the hook's timer and the store's change to the same value, nothing else |
| GameStateHook.SetterThenSyncAgree | src/hooks/useGameState.ts:46-55 | after the unified setter the sync effect changes nothing |
| GameStateHook.SnapshotOf | src/hooks/useGameState.ts:60-69 | the snapshot omits the game id and is stamped with the time of writing |
| GameStateHook.Save | src/hooks/useGameState.ts:58-72 | it writes only with a room id and at least one image |
| GameStateHook.Restore | src/hooks/useGameState.ts:85-91 | a fresh snapshot restores lists (or empty), hints (or 3), timer (or 60) and totals (or 0), where 0 counts as missing |
| GameStateHook.Load | src/hooks/useGameState.ts:75-105 | nothing saved changes nothing; a snapshot under a day old is restored; a stale or unparsable one is removed and the state kept |
| GameStateHook.SaveLoadRoundTrip | src/hooks/useGameState.ts:58-91 | a save read back within the day restores room, images, results and totals; hints and timer of 0 come back as 3 and 60 |
| GameStateHook.DayOldIsStale | src/hooks/useGameState.ts:83-96 | a snapshot exactly 24 hours old is removed |
| GameStateHook.ClearSaved | src/hooks/useGameState.ts:108-110 | the slot is gone and all other keys are kept |
| GameStateHook.Reset | src/hooks/useGameState.ts:112-124 | back to the first-render state with the slot cleared |
| GameStateHook.ContextLoaderDropsHookSave | src/contexts/GameContext/storage.ts:23-37 | the game context's loader rejects and deletes this hook's snapshots, which lack a game id |
| GameStateHook.HookLoaderDropsContextSave | src/hooks/useGameState.ts:83-96 | this hook finds the game context's unstamped snapshots stale and deletes them |
| SettingsStore.EnableSound | src/lib/useSettingsStore.ts:20-22 | sound on, other settings kept |
| SettingsStore.DisableSound | src/lib/useSettingsStore.ts:23-25 | sound off, other settings kept |
| SettingsStore.ToggleSound | src/lib/useSettingsStore.ts:26-28 | sound flips, other settings kept |
| SettingsStore.ToggleLaws | src/lib/useSettingsStore.ts:20-28 | toggling twice restores the store; toggling is enabling or disabling by the current value; enabling and disabling are idempotent |
| SettingsStore.SetTimerSeconds | src/lib/useSettingsStore.ts:29-31 | only the timer changes |
| SettingsStore.SetHintsPerGame | src/lib/useSettingsStore.ts:32-34 | only the hint allowance changes |
| SettingsStore.SettersCommute | src/lib/useSettingsStore.ts:29-34 | the two setters commute |
| SettingsStore.SyncRow | src/lib/useSettingsStore.ts:35-49 | nothing is sent exactly for an empty user id; otherwise one row keyed by the user holds all three settings |
| Validation.BoundaryCases | src/contexts/GameContext/validation.ts:22-53 | coordinate bounds are inclusive; settings may be 0 but not negative; hints have no upper bound; a score above 100 or a future year is rejected |
| Validation.UrlPatternExamples | src/contexts/GameContext/validation.ts:63-72 | either scheme in any case is accepted, and something must follow the slashes |
| Validation.ToSnapshot | src/contexts/GameContext/storage.ts:12 | the written object carries no timestamp |
| Validation.FromSnapshot | src/contexts/GameContext/storage.ts:28-32 | a valid object read back and written again is the same object, timestamp aside |
| Validation.SnapshotRoundTrip | src/contexts/GameContext/validation.ts:82-98 | a written state validates exactly when all its images and results do, and then reads back as itself |
| Validation.NoGameIdRejected | src/contexts/GameContext/validation.ts:87 | an object without a game id never validates |
| LocalStore.ParseSnapshot | src/contexts/GameContext/storage.ts:25-28 | a blank slot or text that is not JSON yields nothing; a stored record parses to exactly that record |
| LocalStore.Remove | src/contexts/GameContext/storage.ts:35 | the key is gone afterwards, every other key keeps its value, and no key is added |
| Storage.Persist | src/contexts/GameContext/storage.ts:10-17 | a refused write raises the persistence error and changes nothing; otherwise only the slot is overwritten |
| Storage.Load | src/contexts/GameContext/storage.ts:23-38 | an empty slot gives null and changes nothing; otherwise a state comes back exactly when the text parses to a snapshot that validates, and it is the state read from that snapshot with the store kept; a bad or invalid slot gives null and is removed |
| Storage.UnparsableDropped | src/contexts/GameContext/storage.ts:23-38 | text that does not parse loads as null and is removed |
| Storage.Clear | src/contexts/GameContext/storage.ts:43-49 | the slot is gone (a failing removal is swallowed), and other keys are kept |
| Storage.PersistLoadRoundTrip | src/contexts/GameContext/storage.ts:10-32 | a valid state saved and loaded comes back unchanged, however old the save |
| Storage.PersistInvalidDropped | src/contexts/GameContext/storage.ts:28-36 | an invalid state saved and loaded gives null and empties the slot |
| Storage.ClearThenLoad | src/contexts/GameContext/storage.ts:43-49 | after clearing, a load finds nothing and changes nothing |
| Storage.LoadIdempotent | src/contexts/GameContext/storage.ts:23-38 | loading a second time returns the same and changes nothing more |
| Badges.Lookup | src/utils/badges/badgeService.ts:70-76 | a missing or zero figure reads as 0 |
| Badges.ConvertToUserGameMetrics | src/utils/badges/badgeService.ts:68-80 | each figure comes from its snake_case key, and both lists are empty |
| Badges.ConvertEmpty | src/utils/badges/badgeService.ts:55-80 | an empty record converts to the initial metrics |
| Badges.PeriodIndex | src/utils/badges/badgeService.ts:83-89 | every year falls in one of the five periods |
| Badges.PeriodForYear | src/utils/badges/badgeService.ts:83-89 | each period holds exactly the years of its range: before 1800, 1800–1899, 1900–1949, 1950–1999, 2000 on |
| Badges.PeriodsInOrder | src/utils/badges/badgeService.ts:83-89 | a later year never falls in an earlier period |
| Badges.CenturyOf | src/utils/badges/badgeService.ts:324 | the century is a multiple of 100 at most the year and less than 100 below it |
| Badges.AddIfAbsent | src/utils/badges/badgeService.ts:328-334 | the value is present afterwards, nothing is lost or invented, and a list without duplicates stays so |
| Badges.UpdateMetrics | src/utils/badges/badgeService.ts:314-334 | one more round; the best accuracies are the maxima; each perfect counter rises by 1 exactly at 95 or more, perfect rounds exactly when both are; the century and period are recorded without duplicates |
| Badges.MetricsKey | src/utils/badges/badgeService.ts:309 | the key is "user_game_metrics_" followed by the user id |
| Badges.AwardRoundBadges | src/utils/badges/badgeService.ts:295-345 | no badge is returned, and only the user's metrics slot changes, to the updated metrics |
| Badges.CheckAndAwardBadges | src/utils/badges/badgeService.ts:173-177 | no badge is ever returned |
| Badges.UpdatesKeepConsistent | src/utils/badges/badgeService.ts:314-334 | over any run of rounds the lists stay duplicate-free, the counters only grow and perfect rounds never exceed either perfect count |
| Badges.InitialConsistent | src/utils/badges/badgeService.ts:55-65 | the initial metrics satisfy that invariant |
| ContextErrors.CreateError | src/contexts/GameContext/errors.ts:10-14 | exactly the given code, message and details |
| ContextErrors.HandleError | src/contexts/GameContext/errors.ts:22-38 | always `UNKNOWN_ERROR` without details; the message is the default or a non-empty one; strings, null and other values give the default |
| ContextErrors.HandleErrorPicksFirstTruthy | src/contexts/GameContext/errors.ts:24-37 | the message is the first truthy candidate, in order: the error's message, the object's message, its inner error's message, its details, then the default |
| ContextErrors.StringErrorIgnored | src/contexts/GameContext/errors.ts:37 | a thrown string gives the default message |
| ContextErrors.ObjectMessageFirst | src/contexts/GameContext/errors.ts:29-30 | an object's own message beats its inner error and details |
| ErrorHandling.HandleError | src/utils/errorHandling.ts:25-37 | always `UNKNOWN_ERROR`; an `Error` gives its message or the default, with itself as details; a string gives itself or the default; anything else the default |
| ErrorHandling.HandlersCompared | src/utils/errorHandling.ts:25-37 | the two error handlers agree on errors and null, differ on non-empty strings, and only the context's reads plain objects |
| ErrorHandling.FormatErrorMessage | src/utils/errorHandling.ts:44-59 | never empty; fixed texts for the four known codes, a prefix for validation errors, else the message or the generic fallback |
| ErrorHandling.FormatHandled | src/utils/errorHandling.ts:25-59 | a handled error displays as its message, or the fallback when that is empty |
| ErrorHandling.HandleNetworkError | src/utils/errorHandling.ts:102-109 | a network error keeps the thrown value and displays the fixed connection text |
| ErrorHandling.HandleValidationError | src/utils/errorHandling.ts:111-118 | a validation error carries an `Error`'s message, or "Invalid input data." |
| ErrorHandling.HandleAuthorizationError | src/utils/errorHandling.ts:120-127 | an authorization error displays the fixed sign-in text |

## Left out

- Database I/O. All Supabase queries, inserts, upserts and RPCs are out: in
  the game-logic hook, the game-actions hook, the hint hooks, the settings
  sync and the badge service. Only their outcomes enter, as parameters:
  success, an error message, or a thrown value. Badge fetch and CRUD, realtime
  channels, auth and `completeGame` are out as well.
- The game context's database-only `recordRoundResult`
  (src/contexts/GameContext/GameContext.tsx:131-237). It only writes to the
  database and does not change the session state.
- `resetGame`, `fetchGlobalMetrics` and `refreshGlobalMetrics` in
  GameContext.tsx, and `fetchGlobalMetrics` in useGameLogic.ts. They are I/O,
  or one reducer dispatch that `Reducer.ResetCreatorsAgree` already covers.
- Distance geometry. The haversine `calculateDistance` and the flat
  √(Δlat² + Δlng²)·111 distance use trigonometry and floating point. Distances
  are inputs: `DistanceFn`, `DistanceKmFn` and `GameRound.Scorers`.
- Helper modules outside the core are function parameters and are not
  interpreted: `calculateLocationXP`, `calculateTimeXP`,
  `calculateTimeAccuracy`, `getTimeDifferenceDescription`,
  `calculateFinalScore`, `HINT_COSTS` and `shuffleArray`. The shuffle is
  constrained only to be a permutation of the fetched rows.
- GameRound.BeginSubmit and GameRound.FinishSubmit: the recorder that
  `handleSubmitGuess` calls cannot be identified from the hook, so its answer
  (true, false or a throw) is an input.
- Clocks and ids. `Date.now()`, `new Date().getFullYear()`, ISO timestamps
  and `uuidv4()` are parameters, or are left out where they only stamp a
  record.
- Floating point. Numbers are exact reals. Differences from IEEE-754 rounding
  (for example in `Math.round(x * 100) / 100`) are not modelled.
- React scheduling. Effects, `setTimeout`, `requestIdleCallback`,
  `AbortController`, unmounting, and state updates that are batched or stale
  inside a callback are all out. Each effect is an explicit call, and a timer
  tick is an explicit step.
- The round hook's missing-image effect (src/hooks/useGameRound.ts:87-96).
  Once loading ends with a game id, no image for the round and no error, it
  shows an error toast and navigates to `/test`. Toasts and routing outside
  the submission path are UI side effects and are not modelled.
- useHint.ts persists its counters and current hint in `localStorage`
  (src/hooks/useHint.ts:26-45, 150-160). The model keeps them in the hook's
  state only.
- useHintV2.ts's hint fetch and realtime refresh
  (src/hooks/useHintV2.ts:53-110, 159-243). The available hints are part of
  the state.
- RoundResultsPage.ParseRoundNumber: it reads only a leading run of decimal
  digits. `parseInt` also skips leading whitespace and accepts a sign, and
  such inputs give `NaN` here.
- Js.ToLower: lower-cases only the ASCII letters A–Z. The place names the keyword search sees are assumed to be ASCII.
- `applyGameSettings` in src/hooks/useGameActions.ts:33-38 is never called
  from the hook's own actions, so it has no separate member.
- Toasts, console logging, navigation side effects (modelled as returned
  route values), and everything that only renders.

Two quirks are modelled as written and stated as lemmas instead of being
corrected:
- The game-actions hook throws after a skipped round
  (`GameActions.RecordAfterSkipThrows`).
- The game context scores a missing guess as a bullseye
  (`GameContext.BuildResult`).

=== FILE: badges.dfy ===
/** The badge service's local bookkeeping (src/utils/badges/badgeService.ts):
    per-user play metrics kept in `localStorage`, updated after every round.
    Awarding badges is switched off in the source, so both award functions
    return no badges. */
module Badges {
  import opened Js
  import opened LocalStore

  /** A badge definition; none is ever returned. */
  datatype Badge = Badge(id: string, name: string)

  /** `createInitialMetrics`. */
  const InitialMetrics := UserGameMetrics(0.0, 0.0, 0.0, 0.0, 0.0, 0.0, 0.0, [], [])

  /** A database metrics record, `Record<string, number>`, keyed by snake_case names. */
  type MetricsTable = map<string, real>

  /** `record[key] || 0`. */
  function Lookup(record: MetricsTable, key: string): (r: real)
    ensures key in record && record[key] != 0.0 ==> r == record[key]
    ensures key !in record || record[key] == 0.0 ==> r == 0.0
  {
    if key in record then OrReal(record[key], 0.0) else 0.0
  }

  /** `convertToUserGameMetrics`: each figure read from its snake_case key,
      missing ones as 0, and both lists empty. */
  function ConvertToUserGameMetrics(record: MetricsTable): (r: UserGameMetrics)
    ensures r.totalRoundsPlayed == Lookup(record, "total_rounds_played")
    ensures r.totalGamesPlayed == Lookup(record, "games_played")
    ensures r.perfectYearGuesses == Lookup(record, "perfect_year_guesses")
    ensures r.perfectLocationGuesses == Lookup(record, "perfect_location_guesses")
    ensures r.perfectRounds == Lookup(record, "perfect_rounds")
    ensures r.highestYearAccuracy == Lookup(record, "highest_year_accuracy")
    ensures r.highestLocationAccuracy == Lookup(record, "highest_location_accuracy")
    ensures r.uniqueCenturiesSeen == [] && r.uniquePeriodsSeen == []
  {
    UserGameMetrics(
      Lookup(record, "total_rounds_played"),
      Lookup(record, "games_played"),
      Lookup(record, "perfect_year_guesses"),
      Lookup(record, "perfect_location_guesses"),
      Lookup(record, "perfect_rounds"),
      Lookup(record, "highest_year_accuracy"),
      Lookup(record, "highest_location_accuracy"),
      [], [])
  }

  /** An empty record converts to the initial metrics. */
  lemma ConvertEmpty()
    ensures ConvertToUserGameMetrics(map[]) == InitialMetrics
  {
  }

  const Periods: seq<string> := ["Pre-Industrial", "19th Century", "Early 20th Century", "Late 20th Century", "Modern Era"]

  /** The position of a year's period in `Periods`. */
  function PeriodIndex(year: int): (i: nat)
    ensures i < |Periods|
  {
    if year < 1800 then 0
    else if year < 1900 then 1
    else if year < 1950 then 2
    else if year < 2000 then 3
    else 4
  }

  /** `getPeriodForYear`: the five eras split at 1800, 1900, 1950 and 2000,
      each boundary year belonging to the later era. */
  function PeriodForYear(year: int): (r: string)
    ensures r in Periods
    ensures r == "Pre-Industrial" <==> year < 1800
    ensures r == "19th Century" <==> 1800 <= year < 1900
    ensures r == "Early 20th Century" <==> 1900 <= year < 1950
    ensures r == "Late 20th Century" <==> 1950 <= year < 2000
    ensures r == "Modern Era" <==> 2000 <= year
  {
    Periods[PeriodIndex(year)]
  }

  /** Later years never fall in earlier periods. */
  lemma PeriodsInOrder(a: int, b: int)
    requires a <= b
    ensures PeriodIndex(a) <= PeriodIndex(b)
  {
  }

  /** `Math.floor(year / 100) * 100`: the first year of the year's century. */
  function CenturyOf(year: int): (r: int)
    ensures r % 100 == 0 && r <= year < r + 100
  {
    (year / 100) * 100
  }

  predicate NoDuplicates<T(==)>(xs: seq<T>) {
    forall i, j :: 0 <= i < j < |xs| ==> xs[i] != xs[j]
  }

  /** `if (!xs.includes(x)) xs.push(x)`. */
  function AddIfAbsent<T(==)>(xs: seq<T>, x: T): (r: seq<T>)
    ensures x in r && forall y :: y in xs ==> y in r
    ensures forall y :: y in r ==> y in xs || y == x
    ensures x in xs ==> r == xs
    ensures x !in xs ==> r == xs + [x]
    ensures NoDuplicates(xs) ==> NoDuplicates(r)
  {
    if x in xs then xs else xs + [x]
  }

  /** An accuracy that counts as perfect. */
  const PerfectThreshold: real := 95.0

  /** The metrics update of `awardRoundBadges`: one more round, the best
      accuracies raised to the new ones, perfect counters for accuracies of 95
      or more (a perfect round when both are), and the century and period of
      the actual year recorded once. */
  function UpdateMetrics(m: UserGameMetrics, yearAccuracy: real, locationAccuracy: real, actualYear: int): (r: UserGameMetrics)
    ensures r.totalRoundsPlayed == m.totalRoundsPlayed + 1.0
    ensures r.totalGamesPlayed == m.totalGamesPlayed
    ensures r.highestYearAccuracy >= m.highestYearAccuracy && r.highestYearAccuracy >= yearAccuracy
    ensures r.highestYearAccuracy == m.highestYearAccuracy || r.highestYearAccuracy == yearAccuracy
    ensures r.highestLocationAccuracy >= m.highestLocationAccuracy && r.highestLocationAccuracy >= locationAccuracy
    ensures r.highestLocationAccuracy == m.highestLocationAccuracy || r.highestLocationAccuracy == locationAccuracy
    ensures r.perfectYearGuesses == m.perfectYearGuesses + (if yearAccuracy >= PerfectThreshold then 1.0 else 0.0)
    ensures r.perfectLocationGuesses == m.perfectLocationGuesses + (if locationAccuracy >= PerfectThreshold then 1.0 else 0.0)
    ensures r.perfectRounds == m.perfectRounds + 1.0 <==> yearAccuracy >= PerfectThreshold && locationAccuracy >= PerfectThreshold
    ensures r.perfectRounds == m.perfectRounds <==> !(yearAccuracy >= PerfectThreshold && locationAccuracy >= PerfectThreshold)
    ensures CenturyOf(actualYear) in r.uniqueCenturiesSeen && PeriodForYear(actualYear) in r.uniquePeriodsSeen
    ensures NoDuplicates(m.uniqueCenturiesSeen) ==> NoDuplicates(r.uniqueCenturiesSeen)
    ensures NoDuplicates(m.uniquePeriodsSeen) ==> NoDuplicates(r.uniquePeriodsSeen)
  {
    var yearPerfect := yearAccuracy >= PerfectThreshold;
    var locationPerfect := locationAccuracy >= PerfectThreshold;
    UserGameMetrics(
      m.totalRoundsPlayed + 1.0,
      m.totalGamesPlayed,
      m.perfectYearGuesses + (if yearPerfect then 1.0 else 0.0),
      m.perfectLocationGuesses + (if locationPerfect then 1.0 else 0.0),
      m.perfectRounds + (if yearPerfect && locationPerfect then 1.0 else 0.0),
      Max(m.highestYearAccuracy, yearAccuracy),
      Max(m.highestLocationAccuracy, locationAccuracy),
      AddIfAbsent(m.uniqueCenturiesSeen, CenturyOf(actualYear)),
      AddIfAbsent(m.uniquePeriodsSeen, PeriodForYear(actualYear)))
  }

  /** The slot holding a user's metrics. */
  function MetricsKey(userId: string): (k: string)
    ensures |k| == 18 + |userId| && k[..18] == "user_game_metrics_" && k[18..] == userId
  {
    "user_game_metrics_" + userId
  }

  /** `awardRoundBadges`: reads the user's metrics (initial ones when the slot
      is empty), updates them and writes them back. If reading fails (text
      that does not parse, or a game snapshot whose lists are missing) the
      error is swallowed and nothing is written. No badge is ever returned.
      `gameId`, `roundIndex` and `guessYear` are accepted and unused. */
  function AwardRoundBadges(store: Store, userId: string, gameId: string, roundIndex: int,
                            yearAccuracy: real, locationAccuracy: real, guessYear: int, actualYear: int): (r: (seq<Badge>, Store))
    ensures r.0 == []
    ensures var key := MetricsKey(userId);
      (!HasText(store, key) ==> r.1 == store[key := MetricsRecord(UpdateMetrics(InitialMetrics, yearAccuracy, locationAccuracy, actualYear))]) &&
      (HasText(store, key) && store[key].MetricsRecord? ==>
        r.1 == store[key := MetricsRecord(UpdateMetrics(store[key].metrics, yearAccuracy, locationAccuracy, actualYear))]) &&
      (HasText(store, key) && !store[key].MetricsRecord? ==> r.1 == store)
  {
    var key := MetricsKey(userId);
    if !HasText(store, key) then
      ([], store[key := MetricsRecord(UpdateMetrics(InitialMetrics, yearAccuracy, locationAccuracy, actualYear))])
    else match store[key]
      case MetricsRecord(m) => ([], store[key := MetricsRecord(UpdateMetrics(m, yearAccuracy, locationAccuracy, actualYear))])
      case _ => ([], store)
  }

  /** `checkAndAwardBadges`: awarding is disabled, so no badge is returned
      whatever the metrics. */
  function CheckAndAwardBadges(userId: string, metrics: UserGameMetrics): (r: seq<Badge>)
    ensures |r| == 0
  {
    []
  }

  /** The figures of one round handed to the badge service. */
  datatype RoundFigures = RoundFigures(yearAccuracy: real, locationAccuracy: real, actualYear: int)

  /** The metrics after a run of rounds. */
  function UpdateAll(m: UserGameMetrics, rounds: seq<RoundFigures>): UserGameMetrics
    decreases |rounds|
  {
    if |rounds| == 0 then m
    else UpdateAll(UpdateMetrics(m, rounds[0].yearAccuracy, rounds[0].locationAccuracy, rounds[0].actualYear), rounds[1..])
  }

  /** The metrics invariant: no repeated century or period, no more perfect
      rounds than perfect guesses of either kind, and no count above the number
      of rounds played. */
  predicate Consistent(m: UserGameMetrics) {
    NoDuplicates(m.uniqueCenturiesSeen) && NoDuplicates(m.uniquePeriodsSeen) &&
    0.0 <= m.perfectRounds <= m.perfectYearGuesses <= m.totalRoundsPlayed &&
    m.perfectRounds <= m.perfectLocationGuesses <= m.totalRoundsPlayed
  }

  /** Any run of rounds from consistent metrics keeps them consistent, counts
      exactly its rounds, and never lowers a best accuracy. */
  lemma {:induction false} UpdatesKeepConsistent(m: UserGameMetrics, rounds: seq<RoundFigures>)
    requires Consistent(m)
    ensures var r := UpdateAll(m, rounds);
      Consistent(r) &&
      r.totalRoundsPlayed == m.totalRoundsPlayed + |rounds| as real &&
      r.highestYearAccuracy >= m.highestYearAccuracy && r.highestLocationAccuracy >= m.highestLocationAccuracy
    decreases |rounds|
  {
    if |rounds| > 0 {
      var next := UpdateMetrics(m, rounds[0].yearAccuracy, rounds[0].locationAccuracy, rounds[0].actualYear);
      assert Consistent(next);
      UpdatesKeepConsistent(next, rounds[1..]);
    }
  }

  /** The initial metrics are consistent. */
  lemma InitialConsistent()
    ensures Consistent(InitialMetrics)
  {
  }
}

=== FILE: error_handling.dfy ===
/** The application-wide error helpers (src/utils/errorHandling.ts). They
    differ from the game context's: a thrown string becomes the message, an
    `Error` is kept as the details, and other objects are not looked into. */
module ErrorHandling {
  import opened Js
  import opened GameTypes
  import ContextErrors

  /** `handleError`: the code is always `UNKNOWN_ERROR`; an `Error` gives its
      message (or the default) and is kept as details; a string gives itself
      (or the default when empty); anything else gives the default. */
  function HandleError(error: Thrown, defaultMessage: string): (r: GameError)
    ensures r.code == ContextErrors.UnknownErrorCode
    ensures error.ErrorInstance? ==> r.message == OrStr(error.errorMessage, defaultMessage) && r.details == Some(error)
    ensures error.StringValue? ==> r.message == OrStr(error.text, defaultMessage) && r.details.None?
    ensures !error.ErrorInstance? && !error.StringValue? ==> r.message == defaultMessage && r.details.None?
  {
    match error
    case ErrorInstance(m) => ContextErrors.CreateError(ContextErrors.UnknownErrorCode, OrStr(m, defaultMessage), Some(error))
    case StringValue(s) => ContextErrors.CreateError(ContextErrors.UnknownErrorCode, OrStr(s, defaultMessage), None)
    case _ => ContextErrors.CreateError(ContextErrors.UnknownErrorCode, defaultMessage, None)
  }

  /** The two `handleError`s agree on the message of an `Error` and of a
      non-object, except for a non-empty thrown string; on objects the game
      context's looks into fields that this one ignores. */
  lemma HandlersCompared(error: Thrown, d: string)
    ensures error.ErrorInstance? || error.NullValue? || error.OtherValue? ==>
      HandleError(error, d).message == ContextErrors.HandleError(error, d).message
    ensures error.StringValue? && error.text != "" ==>
      HandleError(error, d).message == error.text && ContextErrors.HandleError(error, d).message == d
    ensures error.PlainObject? ==> HandleError(error, d).message == d
  {
  }

  const NetworkErrorText := "Network connection issue. Please check your internet connection and try again."
  const ValidationPrefix := "Validation error: "
  const UnauthorizedText := "You are not authorized to perform this action. Please sign in and try again."
  const NotFoundText := "The requested resource was not found."
  const ServerErrorText := "Server error. Our team has been notified and we are working to fix it."
  const FallbackText := "An unexpected error occurred. Please try again."

  /** The codes `formatErrorMessage` has a fixed text for. */
  predicate HasFixedText(code: string) {
    code == "NETWORK_ERROR" || code == "UNAUTHORIZED" || code == "NOT_FOUND" || code == "SERVER_ERROR"
  }

  /** `formatErrorMessage`: a fixed text for four codes, the message behind a
      prefix for validation errors, otherwise the message itself or a generic
      fallback. The result is never empty. */
  function FormatErrorMessage(error: GameError): (r: string)
    ensures r != ""
    ensures error.code == "NETWORK_ERROR" ==> r == NetworkErrorText
    ensures error.code == "UNAUTHORIZED" ==> r == UnauthorizedText
    ensures error.code == "NOT_FOUND" ==> r == NotFoundText
    ensures error.code == "SERVER_ERROR" ==> r == ServerErrorText
    ensures error.code == "VALIDATION_ERROR" ==>
      |r| == |ValidationPrefix| + |error.message| && r[..|ValidationPrefix|] == ValidationPrefix && r[|ValidationPrefix|..] == error.message
    ensures !HasFixedText(error.code) && error.code != "VALIDATION_ERROR" ==>
      (error.message != "" ==> r == error.message) && (error.message == "" ==> r == FallbackText)
  {
    if error.code == "NETWORK_ERROR" then NetworkErrorText
    else if error.code == "VALIDATION_ERROR" then ValidationPrefix + error.message
    else if error.code == "UNAUTHORIZED" then UnauthorizedText
    else if error.code == "NOT_FOUND" then NotFoundText
    else if error.code == "SERVER_ERROR" then ServerErrorText
    else OrStr(error.message, FallbackText)
  }

  /** Whatever `handleError` produces is shown as its message, or the fallback. */
  lemma FormatHandled(error: Thrown, d: string)
    ensures var e := HandleError(error, d);
      FormatErrorMessage(e) == (if e.message != "" then e.message else FallbackText)
  {
  }

  /** `handleNetworkError`, `handleValidationError` and `handleAuthorizationError`. */
  function HandleNetworkError(error: Thrown): (r: GameError)
    ensures r.code == "NETWORK_ERROR" && r.details == Some(error)
    ensures FormatErrorMessage(r) == NetworkErrorText
  {
    ContextErrors.CreateError("NETWORK_ERROR", "Connection failed. Please check your internet and try again.", Some(error))
  }

  function HandleValidationError(error: Thrown): (r: GameError)
    ensures r.code == "VALIDATION_ERROR" && r.details == Some(error)
    ensures error.ErrorInstance? ==> r.message == error.errorMessage
    ensures !error.ErrorInstance? ==> r.message == "Invalid input data."
  {
    ContextErrors.CreateError("VALIDATION_ERROR", if error.ErrorInstance? then error.errorMessage else "Invalid input data.", Some(error))
  }

  function HandleAuthorizationError(error: Thrown): (r: GameError)
    ensures r.code == "UNAUTHORIZED" && r.details == Some(error)
    ensures FormatErrorMessage(r) == UnauthorizedText
  {
    ContextErrors.CreateError("UNAUTHORIZED", "You are not authorized to perform this action.", Some(error))
  }
}

=== FILE: errors.dfy ===
/** Error normalisation of the game context (src/contexts/GameContext/errors.ts). */
module ContextErrors {
  import opened Js
  import opened GameTypes

  const UnknownErrorCode := "UNKNOWN_ERROR"

  /** `createError`: a `GameErrorType` holding exactly what it is given. */
  function CreateError(code: string, message: string, details: Option<Thrown>): (r: GameError)
    ensures r.code == code && r.message == message && r.details == details
  {
    GameError(code, message, details)
  }

  /** The messages `handleError` looks at, in the order it prefers them. */
  function Candidates(error: Thrown): seq<Option<string>> {
    match error
    case ErrorInstance(m) => [Some(m)]
    case PlainObject(m, inner, details) => [m, inner, details]
    case _ => []
  }

  /** The first truthy string of `xs`, or `d` when there is none. */
  function FirstTruthy(xs: seq<Option<string>>, d: string): string {
    if |xs| == 0 then d
    else if TruthyStr(xs[0]) then xs[0].value
    else FirstTruthy(xs[1..], d)
  }

  /** `handleError`. An `Error` gives its message, a non-null object its
      `message`, then its `error.message`, then its `details`; whatever is
      empty or missing falls through to the default. The code is always
      `UNKNOWN_ERROR` and no details are kept. */
  function HandleError(error: Thrown, defaultMessage: string): (r: GameError)
    ensures r.code == UnknownErrorCode && r.details.None?
    ensures r.message == defaultMessage || r.message != ""
    ensures error.StringValue? || error.NullValue? || error.OtherValue? ==> r.message == defaultMessage
  {
    match error
    case ErrorInstance(m) => CreateError(UnknownErrorCode, OrStr(m, defaultMessage), None)
    case PlainObject(m, inner, details) =>
      if TruthyStr(m) then CreateError(UnknownErrorCode, m.value, None)
      else if TruthyStr(inner) then CreateError(UnknownErrorCode, inner.value, None)
      else if TruthyStr(details) then CreateError(UnknownErrorCode, details.value, None)
      else CreateError(UnknownErrorCode, defaultMessage, None)
    case _ => CreateError(UnknownErrorCode, defaultMessage, None)
  }

  /** The message `handleError` picks is the first truthy candidate in
      preference order, or the default when there is none. */
  lemma HandleErrorPicksFirstTruthy(error: Thrown, d: string)
    ensures HandleError(error, d).message == FirstTruthy(Candidates(error), d)
  {
    var c := Candidates(error);
    if error.PlainObject? {
      assert c[1..] == [error.innerErrorMessage, error.detailsField];
      assert c[1..][1..] == [error.detailsField];
      assert FirstTruthy(c[1..][1..], d) == (if TruthyStr(error.detailsField) then error.detailsField.value else FirstTruthy([], d));
    }
  }

  /** A thrown string is not used as the message: the default is. */
  lemma StringErrorIgnored(s: string, d: string)
    ensures HandleError(StringValue(s), d).message == d
  {
  }

  /** A truthy `message` on an object always wins over `error.message` and `details`. */
  lemma ObjectMessageFirst(m: string, inner: Option<string>, details: Option<string>, d: string)
    requires m != ""
    ensures HandleError(PlainObject(Some(m), inner, details), d).message == m
  {
  }

  /** `new PersistenceError(...)` raised by a failed save. */
  const PersistenceFailure := ErrorInstance("Failed to save game state to local storage")
}

=== FILE: final_results.dfy ===
/** The end-of-game screen (src/pages/FinalResultsPage.tsx): the redirect when
    there is nothing to show, the metrics payload sent for the player, the flag
    meant to send it once, and the "play again" and "home" buttons. The overall
    XP and percentage come from a scoring helper outside the core and are inputs. */
module FinalResultsPage {
  import opened Js
  import opened GameTypes
  import opened RoundScores

  /** The aggregate the final-score helper produces. */
  datatype FinalScore = FinalScore(finalXP: real, finalPercent: real)

  /** The metrics update sent for the signed-in player. */
  datatype GameMetricsUpdate = GameMetricsUpdate(
    gameXP: real,
    gameAccuracy: real,
    isPerfectGame: bool,
    locationAccuracy: real,
    timeAccuracy: real,
    yearBullseye: bool,
    locationBullseye: bool)

  /** The screen leaves for home once loading is over and there is no game id
      or no result. */
  predicate ShouldRedirectHome(isLoading: bool, gameId: Option<string>, results: seq<RoundResult>) {
    !isLoading && (!TruthyStr(gameId) || |results| == 0)
  }

  function TotalHints(results: seq<RoundResult>): int {
    if results == [] then 0 else TotalHints(results[..|results| - 1]) + results[|results| - 1].hintsUsed
  }

  /** The location scores of the rounds (always numbers). */
  function LocationScores(detailed: seq<DetailedRoundScore>): (r: seq<real>)
    ensures |r| == |detailed|
    ensures forall i :: 0 <= i < |r| ==> r[i] == detailed[i].locationAccuracy.score
  {
    seq(|detailed|, i requires 0 <= i < |detailed| => detailed[i].locationAccuracy.score)
  }

  /** Each round's time score, a number or missing. */
  function TimeScoreOptions(detailed: seq<DetailedRoundScore>): (r: seq<Option<real>>)
    ensures |r| == |detailed| && forall i :: 0 <= i < |detailed| ==> r[i] == detailed[i].timeAccuracy.score
  {
    seq(|detailed|, i requires 0 <= i < |detailed| => detailed[i].timeAccuracy.score)
  }

  /** The time scores that are numbers, in round order. */
  function NumericTimeScores(detailed: seq<DetailedRoundScore>): (r: seq<real>)
    ensures |r| <= |detailed|
    ensures forall x :: x in r <==> exists i :: 0 <= i < |detailed| && detailed[i].timeAccuracy.score == Some(x)
  {
    if detailed == [] then []
    else
      var rest := NumericTimeScores(detailed[..|detailed| - 1]);
      var last := detailed[|detailed| - 1];
      assert forall i :: 0 <= i < |detailed| - 1 ==> detailed[..|detailed| - 1][i] == detailed[i];
      if last.timeAccuracy.score.Some? then rest + [last.timeAccuracy.score.value] else rest
  }

  /** The numeric time scores are exactly the present ones among the per-round
      options, kept in round order with repeats. */
  lemma {:induction false} NumericTimeScoresPresent(detailed: seq<DetailedRoundScore>)
    ensures NumericTimeScores(detailed) == Present(TimeScoreOptions(detailed))
  {
    if detailed != [] {
      var init := detailed[..|detailed| - 1];
      var last := detailed[|detailed| - 1];
      NumericTimeScoresPresent(init);
      assert TimeScoreOptions(detailed) == TimeScoreOptions(init) + [last.timeAccuracy.score];
      PresentSnoc(TimeScoreOptions(init), last.timeAccuracy.score);
    }
  }

  predicate YearBullseye(detailed: seq<DetailedRoundScore>) {
    exists i :: 0 <= i < |detailed| && detailed[i].timeAccuracy.yearDiff == Some(0)
  }

  predicate LocationBullseye(detailed: seq<DetailedRoundScore>) {
    exists i :: 0 <= i < |detailed| && detailed[i].locationAccuracy.distanceKm == 0.0
  }

  /** The payload assembled from the results, their detail scores and the aggregate. */
  function MetricsPayload(results: seq<RoundResult>, detailed: seq<DetailedRoundScore>, finalScore: FinalScore)
    : (r: GameMetricsUpdate)
    ensures r.gameXP == finalScore.finalXP && r.gameAccuracy == finalScore.finalPercent
    ensures r.isPerfectGame <==> finalScore.finalPercent == 100.0 && TotalHints(results) == 0
    ensures detailed == [] ==> r.locationAccuracy == 0.0
    ensures detailed != [] ==> r.locationAccuracy * |detailed| as real == Sum(LocationScores(detailed))
    ensures r.timeAccuracy == Mean(NumericTimeScores(detailed))
    ensures r.yearBullseye <==> exists i :: 0 <= i < |detailed| && detailed[i].timeAccuracy.yearDiff == Some(0)
    ensures r.locationBullseye <==> exists i :: 0 <= i < |detailed| && detailed[i].locationAccuracy.distanceKm == 0.0
  {
    GameMetricsUpdate(
      gameXP := finalScore.finalXP,
      gameAccuracy := finalScore.finalPercent,
      isPerfectGame := finalScore.finalPercent == 100.0 && TotalHints(results) == 0,
      locationAccuracy := Mean(LocationScores(detailed)),
      timeAccuracy := Mean(NumericTimeScores(detailed)),
      yearBullseye := YearBullseye(detailed),
      locationBullseye := LocationBullseye(detailed))
  }

  /** A game with at least one hint is never perfect, whatever its percentage. */
  lemma HintsSpoilPerfection(results: seq<RoundResult>, detailed: seq<DetailedRoundScore>, finalScore: FinalScore)
    requires forall i :: 0 <= i < |results| ==> results[i].hintsUsed >= 0
    requires exists i :: 0 <= i < |results| && results[i].hintsUsed > 0
    ensures !MetricsPayload(results, detailed, finalScore).isPerfectGame
  {
    var k :| 0 <= k < |results| && results[k].hintsUsed > 0;
    TotalHintsAtLeast(results, k);
  }

  lemma {:induction false} TotalHintsAtLeast(results: seq<RoundResult>, k: int)
    requires 0 <= k < |results|
    requires forall i :: 0 <= i < |results| ==> results[i].hintsUsed >= 0
    ensures TotalHints(results) >= results[k].hintsUsed
  {
    var init := results[..|results| - 1];
    TotalHintsNonNegative(init);
    if k < |results| - 1 {
      assert init[k] == results[k];
      TotalHintsAtLeast(init, k);
    }
  }

  lemma {:induction false} TotalHintsNonNegative(results: seq<RoundResult>)
    requires forall i :: 0 <= i < |results| ==> results[i].hintsUsed >= 0
    ensures TotalHints(results) >= 0
  {
    if results != [] {
      TotalHintsNonNegative(results[..|results| - 1]);
    }
  }

  /** The page's own state: whether this game's metrics were sent successfully. */
  datatype PageState = PageState(metricsUpdated: bool)

  /** The metrics effect: a payload is sent only for a signed-in player with a
      game id, before any successful update, with detail scores and results to
      report, and only when the game earned XP. */
  function MetricsEffect(page: PageState, userId: Option<string>, gameId: Option<string>,
                         results: seq<RoundResult>, detailed: seq<DetailedRoundScore>, finalScore: FinalScore)
    : (r: Option<GameMetricsUpdate>)
    ensures r.Some? <==>
      userId.Some? && TruthyStr(gameId) && !page.metricsUpdated && |detailed| > 0 && |results| > 0 &&
      finalScore.finalXP > 0.0
    ensures r.Some? ==> r.value == MetricsPayload(results, detailed, finalScore)
  {
    if userId.Some? && TruthyStr(gameId) && !page.metricsUpdated && |detailed| > 0 && |results| > 0 then
      var payload := MetricsPayload(results, detailed, finalScore);
      if finalScore.finalXP > 0.0 then Some(payload) else None
    else None
  }

  /** A page that redirects home (loading over, no game id or no result)
      never sends a metrics update. */
  lemma RedirectSendsNothing(page: PageState, userId: Option<string>, gameId: Option<string>,
                             results: seq<RoundResult>, detailed: seq<DetailedRoundScore>, finalScore: FinalScore)
    requires ShouldRedirectHome(false, gameId, results)
    ensures MetricsEffect(page, userId, gameId, results, detailed, finalScore).None?
  {
  }

  /** Everything that can happen on the page. */
  datatype PageEvent =
    | EffectRuns(userId: Option<string>, gameId: Option<string>, results: seq<RoundResult>,
                 detailed: seq<DetailedRoundScore>, finalScore: FinalScore)
    | UpdateSucceeded
    | UpdateFailed
    | PlayAgain
    | GoHome

  /** One event: the new page state and the payload sent, if any. */
  function Step(page: PageState, e: PageEvent): (r: (PageState, Option<GameMetricsUpdate>))
    ensures e.EffectRuns? ==> r.0 == page
    ensures e.UpdateSucceeded? ==> r.0.metricsUpdated
    ensures e.PlayAgain? || e.GoHome? ==> !r.0.metricsUpdated
    ensures !e.EffectRuns? ==> r.1.None?
    ensures page.metricsUpdated && !e.PlayAgain? && !e.GoHome? ==> r.0.metricsUpdated && r.1.None?
  {
    match e
    case EffectRuns(userId, gameId, results, detailed, finalScore) =>
      (page, MetricsEffect(page, userId, gameId, results, detailed, finalScore))
    case UpdateSucceeded => (PageState(true), None)
    case UpdateFailed => (page, None)
    case PlayAgain => (PageState(false), None)
    case GoHome => (PageState(false), None)
  }

  /** The payloads sent over a run of events. */
  function Run(page: PageState, events: seq<PageEvent>): (r: (PageState, seq<GameMetricsUpdate>))
    decreases |events|
  {
    if events == [] then (page, [])
    else
      var (next, sent) := Step(page, events[0]);
      var (final, rest) := Run(next, events[1..]);
      (final, (if sent.Some? then [sent.value] else []) + rest)
  }

  predicate LeavesGame(e: PageEvent) {
    e.PlayAgain? || e.GoHome?
  }

  /** Once an update has succeeded, nothing more is sent until the player
      leaves the game with "play again" or "home". */
  lemma {:induction false} NothingSentAfterSuccess(page: PageState, events: seq<PageEvent>)
    requires page.metricsUpdated
    requires forall i :: 0 <= i < |events| ==> !LeavesGame(events[i])
    ensures Run(page, events).1 == []
    ensures Run(page, events).0.metricsUpdated
    decreases |events|
  {
    if events != [] {
      NothingSentAfterSuccess(Step(page, events[0]).0, events[1..]);
    }
  }

  /** The flag is only set when the update resolves, so a second run of the
      effect while the first update is still pending sends the payload again. */
  lemma PendingUpdateCanRepeat(e: PageEvent)
    requires e.EffectRuns? && MetricsEffect(PageState(false), e.userId, e.gameId, e.results, e.detailed, e.finalScore).Some?
    ensures |Run(PageState(false), [e, e, UpdateSucceeded]).1| == 2
  {
    assert Run(PageState(true), []).1 == [];
    assert Run(PageState(false), [UpdateSucceeded]).1 == [];
    assert [e, UpdateSucceeded][1..] == [UpdateSucceeded];
    assert |Run(PageState(false), [e, UpdateSucceeded]).1| == 1;
    assert [e, e, UpdateSucceeded][1..] == [e, UpdateSucceeded];
  }

  /** What the two buttons do, in order. */
  datatype ButtonEffect = ResetGame | ClearMetricsFlag | NavigateHome | StartSoloGame

  function PlayAgainEffects(): (r: seq<ButtonEffect>)
    ensures |r| == 4 && r[0] == ResetGame && ClearMetricsFlag in r && r[|r| - 1] == StartSoloGame
    ensures NavigateHome in r && r[|r| - 2] == NavigateHome
  {
    [ResetGame, ClearMetricsFlag, NavigateHome, StartSoloGame]
  }

  function HomeEffects(): (r: seq<ButtonEffect>)
    ensures |r| == 3 && r[0] == ResetGame && ClearMetricsFlag in r && StartSoloGame !in r
    ensures r[|r| - 1] == NavigateHome
  {
    [ResetGame, ClearMetricsFlag, NavigateHome]
  }

  function FixtureResult(index: int, imageId: string, distance: real, score: real, guessYear: int,
                         xp: real, accuracy: real, hints: int, seconds: int): RoundResult {
    RoundResult(index, imageId, Some(Coordinates(51.6, -0.15)), Coordinates(51.5, -0.1),
      Some(distance), Some(score), Some(guessYear), xp, xp, accuracy, hints, seconds)
  }

  function FixtureDetail(imageId: string, locationScore: real, timeScore: real, distance: real, hints: int)
    : DetailedRoundScore {
    DetailedRoundScore(locationScore + timeScore, locationScore + timeScore,
      LocationAccuracy(locationScore, distance), TimeAccuracy(Some(timeScore), Some(5)),
      5, distance, 30 * hints, 15.0 * hints as real, imageId, "", 2000, 51.5, -0.1,
      None, Some(2005), hints)
  }

  /** The two-round game of the page's own test: one hint used, 85% overall,
      location and time scores 40 and 45, year off by 5 and no zero distance. */
  lemma TwoRoundFixture()
    ensures
      var results := [FixtureResult(0, "img1", 10.0, 80.0, 2005, 40.0, 80.0, 1, 30),
                      FixtureResult(1, "img2", 5.0, 90.0, 2015, 45.0, 90.0, 0, 25)];
      var detailed := [FixtureDetail("img1", 40.0, 40.0, 10.0, 1), FixtureDetail("img2", 45.0, 45.0, 5.0, 0)];
      MetricsPayload(results, detailed, FinalScore(170.0, 85.0)) ==
        GameMetricsUpdate(170.0, 85.0, false, 42.5, 42.5, false, false)
  {
    var detailed := [FixtureDetail("img1", 40.0, 40.0, 10.0, 1), FixtureDetail("img2", 45.0, 45.0, 5.0, 0)];
    assert detailed[..1] == [detailed[0]];
    assert NumericTimeScores(detailed[..1]) == [40.0];
    assert NumericTimeScores(detailed) == [40.0, 45.0];
    assert LocationScores(detailed) == [40.0, 45.0];
    assert [40.0, 45.0][..1] == [40.0];
    assert Sum([40.0]) == 40.0;
    assert Sum([40.0, 45.0]) == 85.0;
    assert !YearBullseye(detailed);
    assert !LocationBullseye(detailed);
  }
}

=== FILE: game_actions.dfy ===
/** The action hook built on the standalone game state
    (src/hooks/useGameActions.ts): `startGame`, which resets everything before
    fetching, and a `recordRoundResult` that writes at an index and totals the
    stored scores. The results array can have holes (an index past the end
    stretches it), so it is a list of optional results here; `reduce` skips
    the holes. */
module GameActions {
  import opened Js
  import opened GameTypes
  import opened LocalStore
  import GameStateHook
  import SettingsStore

  /** A JavaScript array of results, `None` marking a hole. */
  type Slots = seq<Option<RoundResult>>

  /** `newResults[index] = value` on a copy: an index inside replaces, one past
      the end appends, one further out leaves holes in between, and a negative
      index sets a property that is not an element. */
  function WriteAt(xs: Slots, index: int, value: RoundResult): (r: Slots)
    ensures index < 0 ==> r == xs
    ensures index >= 0 ==> |r| == (if index < |xs| then |xs| else index + 1)
    ensures index >= 0 ==> r[index] == Some(value)
    ensures forall i :: 0 <= i < |r| && i != index ==> (if i < |xs| then r[i] == xs[i] else r[i].None?)
  {
    if index < 0 then xs
    else if index < |xs| then xs[index := Some(value)]
    else xs + Holes(index - |xs|) + [Some(value)]
  }

  /** `n` holes in a row. */
  function Holes(n: nat): (r: Slots)
    ensures |r| == n && forall i :: 0 <= i < n ==> r[i].None?
  {
    seq(n, _ => None)
  }

  /** The sum of `f` over the elements present, as `reduce` visits them. */
  function SumPresent(xs: Slots, f: RoundResult -> real): real
    decreases |xs|
  {
    if xs == [] then 0.0
    else SumPresent(xs[..|xs| - 1], f) + (if xs[|xs| - 1].Some? then f(xs[|xs| - 1].value) else 0.0)
  }

  function AccuracyOrZero(r: RoundResult): real {
    OrReal(r.accuracy, 0.0)
  }

  function ScoreOrZero(r: RoundResult): real {
    r.score.GetOr(0.0)
  }

  /** What `recordRoundResult` stores: the results after the write, the total
      accuracy (`None` for the NaN of 0 / 0) and the total XP. */
  datatype Recorded = Recorded(results: Slots, totalAccuracy: Option<real>, totalXP: real)

  /** The copy `[...prevResults]` turns every hole into an `undefined` element,
      and reading `.accuracy` of one that the write does not cover throws. */
  predicate CopyHasUndefined(prev: Slots, index: int) {
    exists i :: 0 <= i < |prev| && i != index && prev[i].None?
  }

  /** `recordRoundResult(newResult, index, image)`, the state updater it passes:
      the result gets the index, the image's id and the image's coordinates and
      is written at the index; the accuracies are then summed over the list and
      divided by its length, and the scores summed (missing ones as 0). Holes
      the write itself creates are skipped by `reduce`; holes left by an earlier
      write were copied as `undefined` and make the updater throw (`None`), so
      nothing is stored. */
  function RecordRoundResult(prev: Slots, newResult: RoundResult, index: int, image: GameImage): (r: Option<Recorded>)
    ensures r.None? <==> CopyHasUndefined(prev, index)
    ensures r.Some? ==> r.value.results == WriteAt(prev, index, Stamped(newResult, index, image))
    ensures r.Some? ==> (r.value.totalAccuracy.None? <==> |prev| == 0 && index < 0)
    ensures r.Some? && r.value.totalAccuracy.Some? ==>
      r.value.totalAccuracy.value * |r.value.results| as real == SumPresent(r.value.results, AccuracyOrZero)
    ensures r.Some? ==> r.value.totalXP == SumPresent(r.value.results, ScoreOrZero)
  {
    if CopyHasUndefined(prev, index) then None
    else
      var results := WriteAt(prev, index, Stamped(newResult, index, image));
      Some(Recorded(
        results,
        if |results| > 0 then Some(SumPresent(results, AccuracyOrZero) / |results| as real) else None,
        SumPresent(results, ScoreOrZero)))
  }

  /** The result as written: index, image id and actual coordinates come from
      the arguments, whatever the input said; everything else is kept. */
  function Stamped(newResult: RoundResult, index: int, image: GameImage): (r: RoundResult)
    ensures r.roundIndex == index && r.imageId == image.id
    ensures r.actualCoordinates == Coordinates(image.latitude, image.longitude)
    ensures r.(roundIndex := newResult.roundIndex, imageId := newResult.imageId, actualCoordinates := newResult.actualCoordinates) == newResult
  {
    newResult.(roundIndex := index, imageId := image.id, actualCoordinates := Coordinates(image.latitude, image.longitude))
  }

  /** Writing the same index twice, when the first write leaves no hole, keeps
      the length of the first write and the second value. */
  lemma LastWriteWins(prev: Slots, a: RoundResult, b: RoundResult, index: int, image: GameImage)
    requires 0 <= index <= |prev|
    requires !CopyHasUndefined(prev, index)
    ensures var first := RecordRoundResult(prev, a, index, image);
      first.Some? &&
      var second := RecordRoundResult(first.value.results, b, index, image);
      second.Some? && |second.value.results| == |first.value.results| &&
      second.value.results == first.value.results[index := Some(Stamped(b, index, image))]
  {
  }

  /** The sum over a list can be split at its last element. */
  lemma {:induction false} SumPresentAppend(xs: Slots, x: Option<RoundResult>, f: RoundResult -> real)
    ensures SumPresent(xs + [x], f) == SumPresent(xs, f) + (if x.Some? then f(x.value) else 0.0)
  {
    assert (xs + [x])[..|xs|] == xs;
  }

  /** Holes add nothing to a sum. */
  lemma {:induction false} SumPresentHoles(xs: Slots, n: nat, f: RoundResult -> real)
    ensures SumPresent(xs + Holes(n), f) == SumPresent(xs, f)
    decreases n
  {
    if n == 0 {
      assert xs + Holes(0) == xs;
    } else {
      assert xs + Holes(n) == (xs + Holes(n - 1)) + [None];
      SumPresentAppend(xs + Holes(n - 1), None, f);
      SumPresentHoles(xs, n - 1, f);
    }
  }

  /** Recording for the next round in order on a list without holes appends,
      adds the new score to the total XP, and averages the accuracy over the
      longer list. */
  lemma RecordNextRound(prev: Slots, newResult: RoundResult, image: GameImage)
    requires forall i :: 0 <= i < |prev| ==> prev[i].Some?
    ensures var r := RecordRoundResult(prev, newResult, |prev|, image);
      var stamped := Stamped(newResult, |prev|, image);
      r.Some? && r.value.results == prev + [Some(stamped)] &&
      r.value.totalXP == SumPresent(prev, ScoreOrZero) + newResult.score.GetOr(0.0) &&
      r.value.totalAccuracy == Some((SumPresent(prev, AccuracyOrZero) + OrReal(newResult.accuracy, 0.0)) / (|prev| + 1) as real)
  {
    RecordNextAppends(prev, newResult, image);
    RecordNextTotals(prev, Stamped(newResult, |prev|, image), newResult);
  }

  /** On a list without holes, recording one past the end stores the list with
      the stamped result appended, and totals taken over that list. */
  lemma RecordNextAppends(prev: Slots, newResult: RoundResult, image: GameImage)
    requires forall i :: 0 <= i < |prev| ==> prev[i].Some?
    ensures var results := prev + [Some(Stamped(newResult, |prev|, image))];
      RecordRoundResult(prev, newResult, |prev|, image)
        == Some(Recorded(results, Some(SumPresent(results, AccuracyOrZero) / (|prev| + 1) as real), SumPresent(results, ScoreOrZero)))
  {
    assert !CopyHasUndefined(prev, |prev|);
    NextWriteAppends(prev, Stamped(newResult, |prev|, image));
  }

  /** The totals over a list with one result appended, in terms of the shorter
      list and the score and accuracy the result carries. */
  lemma RecordNextTotals(prev: Slots, stamped: RoundResult, newResult: RoundResult)
    requires stamped.score == newResult.score && stamped.accuracy == newResult.accuracy
    ensures SumPresent(prev + [Some(stamped)], ScoreOrZero) == SumPresent(prev, ScoreOrZero) + newResult.score.GetOr(0.0)
    ensures SumPresent(prev + [Some(stamped)], AccuracyOrZero) == SumPresent(prev, AccuracyOrZero) + OrReal(newResult.accuracy, 0.0)
    ensures SumPresent(prev + [Some(stamped)], AccuracyOrZero) / (|prev| + 1) as real
         == (SumPresent(prev, AccuracyOrZero) + OrReal(newResult.accuracy, 0.0)) / (|prev| + 1) as real
  {
    SumPresentAppend(prev, Some(stamped), ScoreOrZero);
    SumPresentAppend(prev, Some(stamped), AccuracyOrZero);
  }

  /** Writing one past the end appends. */
  lemma NextWriteAppends(prev: Slots, value: RoundResult)
    ensures WriteAt(prev, |prev|, value) == prev + [Some(value)]
  {
    assert prev + Holes(0) == prev;
  }

  /** Recording past the end leaves holes that count in the length but not
      in the sums, which pulls the average accuracy down. */
  lemma SkippedRoundsDiluteAccuracy(newResult: RoundResult, image: GameImage)
    requires OrReal(newResult.accuracy, 0.0) == 90.0
    ensures var r := RecordRoundResult([], newResult, 2, image);
      r.Some? && |r.value.results| == 3 && r.value.results[0].None? && r.value.results[1].None? &&
      r.value.totalAccuracy == Some(30.0)
  {
    var stamped := Stamped(newResult, 2, image);
    var results := WriteAt([], 2, stamped);
    assert results == [] + Holes(2) + [Some(stamped)];
    SumPresentAppend([] + Holes(2), Some(stamped), AccuracyOrZero);
    SumPresentHoles([], 2, AccuracyOrZero);
  }

  /** After a skipped round, recording any round that does not fill every
      hole throws: the earlier holes were copied as `undefined`. */
  lemma RecordAfterSkipThrows(first: RoundResult, next: RoundResult, image: GameImage)
    ensures var r := RecordRoundResult([], first, 2, image);
      r.Some? && RecordRoundResult(r.value.results, next, 3, image).None?
  {
    var results := WriteAt([], 2, Stamped(first, 2, image));
    assert results[0].None?;
  }

  /** A sum over values in [0, hi] lies in [0, n * hi], holes counting as 0. */
  lemma {:induction false} SumPresentBounds(xs: Slots, f: RoundResult -> real, hi: real)
    requires hi >= 0.0
    requires forall i :: 0 <= i < |xs| && xs[i].Some? ==> 0.0 <= f(xs[i].value) <= hi
    ensures 0.0 <= SumPresent(xs, f) <= |xs| as real * hi
    decreases |xs|
  {
    if xs != [] {
      var init := xs[..|xs| - 1];
      assert forall i :: 0 <= i < |init| ==> init[i] == xs[i];
      SumPresentBounds(init, f, hi);
      assert |xs| as real * hi == |init| as real * hi + hi;
    }
  }

  /** With every accuracy stored and recorded in [0, 100], the total accuracy
      stays in [0, 100]. */
  lemma TotalAccuracyBounded(prev: Slots, newResult: RoundResult, index: int, image: GameImage)
    requires forall i :: 0 <= i < |prev| && prev[i].Some? ==> 0.0 <= prev[i].value.accuracy <= 100.0
    requires 0.0 <= newResult.accuracy <= 100.0
    ensures var r := RecordRoundResult(prev, newResult, index, image);
      r.Some? && r.value.totalAccuracy.Some? ==> 0.0 <= r.value.totalAccuracy.value <= 100.0
  {
    var r := RecordRoundResult(prev, newResult, index, image);
    if r.Some? && r.value.totalAccuracy.Some? {
      var xs := r.value.results;
      forall i | 0 <= i < |xs| && xs[i].Some?
        ensures 0.0 <= AccuracyOrZero(xs[i].value) <= 100.0
      {
      }
      SumPresentBounds(xs, AccuracyOrZero, 100.0);
      ScaledBound(r.value.totalAccuracy.value, |xs| as real, 100.0);
    }
  }

  /** A number that times a positive n lies in [0, n * hi] lies in [0, hi]. */
  lemma ScaledBound(t: real, n: real, hi: real)
    requires n > 0.0 && 0.0 <= t * n <= n * hi
    ensures 0.0 <= t <= hi
  {
    assert t == (t * n) / n;
  }

  /** How the image query went: an error (with its message, if any), or the rows. */
  datatype ImagesQuery = ImagesFailed(message: Option<string>) | ImagesRows(rows: seq<GameImage>)

  /** How the games upsert went: the stored entry, or an error with its message, if any. */
  datatype UpsertOutcome = UpsertOk | UpsertFailed(message: Option<string>)

  /** What `startGame` leaves behind: the hook's state, local storage, the
      settings store, and the round-1 route it navigated to, if it did. */
  datatype StartResult = StartResult(state: GameStateHook.HookState, store: Store,
                                     settingsStore: SettingsStore.Settings, route: Option<string>)

  /** `${x?.message}` for an optional message: "undefined" when missing. */
  function Interpolated(message: Option<string>): string {
    if message.Some? then message.value else "undefined"
  }

  /** `startGame(settings, existingGameId)`. The whole state is reset first
      (clearing the save slot), then the game id is set to the given one or the
      fresh one. A failed or empty image query, or a failed upsert, stores the
      error's message and stops; otherwise the shuffled images are set, the
      hints and timer come from the settings (3 and 60 when missing or 0) and it
      moves to round 1 of the room. The timer is set through the game-state
      hook's unified setter, so the settings store's timer changes with it; the
      reset before uses the plain one and leaves the store alone. Loading ends
      false either way. */
  function StartGame(s: GameStateHook.HookState, settings: PartialSettings, existingGameId: Option<string>,
                     freshId: string, prefs: SettingsStore.Settings, slots: Store, images: ImagesQuery,
                     shuffled: seq<GameImage>, upsert: UpsertOutcome): (r: StartResult)
    requires images.ImagesRows? ==> multiset(shuffled) == multiset(images.rows)
    ensures GameStorageKey !in r.store
    ensures !r.state.isLoading && r.state.roomId.None? && r.state.roundResults == []
    ensures r.state.totalGameAccuracy == 0.0 && r.state.totalGameXP == 0.0
    ensures r.state.gameId == Some(OptOrStr(existingGameId, freshId))
    ensures r.route.Some? <==> images.ImagesRows? && |images.rows| > 0 && upsert.UpsertOk?
    ensures r.route.Some? ==>
      r.route.value == "/test/game/room/" + OptOrStr(existingGameId, freshId) + "/round/1" &&
      r.state.error.None? && r.state.images == shuffled && multiset(r.state.images) == multiset(images.rows) &&
      r.state.hintsAllowed == OptOrInt(settings.hintsPerGame, 3) &&
      r.state.roundTimerSec == OptOrInt(settings.timerSeconds, 60) &&
      r.settingsStore == prefs.(timerSeconds := OptOrInt(settings.timerSeconds, 60))
    ensures r.route.None? ==>
      r.state.error.Some? && r.state.hintsAllowed == 3 && r.state.roundTimerSec == OrInt(prefs.timerSeconds, 60) &&
      r.settingsStore == prefs
    ensures images.ImagesFailed? || (images.ImagesRows? && |images.rows| == 0) ==>
      r.state.images == [] &&
      r.state.error == Some("Error fetching random images: " + OptOrStr(if images.ImagesFailed? then images.message else None, "No images found"))
    ensures images.ImagesRows? && |images.rows| > 0 && upsert.UpsertFailed? ==>
      r.state.images == shuffled && r.state.error == Some("Error creating/updating game entry: " + Interpolated(upsert.message))
  {
    var (reset, slots1) := GameStateHook.Reset(prefs.timerSeconds, slots);
    var gameId := OptOrStr(existingGameId, freshId);
    var s1 := reset.(gameId := Some(gameId));
    match images
    case ImagesFailed(m) =>
      StartResult(s1.(error := Some("Error fetching random images: " + OptOrStr(m, "No images found"))), slots1, prefs, None)
    case ImagesRows(rows) =>
      if |rows| == 0 then
        StartResult(s1.(error := Some("Error fetching random images: " + OptOrStr(None, "No images found"))), slots1, prefs, None)
      else
        var s2 := s1.(images := shuffled);
        match upsert
        case UpsertFailed(m) =>
          StartResult(s2.(error := Some("Error creating/updating game entry: " + Interpolated(m))), slots1, prefs, None)
        case UpsertOk =>
          var (s3, prefs1) := GameStateHook.SetRoundTimerSec(s2.(hintsAllowed := OptOrInt(settings.hintsPerGame, 3)),
                                                             prefs, OptOrInt(settings.timerSeconds, 60));
          StartResult(s3, slots1, prefs1, Some("/test/game/room/" + gameId + "/round/1"))
  }

  /** The start forgets the game before it: its outcome is the same from any
      previous state. */
  lemma StartForgetsPreviousGame(s: GameStateHook.HookState, t: GameStateHook.HookState, settings: PartialSettings,
                                 existingGameId: Option<string>, freshId: string, prefs: SettingsStore.Settings,
                                 slots: Store, images: ImagesQuery, shuffled: seq<GameImage>, upsert: UpsertOutcome)
    requires images.ImagesRows? ==> multiset(shuffled) == multiset(images.rows)
    ensures StartGame(s, settings, existingGameId, freshId, prefs, slots, images, shuffled, upsert)
         == StartGame(t, settings, existingGameId, freshId, prefs, slots, images, shuffled, upsert)
  {
  }

  /** After a successful start the hook's timer and the settings store agree,
      so the hook's sync effect changes nothing. A failed start leaves the store
      as it was, so the sync effect (which re-runs only when the store's timer
      changes) does not run: with a store timer of 0 the reset's `|| 60`
      fallback stays on show while the store still says 0. */
  lemma StartThenSync(s: GameStateHook.HookState, settings: PartialSettings, existingGameId: Option<string>,
                      freshId: string, prefs: SettingsStore.Settings, slots: Store, images: ImagesQuery,
                      shuffled: seq<GameImage>, upsert: UpsertOutcome)
    requires images.ImagesRows? ==> multiset(shuffled) == multiset(images.rows)
    ensures var r := StartGame(s, settings, existingGameId, freshId, prefs, slots, images, shuffled, upsert);
      (r.route.Some? ==> GameStateHook.SyncTimer(r.state, r.settingsStore.timerSeconds) == r.state) &&
      (r.route.None? && prefs.timerSeconds == 0 ==>
         r.settingsStore == prefs && r.state.roundTimerSec == 60 && r.state.roundTimerSec != r.settingsStore.timerSeconds)
  {
  }

  /** An upsert failing without an error object reports "undefined" as its message. */
  lemma UpsertWithoutError(s: GameStateHook.HookState, settings: PartialSettings, existingGameId: Option<string>,
                           freshId: string, prefs: SettingsStore.Settings, slots: Store, rows: seq<GameImage>, shuffled: seq<GameImage>)
    requires |rows| > 0 && multiset(shuffled) == multiset(rows)
    ensures StartGame(s, settings, existingGameId, freshId, prefs, slots, ImagesRows(rows), shuffled, UpsertFailed(None)).state.error
      == Some("Error creating/updating game entry: undefined")
  {
    assert "Error creating/updating game entry: " + Interpolated(None) == "Error creating/updating game entry: undefined";
  }
}

=== FILE: game_context.dfy ===
/** The game provider's own logic (src/contexts/GameContext/GameContext.tsx):
    mapping database images, the current round derived from the results so
    far, settings, `startGame` and the state kernel of `completeRound`. Every
    state change goes through the reducer. The image query, the games insert
    and the haversine distance are parameters. */
module GameContext {
  import opened Js
  import opened GameTypes
  import opened LocalStore
  import Reducer
  import Scoring
  import ContextErrors
  import Storage
  import SettingsStore

  /** An `images` row as the database returns it; every column may be missing. */
  datatype DbImage = DbImage(
    id: string,
    imageUrl: Option<string>,
    url: Option<string>,
    title: Option<string>,
    description: Option<string>,
    latitude: Option<real>,
    longitude: Option<real>,
    year: Option<int>,
    locationName: Option<string>)

  /** `mapSupabaseImageToGameImage`: `image_url`, else `url`, else ""; title
      "Untitled"; coordinates 0; the current year; other text "". Each default
      also replaces an empty or zero value. */
  function MapImage(db: DbImage, currentYear: int): (r: GameImage)
    ensures r.id == db.id
    ensures TruthyStr(db.imageUrl) ==> r.imageUrl == db.imageUrl.value
    ensures !TruthyStr(db.imageUrl) ==> r.imageUrl == OptOrStr(db.url, "")
    ensures r.title == OptOrStr(db.title, "Untitled") && r.title != ""
    ensures r.description == OptOrStr(db.description, "")
    ensures r.latitude == OptOrReal(db.latitude, 0.0) && r.longitude == OptOrReal(db.longitude, 0.0)
    ensures r.year == OptOrInt(db.year, currentYear)
    ensures r.locationName == OptOrStr(db.locationName, "")
  {
    GameImage(
      id := db.id,
      title := OptOrStr(db.title, "Untitled"),
      description := OptOrStr(db.description, ""),
      latitude := OptOrReal(db.latitude, 0.0),
      longitude := OptOrReal(db.longitude, 0.0),
      year := OptOrInt(db.year, currentYear),
      imageUrl := if TruthyStr(db.imageUrl) then db.imageUrl.value else OptOrStr(db.url, ""),
      locationName := OptOrStr(db.locationName, ""))
  }

  /** A row with every column filled in maps field for field. */
  lemma MapCompleteRow(db: DbImage, currentYear: int)
    requires TruthyStr(db.imageUrl) && TruthyStr(db.title) && TruthyStr(db.description) && TruthyStr(db.locationName)
    requires db.latitude.Some? && db.longitude.Some? && db.year.Some? && db.year.value != 0
    ensures MapImage(db, currentYear) ==
      GameImage(db.id, db.title.value, db.description.value, db.latitude.value, db.longitude.value,
                db.year.value, db.imageUrl.value, db.locationName.value)
  {
  }

  function MapImages(rows: seq<DbImage>, currentYear: int): (r: seq<GameImage>)
    ensures |r| == |rows|
    ensures forall i :: 0 <= i < |rows| ==> r[i] == MapImage(rows[i], currentYear)
  {
    seq(|rows|, i requires 0 <= i < |rows| => MapImage(rows[i], currentYear))
  }

  /** The round being played is the number of results recorded so far; its
      image is the one at that index, `null` once the images are used up. */
  function CurrentImage(s: GameState): (r: Option<GameImage>)
    ensures r.Some? <==> |s.roundResults| < |s.images|
    ensures r.Some? ==> r.value == s.images[|s.roundResults|]
  {
    if |s.images| > |s.roundResults| then Some(s.images[|s.roundResults|]) else None
  }

  /** Recording a result moves the current image one place along. */
  lemma CurrentImageAdvances(s: GameState, result: RoundResult)
    requires |s.roundResults| + 1 < |s.images|
    ensures CurrentImage(s.(roundResults := s.roundResults + [result])) == Some(s.images[|s.roundResults| + 1])
  {
  }

  /** `updateSettings`: each setting given is dispatched, the others are kept. */
  function UpdateSettings(s: GameState, settings: PartialSettings): (r: GameState)
    ensures r.roundTimerSec == settings.timerSeconds.GetOr(s.roundTimerSec)
    ensures r.hintsAllowed == settings.hintsPerGame.GetOr(s.hintsAllowed)
    ensures r == s.(roundTimerSec := r.roundTimerSec, hintsAllowed := r.hintsAllowed)
  {
    var s1 := if settings.timerSeconds.Some? then Reducer.Reduce(s, Reducer.SetRoundTimerSec(settings.timerSeconds.value)) else s;
    if settings.hintsPerGame.Some? then Reducer.Reduce(s1, Reducer.SetHintsAllowed(settings.hintsPerGame.value)) else s1
  }

  /** `applyGlobalDefaultSettings`: the settings store's timer and hints. */
  function ApplyGlobalDefaults(s: GameState, store: SettingsStore.Settings): (r: GameState)
    ensures r.roundTimerSec == store.timerSeconds && r.hintsAllowed == store.hintsPerGame
    ensures r == s.(roundTimerSec := r.roundTimerSec, hintsAllowed := r.hintsAllowed)
  {
    Reducer.Reduce(Reducer.Reduce(s, Reducer.SetRoundTimerSec(store.timerSeconds)), Reducer.SetHintsAllowed(store.hintsPerGame))
  }

  /** Applying the store's values is updating with both of them given. */
  lemma DefaultsAreFullUpdate(s: GameState, store: SettingsStore.Settings)
    ensures ApplyGlobalDefaults(s, store) == UpdateSettings(s, PartialSettings(Some(store.timerSeconds), Some(store.hintsPerGame)))
  {
  }

  /** The number of rows the image query asks for. */
  const DefaultImagesPerGame := 5

  /** What the image query gave: an error, or the rows (at most the limit). */
  datatype FetchOutcome = FetchFailed(error: Thrown) | Fetched(rows: seq<DbImage>)

  const NoImagesError := ErrorInstance("No images found for the game.")

  /** `startGame`. It marks loading, clears the error, adopts the given game id
      (or the fresh one when that is missing or empty), clears the results and
      applies the settings (the given ones, else the store's). A failed or
      empty query sets the error and nulls the game id, keeping the images of
      any earlier game; otherwise the mapped images are set, and a new game
      moves to round 1. Loading ends false either way; the totals of an
      earlier game are not touched. The second component says whether it
      navigated. */
  function StartGame(s: GameState, existingGameId: Option<string>, initialSettings: Option<PartialSettings>,
                     freshId: string, store: SettingsStore.Settings, fetch: FetchOutcome, currentYear: int): (r: (GameState, bool))
    ensures !r.0.isLoading && r.0.roundResults == []
    ensures r.0.roomId == s.roomId && r.0.totalGameAccuracy == s.totalGameAccuracy && r.0.totalGameXP == s.totalGameXP
    ensures initialSettings.Some? ==>
      r.0.roundTimerSec == initialSettings.value.timerSeconds.GetOr(s.roundTimerSec) &&
      r.0.hintsAllowed == initialSettings.value.hintsPerGame.GetOr(s.hintsAllowed)
    ensures initialSettings.None? ==> r.0.roundTimerSec == store.timerSeconds && r.0.hintsAllowed == store.hintsPerGame
    ensures r.0.gameId.Some? <==> fetch.Fetched? && |fetch.rows| > 0
    ensures r.0.gameId.Some? ==>
      r.0.gameId.value == OptOrStr(existingGameId, freshId) && r.0.error.None? &&
      r.0.images == MapImages(fetch.rows, currentYear) &&
      (r.1 <==> !TruthyStr(existingGameId))
    ensures r.0.gameId.None? ==>
      r.0.images == s.images && !r.1 &&
      r.0.error.Some? && r.0.error.value.code == ContextErrors.UnknownErrorCode
  {
    var s1 := Reducer.Reduce(Reducer.Reduce(s, Reducer.SetIsLoading(true)), Reducer.SetError(None));
    var gameId := OptOrStr(existingGameId, freshId);
    var s2 := Reducer.Reduce(Reducer.Reduce(s1, Reducer.SetGameId(Some(gameId))), Reducer.SetRoundResults([]));
    var s3 := if initialSettings.Some? then UpdateSettings(s2, initialSettings.value) else ApplyGlobalDefaults(s2, store);
    var (s4, navigated) :=
      match fetch
      case FetchFailed(e) => (StartFailed(s3, e), false)
      case Fetched(rows) =>
        if |rows| == 0 then (StartFailed(s3, NoImagesError), false)
        else (Reducer.Reduce(s3, Reducer.SetImages(MapImages(rows, currentYear))), !TruthyStr(existingGameId));
    (Reducer.Reduce(s4, Reducer.SetIsLoading(false)), navigated)
  }

  /** The `catch` of `startGame`: the handled error is set and the game id nulled. */
  function StartFailed(s: GameState, e: Thrown): (r: GameState)
    ensures r.error == Some(ContextErrors.HandleError(e, "Failed to start game.")) && r.gameId.None?
    ensures r == s.(error := r.error, gameId := None)
  {
    Reducer.Reduce(Reducer.Reduce(s, Reducer.SetError(Some(ContextErrors.HandleError(e, "Failed to start game.")))), Reducer.SetGameId(None))
  }

  /** An empty image table reports its own message, not the default. */
  lemma EmptyTableMessage(s: GameState, existingGameId: Option<string>, initialSettings: Option<PartialSettings>,
                          freshId: string, store: SettingsStore.Settings, currentYear: int)
    ensures StartGame(s, existingGameId, initialSettings, freshId, store, Fetched([]), currentYear).0.error.value.message
      == "No images found for the game."
  {
  }

  /** What the round screen hands to `completeRound`. */
  datatype RoundInput = RoundInput(guessCoordinates: Option<Coordinates>, guessYear: Option<int>,
                                   hintsUsed: int, timeTakenSeconds: int)

  /** The haversine distance in km between a guess and the actual place. */
  type DistanceKmFn = (Coordinates, Coordinates) -> real

  datatype Route = SummaryRoute | RoundRoute(roundNumber: int)

  /** How `completeRound` ended: no image to score against, a navigation, or
      the persistence error it re-throws. */
  datatype CompleteOutcome = MissingImage | Navigated(route: Route) | Rethrew(error: Thrown)

  /** The result `completeRound` records for the current image. A missing
      guess is stored as (0, 0) but scored at distance 0; a missing year
      becomes the current year; XP is left at 0. */
  function BuildResult(roundIndex: int, image: GameImage, input: RoundInput, distanceKm: DistanceKmFn, currentYear: int): (r: RoundResult)
    ensures r.roundIndex == roundIndex && r.imageId == image.id
    ensures r.guessCoordinates == Some(input.guessCoordinates.GetOr(Origin))
    ensures r.actualCoordinates == Coordinates(image.latitude, image.longitude)
    ensures input.guessCoordinates.None? ==> r.distanceKm == Some(0.0) && r.accuracy == 100.0
    ensures input.guessCoordinates.Some? ==>
      r.distanceKm == Some(distanceKm(input.guessCoordinates.value, Coordinates(image.latitude, image.longitude)))
    ensures r.accuracy == Scoring.Accuracy(r.distanceKm.value)
    ensures r.score == Some(Scoring.Score(r.accuracy, input.timeTakenSeconds as real) as real)
    ensures r.guessYear == Some(OptOrInt(input.guessYear, currentYear))
    ensures r.xpWhere == 0.0 && r.xpWhen == 0.0
    ensures r.hintsUsed == input.hintsUsed && r.timeTakenSeconds == input.timeTakenSeconds
  {
    var actual := Coordinates(image.latitude, image.longitude);
    var distance := if input.guessCoordinates.Some? then distanceKm(input.guessCoordinates.value, actual) else 0.0;
    var accuracy := Scoring.Accuracy(distance);
    RoundResult(
      roundIndex := roundIndex,
      imageId := image.id,
      guessCoordinates := Some(input.guessCoordinates.GetOr(Origin)),
      actualCoordinates := actual,
      distanceKm := Some(distance),
      score := Some(Scoring.Score(accuracy, OrInt(input.timeTakenSeconds, 0) as real) as real),
      guessYear := Some(OptOrInt(input.guessYear, currentYear)),
      xpWhere := 0.0,
      xpWhen := 0.0,
      accuracy := accuracy,
      hintsUsed := OrInt(input.hintsUsed, 0),
      timeTakenSeconds := OrInt(input.timeTakenSeconds, 0))
  }

  function Accuracies(results: seq<RoundResult>): (r: seq<real>)
    ensures |r| == |results|
    ensures forall i :: 0 <= i < |results| ==> r[i] == OrReal(results[i].accuracy, 0.0)
  {
    seq(|results|, i requires 0 <= i < |results| => OrReal(results[i].accuracy, 0.0))
  }

  /** The dispatches of `completeRound` before it saves: loading on, the new
      results, their total accuracy, XP 0. */
  function Recorded(s: GameState, updated: seq<RoundResult>, totalAccuracy: real): (r: GameState)
    ensures r == s.(isLoading := true, roundResults := updated, totalGameAccuracy := totalAccuracy, totalGameXP := 0.0)
  {
    var s1 := Reducer.Reduce(s, Reducer.SetIsLoading(true));
    Reducer.Reduce(Reducer.Reduce(Reducer.Reduce(s1, Reducer.SetRoundResults(updated)),
      Reducer.SetTotalGameAccuracy(totalAccuracy)), Reducer.SetTotalGameXP(0.0))
  }

  /** The `completeRound` kernel: given the store and whether the save fails,
      the state and store afterwards and how the call ended. */
  function CompleteRound(s: GameState, store: Store, input: RoundInput, distanceKm: DistanceKmFn,
                         currentYear: int, persistFails: bool): (r: (GameState, Store, CompleteOutcome))
    ensures CurrentImage(s).None? ==>
      r == (s.(error := Some(ContextErrors.CreateError("NO_IMAGE_FOR_ROUND", "Image data is missing for this round.", None))),
            store, MissingImage)
  {
    match CurrentImage(s)
    case None =>
      (Reducer.Reduce(s, Reducer.SetError(Some(ContextErrors.CreateError("NO_IMAGE_FOR_ROUND", "Image data is missing for this round.", None)))),
       store, MissingImage)
    case Some(image) =>
      var index := |s.roundResults|;
      var updated := s.roundResults + [BuildResult(index, image, input, distanceKm, currentYear)];
      var totalAccuracy := Sum(Accuracies(updated)) / |updated| as real;
      var s2 := Recorded(s, updated, totalAccuracy);
      var snapshot := PersistedGameState(OptOrStr(s.gameId, ""), Some(OptOrStr(s.roomId, "")), s.images, updated,
                                         s.hintsAllowed, s.roundTimerSec, totalAccuracy, 0.0);
      SaveAndNavigate(s2, store, snapshot, persistFails, if index >= |s.images| - 1 then SummaryRoute else RoundRoute(index + 1))
  }

  /** The `try` around `persistGameState` at the end of `completeRound`: the
      save, then either the navigation or the handled error and a re-throw.
      Only the error can change. */
  function SaveAndNavigate(s: GameState, store: Store, snapshot: PersistedGameState, persistFails: bool, next: Route)
    : (r: (GameState, Store, CompleteOutcome))
    ensures r.0 == s.(error := r.0.error)
    ensures !persistFails ==> r.0 == s && r.2 == Navigated(next)
  {
    var (store1, thrown) := Storage.Persist(store, snapshot, persistFails);
    if thrown.Some? then
      (Reducer.Reduce(s, Reducer.SetError(Some(ContextErrors.HandleError(thrown.value, "Failed to complete round")))),
       store1, Rethrew(thrown.value))
    else
      (s, store1, Navigated(next))
  }

  /** With an image for the round, exactly one result is appended for it and
      the earlier ones are kept; the total accuracy becomes the mean of the
      accuracies and the total XP 0; loading stays on. */
  lemma CompleteRoundAppends(s: GameState, store: Store, input: RoundInput, distanceKm: DistanceKmFn,
                             currentYear: int, persistFails: bool)
    requires CurrentImage(s).Some?
    ensures var (t, _, _) := CompleteRound(s, store, input, distanceKm, currentYear, persistFails);
      |t.roundResults| == |s.roundResults| + 1 &&
      t.roundResults[..|s.roundResults|] == s.roundResults &&
      t.roundResults[|s.roundResults|] == BuildResult(|s.roundResults|, s.images[|s.roundResults|], input, distanceKm, currentYear) &&
      t.totalGameAccuracy * |t.roundResults| as real == Sum(Accuracies(t.roundResults)) &&
      t.totalGameXP == 0.0 && t.isLoading &&
      t.images == s.images && t.gameId == s.gameId
  {
    var image := CurrentImage(s).value;
    var updated := s.roundResults + [BuildResult(|s.roundResults|, image, input, distanceKm, currentYear)];
    var s2 := Recorded(s, updated, Sum(Accuracies(updated)) / |updated| as real);
    var t := CompleteRound(s, store, input, distanceKm, currentYear, persistFails).0;
    assert t == s2 || t == s2.(error := t.error);
    assert updated[..|s.roundResults|] == s.roundResults;
  }

  /** A successful save leaves the error alone and navigates: to the summary
      from the last image on, otherwise to the route numbered one past the
      finished round's index. A failed save still keeps the appended result,
      sets the handled persistence error and re-throws it. */
  lemma CompleteRoundEnding(s: GameState, store: Store, input: RoundInput, distanceKm: DistanceKmFn,
                            currentYear: int, persistFails: bool)
    requires CurrentImage(s).Some?
    ensures var (t, st, outcome) := CompleteRound(s, store, input, distanceKm, currentYear, persistFails);
      (!persistFails ==>
        t.error == s.error &&
        GameStorageKey in st && st[GameStorageKey].GameRecord? &&
        st[GameStorageKey].snapshot.roundResults == Some(t.roundResults) &&
        outcome == Navigated(if |s.roundResults| >= |s.images| - 1 then SummaryRoute else RoundRoute(|s.roundResults| + 1))) &&
      (persistFails ==>
        st == store && outcome == Rethrew(ContextErrors.PersistenceFailure) &&
        t.error == Some(ContextErrors.HandleError(ContextErrors.PersistenceFailure, "Failed to complete round")) &&
        t.error.value.message == "Failed to save game state to local storage" &&
        |t.roundResults| == |s.roundResults| + 1)
  {
  }
}

=== FILE: game_logic.dfy ===
/** The game-logic hook (src/contexts/GameContext/useGameLogic.ts): the
    context's state kept in React state, a validating `recordRoundResult`
    whose totals are the capped, rounded mean accuracy and the summed XP,
    `startGame` and `resetGame`, and saving to and restoring from the game
    context's save slot. Database reads and writes are parameters. */
module GameLogic {
  import opened Js
  import opened GameTypes
  import opened LocalStore
  import Validation
  import ContextErrors
  import Storage
  import SettingsStore

  /** The hook's state on first render: the store's hints and timer. */
  function Initial(store: SettingsStore.Settings): (r: GameState)
    ensures r.gameId.None? && r.roomId.None? && r.images == [] && r.roundResults == []
    ensures r.hintsAllowed == store.hintsPerGame && r.roundTimerSec == store.timerSeconds
    ensures r.totalGameAccuracy == 0.0 && r.totalGameXP == 0.0 && !r.isLoading && r.error.None?
  {
    GameState(None, None, [], [], false, None, store.hintsPerGame, store.timerSeconds, 0.0, 0.0)
  }

  /** `currentRoundIndex`: always the number of results so far. */
  function CurrentRoundIndex(s: GameState): (r: nat)
    ensures r == |s.roundResults|
  {
    |s.roundResults|
  }

  /** The defaults `recordRoundResult` fills in before validating: falsy hints,
      XP and accuracy become 0 (a no-op on numbers, as 0 is the only falsy one). */
  function Completed(result: RoundResult): (r: RoundResult)
    ensures r == result
  {
    result.(hintsUsed := OrInt(result.hintsUsed, 0), xpWhere := OrReal(result.xpWhere, 0.0),
            xpWhen := OrReal(result.xpWhen, 0.0), accuracy := OrReal(result.accuracy, 0.0))
  }

  function AccuracyList(results: seq<RoundResult>): (r: seq<real>)
    ensures |r| == |results| && forall i :: 0 <= i < |results| ==> r[i] == results[i].accuracy
  {
    seq(|results|, i requires 0 <= i < |results| => results[i].accuracy)
  }

  function XpList(results: seq<RoundResult>): (r: seq<real>)
    ensures |r| == |results| && forall i :: 0 <= i < |results| ==> r[i] == results[i].xpWhere + results[i].xpWhen
  {
    seq(|results|, i requires 0 <= i < |results| => results[i].xpWhere + results[i].xpWhen)
  }

  /** The total accuracy this hook keeps: the mean accuracy rounded, at most 100. */
  function TotalAccuracy(results: seq<RoundResult>): (r: real)
    requires |results| > 0
    ensures r <= 100.0 && r.Floor as real == r
    ensures var mean := Sum(AccuracyList(results)) / |results| as real;
      (mean >= 99.5 ==> r == 100.0) && (mean < 99.5 ==> mean - 0.5 < r <= mean + 0.5)
  {
    Min(Round(Sum(AccuracyList(results)) / |results| as real) as real, 100.0)
  }

  /** How the round-results insert ended; its error response is ignored, only a throw matters. */
  datatype InsertOutcome = InsertDone | InsertThrew(error: Thrown)

  /** `recordRoundResult`. Without an image at the result's index, or when the
      completed result fails validation, the handled error is set, the results
      are kept and it reports `false`. Otherwise exactly one result is appended
      and the totals are recomputed from all results; with a game id the row is
      inserted, and a throw there sets the error and reports `false` after the
      result was already appended. */
  function RecordRoundResult(s: GameState, result: RoundResult, currentYear: int, insert: InsertOutcome): (r: (GameState, bool))
    ensures !(0 <= result.roundIndex < |s.images|) ==>
      r == (s.(error := Some(ContextErrors.HandleError(ErrorInstance("Image not found"), "Failed to record round result"))), false)
    ensures 0 <= result.roundIndex < |s.images| && !Validation.ValidRoundResult(result, currentYear) ==>
      r == (s.(error := Some(ContextErrors.HandleError(ErrorInstance("Invalid round result"), "Failed to validate round result"))), false)
    ensures 0 <= result.roundIndex < |s.images| && Validation.ValidRoundResult(result, currentYear) ==>
      var results := s.roundResults + [result];
      var recorded := s.(roundResults := results, totalGameAccuracy := TotalAccuracy(results), totalGameXP := Sum(XpList(results)));
      (TruthyStr(s.gameId) && insert.InsertThrew? ==>
        r == (recorded.(error := Some(ContextErrors.HandleError(insert.error, "Failed to record round result"))), false)) &&
      (!(TruthyStr(s.gameId) && insert.InsertThrew?) ==> r == (recorded, true))
  {
    if !(0 <= result.roundIndex < |s.images|) then
      (s.(error := Some(ContextErrors.HandleError(ErrorInstance("Image not found"), "Failed to record round result"))), false)
    else
      var complete := Completed(result);
      if !Validation.ValidRoundResult(complete, currentYear) then
        (s.(error := Some(ContextErrors.HandleError(ErrorInstance("Invalid round result"), "Failed to validate round result"))), false)
      else
        var results := s.roundResults + [complete];
        var recorded := s.(roundResults := results, totalGameAccuracy := TotalAccuracy(results), totalGameXP := Sum(XpList(results)));
        if TruthyStr(s.gameId) && insert.InsertThrew? then
          (recorded.(error := Some(ContextErrors.HandleError(insert.error, "Failed to record round result"))), false)
        else (recorded, true)
  }

  /** The totals invariant: every result valid, the total accuracy the capped,
      rounded mean of the accuracies (0 with no results) and the total XP the
      sum of all location and time XP. */
  predicate TotalsMatch(s: GameState, currentYear: int) {
    (forall i :: 0 <= i < |s.roundResults| ==> Validation.ValidRoundResult(s.roundResults[i], currentYear)) &&
    (if |s.roundResults| == 0 then s.totalGameAccuracy == 0.0 else s.totalGameAccuracy == TotalAccuracy(s.roundResults)) &&
    s.totalGameXP == Sum(XpList(s.roundResults))
  }

  /** Consistent totals lie in range: the total accuracy in [0, 100] and the
      total XP at most 200 per round. */
  lemma TotalsBounded(s: GameState, currentYear: int)
    requires TotalsMatch(s, currentYear)
    ensures 0.0 <= s.totalGameAccuracy <= 100.0
    ensures 0.0 <= s.totalGameXP <= 200.0 * |s.roundResults| as real
  {
    var xs := AccuracyList(s.roundResults);
    SumBounds(xs, 0.0, 100.0);
    SumBounds(XpList(s.roundResults), 0.0, 200.0);
    if |s.roundResults| > 0 {
      var n := |s.roundResults| as real;
      DivNonNegative(Sum(xs), n);
      RoundMonotone(0.0, Sum(xs) / n);
      RoundOfInteger(0);
    }
  }

  /** Recording keeps the totals in step with the results, whether or not it
      succeeds, so they stay in range. */
  lemma RecordKeepsTotals(s: GameState, result: RoundResult, currentYear: int, insert: InsertOutcome)
    requires TotalsMatch(s, currentYear)
    ensures var (t, _) := RecordRoundResult(s, result, currentYear, insert);
      TotalsMatch(t, currentYear) &&
      0.0 <= t.totalGameAccuracy <= 100.0 &&
      0.0 <= t.totalGameXP <= 200.0 * |t.roundResults| as real
  {
    var (t, _) := RecordRoundResult(s, result, currentYear, insert);
    if 0 <= result.roundIndex < |s.images| && Validation.ValidRoundResult(result, currentYear) {
      var results := s.roundResults + [result];
      assert t.roundResults == results;
      assert forall i :: 0 <= i < |results| ==> Validation.ValidRoundResult(results[i], currentYear) by {
        forall i | 0 <= i < |results| ensures Validation.ValidRoundResult(results[i], currentYear) {
          if i < |s.roundResults| { assert results[i] == s.roundResults[i]; }
        }
      }
      assert TotalsMatch(t, currentYear);
    } else {
      assert t.roundResults == s.roundResults;
    }
    TotalsBounded(t, currentYear);
  }

  /** A successful record appends exactly the given result at the end. */
  lemma RecordAppendsOne(s: GameState, result: RoundResult, currentYear: int, insert: InsertOutcome)
    requires RecordRoundResult(s, result, currentYear, insert).1
    ensures var t := RecordRoundResult(s, result, currentYear, insert).0;
      t.roundResults == s.roundResults + [result] && CurrentRoundIndex(t) == CurrentRoundIndex(s) + 1 &&
      t.error == s.error && t.images == s.images
  {
  }

  /** A database query's answer: its data, or the error it reports (which
      `startGame` throws). */
  datatype Query<T> = Answered(data: T) | Failed(error: Thrown)

  /** The `games` row of a joined game: only its stored settings matter here. */
  datatype GameRow = GameRow(settings: Option<PartialSettings>)

  /** The database's answer to each query `startGame` may make. Joining reads
      the game row (`None` when no row came back), counts its `game_images`
      links and, when there are some, reads those images. Creating reads
      random images, then inserts the game row and its image links; an insert
      answers with the error it reports, if any. Answers to queries that the
      path taken does not make are ignored. */
  datatype StartAnswers = StartAnswers(
    game: Query<Option<GameRow>>,
    links: Query<nat>,
    images: Query<Option<seq<GameImage>>>,
    gameInsert: Option<Thrown>,
    linkInsert: Option<Thrown>)

  /** The value thrown out of `startGame`'s `try`, if any, read off the
      answers in the order the queries are made. */
  function StartFailure(joining: bool, db: StartAnswers): Option<Thrown> {
    if joining then
      if db.game.Failed? then Some(db.game.error)
      else if db.game.data.None? then Some(ErrorInstance("Game not found"))
      else if db.links.Failed? then Some(db.links.error)
      else if db.links.data > 0 && db.images.Failed? then Some(db.images.error)
      else None
    else
      if db.images.Failed? then Some(db.images.error)
      else if db.images.data.None? then None
      else if db.gameInsert.Some? then db.gameInsert
      else db.linkInsert
  }

  /** `applyGameSettings`: each setting given replaces the current one. */
  function ApplySettings(s: GameState, settings: PartialSettings): (r: GameState)
    ensures r.roundTimerSec == settings.timerSeconds.GetOr(s.roundTimerSec)
    ensures r.hintsAllowed == settings.hintsPerGame.GetOr(s.hintsAllowed)
    ensures r == s.(roundTimerSec := r.roundTimerSec, hintsAllowed := r.hintsAllowed)
  {
    s.(roundTimerSec := settings.timerSeconds.GetOr(s.roundTimerSec), hintsAllowed := settings.hintsPerGame.GetOr(s.hintsAllowed))
  }

  /** `applyGlobalDefaultSettings`: the store's timer and hint allowance. */
  function ApplyDefaults(s: GameState, store: SettingsStore.Settings): GameState {
    s.(roundTimerSec := store.timerSeconds, hintsAllowed := store.hintsPerGame)
  }

  /** `startGame`: joins the given game (when its id is non-empty) or creates one
      with the fresh id; the id is set before any query. Each step's effect
      stays when a later query fails: a joined game's stored settings (or the
      store's, when it has none) are applied once its row is read, and a new
      game's settings before its first query; the images are set as soon as
      they are read, before a new game's inserts. On success the results and
      both totals are cleared and it moves to round 0; on failure the handled
      error is set and the failure is passed on. Loading ends false. The
      second component says whether it succeeded. */
  function StartGame(s: GameState, existingGameId: Option<string>, initialSettings: Option<PartialSettings>,
                     freshId: string, store: SettingsStore.Settings, db: StartAnswers): (r: (GameState, bool))
    ensures !r.0.isLoading && r.0.roomId == s.roomId
    ensures r.0.gameId == Some(if TruthyStr(existingGameId) then existingGameId.value else freshId)
    ensures r.1 <==> StartFailure(TruthyStr(existingGameId), db).None?
    ensures r.1 ==> r.0.roundResults == [] && r.0.totalGameAccuracy == 0.0 && r.0.totalGameXP == 0.0 && r.0.error == s.error
    ensures !r.1 ==>
      r.0.roundResults == s.roundResults &&
      r.0.totalGameAccuracy == s.totalGameAccuracy && r.0.totalGameXP == s.totalGameXP &&
      r.0.error == Some(ContextErrors.HandleError(StartFailure(TruthyStr(existingGameId), db).value, "Failed to start game"))
    // settings: a joined game's once its row is read, a new game's always
    ensures TruthyStr(existingGameId) && db.game.Answered? && db.game.data.Some? ==>
      var stored := db.game.data.value.settings;
      (stored.Some? ==> r.0.roundTimerSec == stored.value.timerSeconds.GetOr(s.roundTimerSec) &&
                        r.0.hintsAllowed == stored.value.hintsPerGame.GetOr(s.hintsAllowed)) &&
      (stored.None? ==> r.0.roundTimerSec == store.timerSeconds && r.0.hintsAllowed == store.hintsPerGame)
    ensures TruthyStr(existingGameId) && !(db.game.Answered? && db.game.data.Some?) ==>
      r.0.roundTimerSec == s.roundTimerSec && r.0.hintsAllowed == s.hintsAllowed
    ensures !TruthyStr(existingGameId) && initialSettings.Some? ==>
      r.0.roundTimerSec == initialSettings.value.timerSeconds.GetOr(s.roundTimerSec) &&
      r.0.hintsAllowed == initialSettings.value.hintsPerGame.GetOr(s.hintsAllowed)
    ensures !TruthyStr(existingGameId) && initialSettings.None? ==>
      r.0.roundTimerSec == store.timerSeconds && r.0.hintsAllowed == store.hintsPerGame
    // images: set as soon as they are read, whatever happens afterwards
    ensures !TruthyStr(existingGameId) ==>
      r.0.images == (if db.images.Answered? && db.images.data.Some? then db.images.data.value else s.images)
    ensures TruthyStr(existingGameId) ==>
      r.0.images == (if db.game.Answered? && db.game.data.Some? && db.links.Answered? && db.links.data > 0 &&
                        db.images.Answered? && db.images.data.Some?
                     then db.images.data.value else s.images)
  {
    var joining := TruthyStr(existingGameId);
    var s1 := s.(isLoading := true, gameId := Some(if joining then existingGameId.value else freshId));
    var s2 :=
      if joining then
        if db.game.Answered? && db.game.data.Some? then
          (if db.game.data.value.settings.Some? then ApplySettings(s1, db.game.data.value.settings.value) else ApplyDefaults(s1, store))
        else s1
      else if initialSettings.Some? then ApplySettings(s1, initialSettings.value)
      else ApplyDefaults(s1, store);
    var read :=
      if joining then db.game.Answered? && db.game.data.Some? && db.links.Answered? && db.links.data > 0
      else true;
    var s3 := if read && db.images.Answered? && db.images.data.Some? then s2.(images := db.images.data.value) else s2;
    match StartFailure(joining, db)
    case Some(e) =>
      (s3.(error := Some(ContextErrors.HandleError(e, "Failed to start game")), isLoading := false), false)
    case None =>
      (s3.(roundResults := [], totalGameAccuracy := 0.0, totalGameXP := 0.0, isLoading := false), true)
  }

  /** A successful start establishes the totals invariant that recording keeps
      (`RecordKeepsTotals`), and a failed one preserves it: whatever the
      database answers, the totals stay in step with the results. */
  lemma StartKeepsTotals(s: GameState, existingGameId: Option<string>, initialSettings: Option<PartialSettings>,
                         freshId: string, store: SettingsStore.Settings, db: StartAnswers, currentYear: int)
    ensures var (t, ok) := StartGame(s, existingGameId, initialSettings, freshId, store, db);
      (ok ==> TotalsMatch(t, currentYear) && CurrentRoundIndex(t) == 0) &&
      (TotalsMatch(s, currentYear) ==> TotalsMatch(t, currentYear))
  {
  }

  /** A new game whose images were read but whose game row could not be
      inserted fails, yet shows the new images with the old results. */
  lemma LateFailureKeepsNewImages(s: GameState, freshId: string, store: SettingsStore.Settings,
                                  images: seq<GameImage>, e: Thrown, links: Query<nat>, game: Query<Option<GameRow>>)
    ensures var (t, ok) := StartGame(s, None, None, freshId, store,
                                     StartAnswers(game, links, Answered(Some(images)), Some(e), None));
      !ok && t.images == images && t.roundResults == s.roundResults && t.roundTimerSec == store.timerSeconds
  {
  }

  /** `resetGame`: ids null, lists empty, no error, the store's hints and timer,
      totals 0 and the save slot cleared, unless the removal fails, which
      `clearSavedGameState` swallows; loading is left as it was. */
  function ResetGame(s: GameState, store: SettingsStore.Settings, slots: Store, removeFails: bool): (r: (GameState, Store))
    ensures r.0 == Initial(store).(isLoading := s.isLoading)
    ensures r.1 == Storage.Clear(slots, removeFails)
    ensures !removeFails ==> GameStorageKey !in r.1
    ensures removeFails ==> r.1 == slots
  {
    (GameState(None, None, [], [], s.isLoading, None, store.hintsPerGame, store.timerSeconds, 0.0, 0.0), Storage.Clear(slots, removeFails))
  }

  /** The state `saveGameState` writes. */
  function Persisted(s: GameState): (r: PersistedGameState)
    requires s.gameId.Some?
    ensures r.gameId == s.gameId.value && r.roomId == s.roomId && r.images == s.images && r.roundResults == s.roundResults
  {
    PersistedGameState(s.gameId.value, s.roomId, s.images, s.roundResults, s.hintsAllowed, s.roundTimerSec,
                       s.totalGameAccuracy, s.totalGameXP)
  }

  /** The save effect: with a non-empty game id the state is persisted (a
      failing write throws out of the effect and changes nothing). */
  function Save(s: GameState, slots: Store, writeFails: bool): (r: Store)
    ensures !TruthyStr(s.gameId) ==> r == slots
    ensures TruthyStr(s.gameId) ==> r == Storage.Persist(slots, Persisted(s), writeFails).0
  {
    if TruthyStr(s.gameId) then Storage.Persist(slots, Persisted(s), writeFails).0 else slots
  }

  /** The load effect on mount: a saved state that loads replaces every field
      but loading and the error. */
  function LoadOnMount(s: GameState, slots: Store, currentYear: int): (r: (GameState, Store))
    ensures r.1 == Storage.Load(slots, currentYear).1
    ensures Storage.Load(slots, currentYear).0.None? ==> r.0 == s
  {
    var (saved, slots1) := Storage.Load(slots, currentYear);
    match saved
    case None => (s, slots1)
    case Some(p) =>
      (s.(gameId := Some(p.gameId), roomId := p.roomId, images := p.images, roundResults := p.roundResults,
          hintsAllowed := p.hintsAllowed, roundTimerSec := p.roundTimerSec,
          totalGameAccuracy := p.totalGameAccuracy, totalGameXP := p.totalGameXP), slots1)
  }

  /** A valid state saved and restored on the next mount comes back whole. */
  lemma SaveRestoreRoundTrip(s: GameState, slots: Store, currentYear: int, next: GameState)
    requires TruthyStr(s.gameId)
    requires Validation.ValidPersistedState(Validation.ToSnapshot(Persisted(s)), currentYear)
    ensures LoadOnMount(next, Save(s, slots, false), currentYear).0 ==
      s.(isLoading := next.isLoading, error := next.error)
  {
    Storage.PersistLoadRoundTrip(slots, Persisted(s), currentYear);
  }
}

=== FILE: game_round.dfy ===
/** The state of one round while the player guesses (src/hooks/useGameRound.ts):
    the pin, the chosen year, the hints taken and the submission that scores
    the guess and records it. The XP helpers and the flat-map distance
    (degrees times 111 km) are parameters. */
module GameRound {
  import opened Js
  import opened GameTypes
  import Hints

  datatype RoundState = RoundState(
    currentGuess: Option<Coordinates>,
    selectedYear: int,
    isSubmitting: bool,
    hasGuessedLocation: bool,
    hintsUsedThisRound: int)

  /** The image of the round: `images[roundNumber - 1]`, `undefined` out of range. */
  function ImageForRound(images: seq<GameImage>, roundNumber: int): (r: Option<GameImage>)
    ensures r.Some? <==> 1 <= roundNumber <= |images|
    ensures r.Some? ==> r.value == images[roundNumber - 1]
  {
    if 0 <= roundNumber - 1 < |images| then Some(images[roundNumber - 1]) else None
  }

  /** The effect run when the round or its image changes; a submission in
      flight is left alone. */
  function ResetForRound(s: RoundState, currentYear: int): (r: RoundState)
    ensures r.currentGuess.None? && r.selectedYear == currentYear
    ensures !r.hasGuessedLocation && r.hintsUsedThisRound == 0
    ensures r.isSubmitting == s.isSubmitting
  {
    RoundState(None, currentYear, s.isSubmitting, false, 0)
  }

  /** `handleMapClick`. */
  function MapClick(s: RoundState, lat: real, lng: real): (r: RoundState)
    ensures r.currentGuess == Some(Coordinates(lat, lng)) && r.hasGuessedLocation
    ensures r.selectedYear == s.selectedYear && r.isSubmitting == s.isSubmitting
    ensures r.hintsUsedThisRound == s.hintsUsedThisRound
  {
    s.(currentGuess := Some(Coordinates(lat, lng)), hasGuessedLocation := true)
  }

  /** `handleYearSelect`. */
  function YearSelect(s: RoundState, year: int): (r: RoundState)
    ensures r.selectedYear == year && r == s.(selectedYear := year)
  {
    s.(selectedYear := year)
  }

  /** The hint allowance of the round: `hintsAllowed || 3`. */
  function HintAllowance(hintsAllowed: int): (r: int)
    ensures hintsAllowed != 0 ==> r == hintsAllowed
    ensures hintsAllowed == 0 ==> r == DefaultHintsPerGame
  {
    OrInt(hintsAllowed, DefaultHintsPerGame)
  }

  /** `handleUseHint`: one more hint while below the allowance. */
  function UseHint(s: RoundState, hintsAllowed: int): (r: RoundState)
    ensures s.hintsUsedThisRound < HintAllowance(hintsAllowed) ==> r.hintsUsedThisRound == s.hintsUsedThisRound + 1
    ensures s.hintsUsedThisRound >= HintAllowance(hintsAllowed) ==> r == s
    ensures r == s.(hintsUsedThisRound := r.hintsUsedThisRound)
  {
    if s.hintsUsedThisRound < HintAllowance(hintsAllowed) then s.(hintsUsedThisRound := s.hintsUsedThisRound + 1)
    else s
  }

  /** Starting from no hints, hint requests never go beyond the allowance. */
  lemma {:induction false} UseHintBounded(s: RoundState, hintsAllowed: int, n: nat)
    requires HintAllowance(hintsAllowed) >= 0
    requires 0 <= s.hintsUsedThisRound <= HintAllowance(hintsAllowed)
    ensures 0 <= UseHintTimes(s, hintsAllowed, n).hintsUsedThisRound <= HintAllowance(hintsAllowed)
    decreases n
  {
    if n > 0 {
      UseHintBounded(UseHint(s, hintsAllowed), hintsAllowed, n - 1);
    }
  }

  /** `n` hint requests in a row. */
  function UseHintTimes(s: RoundState, hintsAllowed: int, n: nat): RoundState
    decreases n
  {
    if n == 0 then s else UseHintTimes(UseHint(s, hintsAllowed), hintsAllowed, n - 1)
  }

  /** The scoring helpers outside the core. */
  datatype Scorers = Scorers(
    locationXP: real -> real,
    timeXP: (int, int) -> real,
    flatDistanceKm: (Coordinates, Coordinates) -> real)

  /** The score of a submission: location plus time XP less 30 per hint, never
      below 0. The per-hint penalty is the one of the hint hook, not the 0.1
      of the game constants. */
  function FinalScore(locationXP: real, timeXP: real, hints: int): (r: real)
    ensures r >= 0.0
    ensures r >= locationXP + timeXP - (Hints.HintPenalty * hints) as real
    ensures r == 0.0 || r == locationXP + timeXP - (Hints.HintPenalty * hints) as real
  {
    Max(0.0, locationXP + timeXP - (hints * Hints.HintPenalty) as real)
  }

  /** The percentage recorded for a round: the score out of 2000, rounded. */
  function RoundPercent(finalScore: real): (r: int)
    ensures 0.0 <= finalScore <= MaxScorePerRound ==> 0 <= r <= 100
    ensures finalScore == MaxScorePerRound ==> r == 100
  {
    Round((finalScore / MaxScorePerRound) * 100.0)
  }

  /** Seconds spent on the round: the round length (`roundTimerSec || 60`) less what was left. */
  function TimeTaken(roundTimerSec: int, remaining: int): (r: int)
    ensures roundTimerSec != 0 ==> r + remaining == roundTimerSec
    ensures roundTimerSec == 0 ==> r + remaining == DefaultRoundTimeSeconds
  {
    OrInt(roundTimerSec, DefaultRoundTimeSeconds) - remaining
  }

  /** The first half of `handleSubmitGuess(remaining)`: nothing happens while a
      submission is in flight or without an image; otherwise the round is
      marked as submitting and the result to record is built, with a pin at
      (0, 0) standing in for a missing guess. */
  function BeginSubmit(s: RoundState, images: seq<GameImage>, roundNumber: int, roundTimerSec: int,
                       remaining: int, scorers: Scorers): (r: Option<(RoundState, RoundResult)>)
    ensures r.None? <==> s.isSubmitting || ImageForRound(images, roundNumber).None?
    ensures r.Some? ==>
      var (next, req) := r.value;
      var image := images[roundNumber - 1];
      var guess := s.currentGuess.GetOr(Origin);
      var distance := scorers.flatDistanceKm(guess, Coordinates(image.latitude, image.longitude));
      next == s.(isSubmitting := true) &&
      req.distanceKm == Some(distance) &&
      req.xpWhere == scorers.locationXP(distance) &&
      req.xpWhen == scorers.timeXP(s.selectedYear, image.year) &&
      req.roundIndex == roundNumber - 1 &&
      req.imageId == image.id &&
      req.guessCoordinates == Some(guess) &&
      req.actualCoordinates == Coordinates(image.latitude, image.longitude) &&
      req.guessYear == Some(s.selectedYear) &&
      req.hintsUsed == s.hintsUsedThisRound &&
      req.score.Some? && req.score.value >= 0.0 &&
      req.score.value == FinalScore(req.xpWhere, req.xpWhen, s.hintsUsedThisRound) &&
      req.accuracy == RoundPercent(req.score.value) as real &&
      req.timeTakenSeconds == TimeTaken(roundTimerSec, remaining)
  {
    if s.isSubmitting then None
    else match ImageForRound(images, roundNumber)
      case None => None
      case Some(image) =>
        var guess := s.currentGuess.GetOr(Origin);
        var actual := Coordinates(image.latitude, image.longitude);
        var distance := scorers.flatDistanceKm(guess, actual);
        var locationXP := scorers.locationXP(distance);
        var timeXP := scorers.timeXP(s.selectedYear, image.year);
        var score := FinalScore(locationXP, timeXP, s.hintsUsedThisRound);
        var request := RoundResult(
          roundIndex := roundNumber - 1,
          imageId := image.id,
          guessCoordinates := Some(guess),
          actualCoordinates := actual,
          distanceKm := Some(distance),
          score := Some(score),
          guessYear := Some(s.selectedYear),
          xpWhere := locationXP,
          xpWhen := timeXP,
          accuracy := RoundPercent(score) as real,
          hintsUsed := s.hintsUsedThisRound,
          timeTakenSeconds := TimeTaken(roundTimerSec, remaining));
        Some((s.(isSubmitting := true), request))
  }

  /** How recording went: the recorder's boolean, or an exception. */
  datatype RecordOutcome = Recorded(success: bool) | RecordThrew

  datatype SubmitEffect = ShowResults(roundNumber: int) | ErrorToast

  /** The second half of `handleSubmitGuess`. A successful record moves on to the
      results and leaves `isSubmitting` set; only a failure or an exception
      clears it, with an error toast. */
  function FinishSubmit(s: RoundState, roundNumber: int, outcome: RecordOutcome): (r: (RoundState, SubmitEffect))
    ensures outcome == Recorded(true) ==> r == (s, ShowResults(roundNumber))
    ensures outcome != Recorded(true) ==> r == (s.(isSubmitting := false), ErrorToast)
  {
    match outcome
    case Recorded(true) => (s, ShowResults(roundNumber))
    case Recorded(false) => (s.(isSubmitting := false), ErrorToast)
    case RecordThrew => (s.(isSubmitting := false), ErrorToast)
  }

  /** After a successful submission, a second call (a late timeout, a double
      click) records nothing. */
  lemma SubmitOnlyOnce(s: RoundState, images: seq<GameImage>, roundNumber: int, roundTimerSec: int,
                       remaining: int, later: int, scorers: Scorers)
    requires BeginSubmit(s, images, roundNumber, roundTimerSec, remaining, scorers).Some?
    ensures var next := BeginSubmit(s, images, roundNumber, roundTimerSec, remaining, scorers).value.0;
      var afterSuccess := FinishSubmit(next, roundNumber, Recorded(true)).0;
      BeginSubmit(afterSuccess, images, roundNumber, roundTimerSec, later, scorers).None?
  {
  }

  /** When the timer runs out it submits with 0 seconds left: the whole round
      length is recorded as time taken, and without a pin the guess is (0, 0). */
  lemma TimeoutSubmission(s: RoundState, images: seq<GameImage>, roundNumber: int, roundTimerSec: int, scorers: Scorers)
    requires !s.isSubmitting && 1 <= roundNumber <= |images|
    ensures var r := BeginSubmit(s, images, roundNumber, roundTimerSec, 0, scorers);
      r.Some? &&
      r.value.1.timeTakenSeconds == OrInt(roundTimerSec, DefaultRoundTimeSeconds) &&
      (s.currentGuess.None? ==> r.value.1.guessCoordinates == Some(Origin))
  {
  }
}

=== FILE: game_state.dfy ===
/** The standalone game-state hook (src/hooks/useGameState.ts): local state,
    a save slot stamped with the time of writing and dropped after a day, and
    a round timer kept in step with the settings store. `now` is `Date.now()`
    in milliseconds. */
module GameStateHook {
  import opened Js
  import opened GameTypes
  import opened LocalStore
  import SettingsStore
  import Storage
  import Validation

  /** The hook's state; its error is a plain message. */
  datatype HookState = HookState(
    gameId: Option<string>,
    roomId: Option<string>,
    images: seq<GameImage>,
    roundResults: seq<RoundResult>,
    isLoading: bool,
    error: Option<string>,
    hintsAllowed: int,
    roundTimerSec: int,
    totalGameAccuracy: real,
    totalGameXP: real)

  const DayMillis: int := 24 * 60 * 60 * 1000

  /** The state on first render: the round timer is the store's, or 60 when that is 0. */
  function Initial(timerSeconds: int): (r: HookState)
    ensures r.roomId.None? && r.images == [] && r.roundResults == []
    ensures r.hintsAllowed == DefaultHintsPerGame
    ensures timerSeconds != 0 ==> r.roundTimerSec == timerSeconds
    ensures timerSeconds == 0 ==> r.roundTimerSec == DefaultRoundTimeSeconds
  {
    HookState(None, None, [], [], false, None, 3, OrInt(timerSeconds, 60), 0.0, 0.0)
  }

  /** The effect that copies the store's timer whenever it changes (and on mount). */
  function SyncTimer(s: HookState, timerSeconds: int): (r: HookState)
    ensures r.roundTimerSec == timerSeconds && r == s.(roundTimerSec := timerSeconds)
  {
    s.(roundTimerSec := timerSeconds)
  }

  /** The sync effect runs on mount too, so the `|| 60` of the first render
      does not survive a store timer of 0. */
  lemma MountedTimerFollowsStore(timerSeconds: int)
    ensures SyncTimer(Initial(timerSeconds), timerSeconds).roundTimerSec == timerSeconds
    ensures Initial(0).roundTimerSec == 60 && SyncTimer(Initial(0), 0).roundTimerSec == 0
  {
  }

  /** `handleSetRoundTimerSec`: the hook's timer and the store's change together. */
  function SetRoundTimerSec(s: HookState, settings: SettingsStore.Settings, seconds: int): (r: (HookState, SettingsStore.Settings))
    ensures r.0.roundTimerSec == seconds && r.1.timerSeconds == seconds
    ensures r.0 == s.(roundTimerSec := seconds)
    ensures r.1.soundEnabled == settings.soundEnabled && r.1.hintsPerGame == settings.hintsPerGame
  {
    (s.(roundTimerSec := seconds), SettingsStore.SetTimerSeconds(settings, seconds))
  }

  /** After the unified setter the sync effect changes nothing. */
  lemma SetterThenSyncAgree(s: HookState, settings: SettingsStore.Settings, seconds: int)
    ensures var (h, st) := SetRoundTimerSec(s, settings, seconds);
      SyncTimer(h, st.timerSeconds) == h
  {
  }

  /** The snapshot the save effect writes: no `gameId`, stamped with `now`. */
  function SnapshotOf(s: HookState, now: int): (r: Snapshot)
    ensures r.gameId.None? && r.timestamp == Some(now)
    ensures r.roomId == Some(s.roomId) && r.images == Some(s.images) && r.roundResults == Some(s.roundResults)
  {
    Snapshot(None, Some(s.roomId), Some(s.images), Some(s.roundResults), Some(s.hintsAllowed),
             Some(s.roundTimerSec), Some(s.totalGameAccuracy), Some(s.totalGameXP), Some(now))
  }

  /** The save effect: it writes only with a (non-empty) room id and at least one image. */
  function Save(s: HookState, store: Store, now: int): (r: Store)
    ensures !(TruthyStr(s.roomId) && |s.images| > 0) ==> r == store
    ensures TruthyStr(s.roomId) && |s.images| > 0 ==> r == store[GameStorageKey := GameRecord(SnapshotOf(s, now))]
  {
    if TruthyStr(s.roomId) && |s.images| > 0 then store[GameStorageKey := GameRecord(SnapshotOf(s, now))]
    else store
  }

  /** The state a fresh snapshot restores: lists default to empty, hints to 3,
      the timer to 60, totals to 0, each also when stored as 0. */
  function Restore(s: HookState, saved: Snapshot): (r: HookState)
    ensures r.gameId == s.gameId && r.isLoading == s.isLoading && r.error == s.error
    ensures r.roomId == (if saved.roomId.Some? then saved.roomId.value else None)
    ensures r.images == (if saved.images.Some? then saved.images.value else [])
    ensures r.roundResults == (if saved.roundResults.Some? then saved.roundResults.value else [])
    ensures r.hintsAllowed == OptOrInt(saved.hintsAllowed, DefaultHintsPerGame)
    ensures r.roundTimerSec == OptOrInt(saved.roundTimerSec, DefaultRoundTimeSeconds)
    ensures r.totalGameAccuracy == OptOrReal(saved.totalGameAccuracy, 0.0)
    ensures r.totalGameXP == OptOrReal(saved.totalGameXP, 0.0)
  {
    s.(roomId := if saved.roomId.Some? then saved.roomId.value else None,
       images := if saved.images.Some? then saved.images.value else [],
       roundResults := if saved.roundResults.Some? then saved.roundResults.value else [],
       hintsAllowed := OptOrInt(saved.hintsAllowed, 3),
       roundTimerSec := OptOrInt(saved.roundTimerSec, 60),
       totalGameAccuracy := OptOrReal(saved.totalGameAccuracy, 0.0),
       totalGameXP := OptOrReal(saved.totalGameXP, 0.0))
  }

  /** A snapshot is fresh while strictly less than a day old (a missing stamp counts as 0). */
  predicate Fresh(saved: Snapshot, now: int) {
    now - OptOrInt(saved.timestamp, 0) < DayMillis
  }

  /** The load effect on mount: nothing saved changes nothing; a fresh
      snapshot is restored; a stale one, or text that does not parse, is
      removed and the state is left alone. */
  function Load(s: HookState, store: Store, now: int): (r: (HookState, Store))
    ensures !HasText(store, GameStorageKey) ==> r == (s, store)
    ensures HasText(store, GameStorageKey) ==>
      match ParseSnapshot(store[GameStorageKey])
      case None => r == (s, Remove(store, GameStorageKey))
      case Some(saved) =>
        if Fresh(saved, now) then r == (Restore(s, saved), store)
        else r == (s, Remove(store, GameStorageKey))
  {
    if !HasText(store, GameStorageKey) then (s, store)
    else match ParseSnapshot(store[GameStorageKey])
      case None => (s, Remove(store, GameStorageKey))
      case Some(saved) =>
        if Fresh(saved, now) then (Restore(s, saved), store)
        else (s, Remove(store, GameStorageKey))
  }

  /** A save read back within the day restores the room, images and results;
      hints and timer come back as saved unless they were 0, which restore as
      3 and 60. */
  lemma SaveLoadRoundTrip(s: HookState, store: Store, savedAt: int, now: int, current: HookState)
    requires TruthyStr(s.roomId) && |s.images| > 0
    requires savedAt <= now < savedAt + DayMillis
    ensures var (r, st) := Load(current, Save(s, store, savedAt), now);
      st == Save(s, store, savedAt) &&
      r.roomId == s.roomId && r.images == s.images && r.roundResults == s.roundResults &&
      r.hintsAllowed == OrInt(s.hintsAllowed, 3) && r.roundTimerSec == OrInt(s.roundTimerSec, 60) &&
      r.totalGameAccuracy == s.totalGameAccuracy && r.totalGameXP == s.totalGameXP &&
      r.gameId == current.gameId
  {
  }

  /** A snapshot exactly one day old is already stale: it is removed and the
      state is untouched. */
  lemma DayOldIsStale(s: HookState, store: Store, savedAt: int, current: HookState)
    requires TruthyStr(s.roomId) && |s.images| > 0
    ensures var saved := Save(s, store, savedAt);
      Load(current, saved, savedAt + DayMillis) == (current, Remove(saved, GameStorageKey))
  {
  }

  /** `clearSavedGameState`. */
  function ClearSaved(store: Store): (r: Store)
    ensures GameStorageKey !in r
    ensures forall k :: k in store && k != GameStorageKey ==> k in r && r[k] == store[k]
  {
    Remove(store, GameStorageKey)
  }

  /** `resetGameState`: ids null, lists empty, not loading, no error, 3 hints,
      the store's timer or 60, totals 0, and the slot cleared. */
  function Reset(timerSeconds: int, store: Store): (r: (HookState, Store))
    ensures r.0 == Initial(timerSeconds)
    ensures GameStorageKey !in r.1
  {
    (HookState(None, None, [], [], false, None, 3, OrInt(timerSeconds, 60), 0.0, 0.0), ClearSaved(store))
  }

  /** The game context's loader rejects this hook's snapshots (they carry no
      `gameId`) and deletes them. */
  lemma ContextLoaderDropsHookSave(s: HookState, store: Store, now: int, currentYear: int)
    requires TruthyStr(s.roomId) && |s.images| > 0
    ensures var saved := Save(s, store, now);
      Storage.Load(saved, currentYear) == (None, Remove(saved, GameStorageKey))
  {
  }

  /** Conversely, the game context's snapshots carry no timestamp, so from one
      day after the epoch on this hook finds them stale and deletes them. */
  lemma HookLoaderDropsContextSave(s: HookState, store: Store, p: PersistedGameState, now: int)
    requires now >= DayMillis
    ensures var saved := Storage.Persist(store, p, false).0;
      Load(s, saved, now) == (s, Remove(saved, GameStorageKey))
  {
  }
}

=== FILE: game_types.dfy ===
/** The records the game engine passes around (src/types/game.ts,
    src/contexts/GameContext/types.ts) and the game constants
    (src/constants/game.ts). Every number that can be fractional is a `real`;
    years, counts and seconds are `int`s. */
module GameTypes {
  import opened Js

  /** A point on the map; valid when lat is in [-90, 90] and lng in [-180, 180]. */
  datatype Coordinates = Coordinates(lat: real, lng: real)

  /** The coordinates substituted for a missing guess. */
  const Origin := Coordinates(0.0, 0.0)

  /** A photograph to be placed in space and time. */
  datatype GameImage = GameImage(
    id: string,
    title: string,
    description: string,
    latitude: real,
    longitude: real,
    year: int,
    imageUrl: string,
    locationName: string)

  /** The outcome of one round; `None` stands for a JSON `null`. */
  datatype RoundResult = RoundResult(
    roundIndex: int,
    imageId: string,
    guessCoordinates: Option<Coordinates>,
    actualCoordinates: Coordinates,
    distanceKm: Option<real>,
    score: Option<real>,
    guessYear: Option<int>,
    xpWhere: real,
    xpWhen: real,
    accuracy: real,
    hintsUsed: int,
    timeTakenSeconds: int)

  datatype GameSettings = GameSettings(timerSeconds: int, hintsPerGame: int)

  /** `Partial<GameSettings>`: each field may be missing. */
  datatype PartialSettings = PartialSettings(timerSeconds: Option<int>, hintsPerGame: Option<int>)

  /** The snapshot `storage.ts` writes and reads back. */
  datatype PersistedGameState = PersistedGameState(
    gameId: string,
    roomId: Option<string>,
    images: seq<GameImage>,
    roundResults: seq<RoundResult>,
    hintsAllowed: int,
    roundTimerSec: int,
    totalGameAccuracy: real,
    totalGameXP: real)

  /** A value that code may `throw`, as the error normalisers tell them apart. */
  datatype Thrown =
    | ErrorInstance(errorMessage: string)
      /** An `Error` (or subclass such as `PersistenceError`). */
    | PlainObject(messageField: Option<string>, innerErrorMessage: Option<string>, detailsField: Option<string>)
      /** Any other non-null object, e.g. a Supabase error record: its `message`,
          its `error.message` and its `details`, each possibly missing. */
    | StringValue(text: string)
    | NullValue
    | OtherValue
      /** `undefined`, a number or a boolean. */

  /** `GameErrorType`: a code, a user-facing message and optional details. */
  datatype GameError = GameError(code: string, message: string, details: Option<Thrown>)

  /** The state held by the game context (GameContext/types.ts `GameState`). */
  datatype GameState = GameState(
    gameId: Option<string>,
    roomId: Option<string>,
    images: seq<GameImage>,
    roundResults: seq<RoundResult>,
    isLoading: bool,
    error: Option<GameError>,
    hintsAllowed: int,
    roundTimerSec: int,
    totalGameAccuracy: real,
    totalGameXP: real)

  // Constants of src/constants/game.ts.
  const KmConversionFactor: real := 111.0
  const MaxScorePerRound: real := 2000.0
  const ConstantsHintPenalty: real := 0.1
  const DefaultRoundTimeSeconds: int := 60
  const DefaultHintsPerGame: int := 3
  const RoundsPerGame: int := 5
  const MinLatitude: real := -90.0
  const MaxLatitude: real := 90.0
  const MinLongitude: real := -180.0
  const MaxLongitude: real := 180.0
  /** `MIN_YEAR`; `MAX_YEAR` is the current calendar year, a parameter wherever it is used. */
  const MinYear: int := 1800
  const GameStorageKey: string := "gh_current_game"
}

=== FILE: hints.dfy ===
/** The per-round hint state (src/hooks/useHint.ts): two hint kinds, a region
    ("where") and a decade ("when"), generated from the image; per-round and
    per-game counters with caps of 2 and 10; selection and the two resets. */
module Hints {
  import opened Js
  import opened GameTypes

  const HintsPerRound: int := 2
  const HintsPerGame: int := 10
  /** XP (or accuracy percentage) taken off per hint used. */
  const HintPenalty: int := 30

  datatype HintType = Where | When

  datatype HintState = HintState(
    selectedHintTypes: seq<HintType>,
    hintContents: map<HintType, string>,
    loading: bool,
    error: Option<string>,
    hintsUsedThisRound: int,
    hintsUsedTotal: int)

  const InitialHintState := HintState([], map[], false, None, 0, 0)

  /** `canSelectAnotherHint`. */
  predicate CanSelectAnotherHint(s: HintState) {
    s.hintsUsedThisRound < HintsPerRound && s.hintsUsedTotal < HintsPerGame
  }

  /** `selectHint(hintType)`; `None` is a `null` hint type. */
  function SelectHint(s: HintState, hintType: Option<HintType>): (r: HintState)
    ensures !CanSelectAnotherHint(s) || hintType.None? || hintType.value !in s.hintContents ==> r == s
    ensures CanSelectAnotherHint(s) && hintType.Some? && hintType.value in s.hintContents ==>
      r.selectedHintTypes == s.selectedHintTypes + [hintType.value] &&
      r.hintsUsedThisRound == s.hintsUsedThisRound + 1 &&
      r.hintsUsedTotal == s.hintsUsedTotal + 1 &&
      r.hintContents == s.hintContents && r.loading == s.loading && r.error == s.error
  {
    if !CanSelectAnotherHint(s) then s
    else if hintType.None? || hintType.value !in s.hintContents then s
    else s.(selectedHintTypes := s.selectedHintTypes + [hintType.value],
            hintsUsedThisRound := s.hintsUsedThisRound + 1,
            hintsUsedTotal := s.hintsUsedTotal + 1)
  }

  /** The same hint kind can be selected twice in one round: only the hint
      modal refuses a kind already shown. */
  lemma SameHintTwice(s: HintState, t: HintType)
    requires s.hintsUsedThisRound == 0 && 0 <= s.hintsUsedTotal < HintsPerGame - 1
    requires t in s.hintContents
    ensures SelectHint(SelectHint(s, Some(t)), Some(t)).selectedHintTypes == s.selectedHintTypes + [t, t]
  {
  }

  /** `resetHint`: a fresh round with no hint contents yet. */
  function ResetHint(s: HintState): (r: HintState)
    ensures r.selectedHintTypes == [] && r.hintContents == map[] && !r.loading && r.error.None?
    ensures r.hintsUsedThisRound == 0 && r.hintsUsedTotal == s.hintsUsedTotal
  {
    HintState([], map[], false, None, 0, s.hintsUsedTotal)
  }

  /** `resetHintsForRound`: clears the round's selection, keeping the contents. */
  function ResetHintsForRound(s: HintState): (r: HintState)
    ensures r.selectedHintTypes == [] && r.hintsUsedThisRound == 0
    ensures r.hintContents == s.hintContents && r.loading == s.loading && r.error == s.error
    ensures r.hintsUsedTotal == s.hintsUsedTotal
  {
    s.(selectedHintTypes := [], hintsUsedThisRound := 0)
  }

  /** `incrementHints`: one more hint for the game, with no cap check. */
  function IncrementHints(s: HintState): (r: HintState)
    ensures r.hintsUsedTotal == s.hintsUsedTotal + 1
    ensures r == s.(hintsUsedTotal := r.hintsUsedTotal)
  {
    s.(hintsUsedTotal := s.hintsUsedTotal + 1)
  }

  /** The city keywords, checked in this order, and the region each names. */
  const CityRegions: seq<(string, string)> := [
    ("berlin", "Central Europe"),
    ("paris", "Western Europe"),
    ("london", "United Kingdom"),
    ("new york", "Eastern United States"),
    ("tokyo", "East Asia"),
    ("sydney", "Australia")]

  /** The region named by the first city keyword found in `location`, if any. */
  function CityRegion(location: string, i: nat): (r: Option<string>)
    requires i <= |CityRegions|
    ensures r.Some? <==> exists j :: i <= j < |CityRegions| && Contains(location, CityRegions[j].0)
    ensures r.Some? ==>
      exists j :: i <= j < |CityRegions| && Contains(location, CityRegions[j].0) && r.value == CityRegions[j].1 &&
        (forall k :: i <= k < j ==> !Contains(location, CityRegions[k].0))
    decreases |CityRegions| - i
  {
    if i == |CityRegions| then None
    else if Contains(location, CityRegions[i].0) then Some(CityRegions[i].1)
    else CityRegion(location, i + 1)
  }

  /** Conversely, the first keyword found from `i` on decides the region. */
  lemma {:induction false} CityRegionFirstMatch(location: string, i: nat, j: nat)
    requires i <= j < |CityRegions| && Contains(location, CityRegions[j].0)
    requires forall k :: i <= k < j ==> !Contains(location, CityRegions[k].0)
    ensures CityRegion(location, i) == Some(CityRegions[j].1)
    decreases j - i
  {
    if i < j {
      CityRegionFirstMatch(location, i + 1, j);
    }
  }

  /** The region derived from coordinates alone. */
  function CoordinateRegion(lat: real, lng: real): (r: string)
    ensures lat < 0.0 ==> r == "Southern Hemisphere"
  {
    if lat > 35.0 && lng < 0.0 && lng > -20.0 then "Southern Europe"
    else if lat > 45.0 && lng > 0.0 && lng < 30.0 then "Central Europe"
    else if lat > 45.0 && lng > 30.0 then "Eastern Europe"
    else if lat < 0.0 then "Southern Hemisphere"
    else "Unknown Region"
  }

  predicate IsRegionName(r: string) {
    r in {"Central Europe", "Western Europe", "United Kingdom", "Eastern United States", "East Asia",
          "Australia", "Southern Europe", "Eastern Europe", "Southern Hemisphere", "Unknown Region"}
  }

  /** `generateRegionHint`: a city keyword in the (lower-cased) location name
      wins; otherwise the coordinates decide. */
  function RegionHint(image: GameImage): (r: string)
    ensures IsRegionName(r)
    ensures r != ""
    ensures CityRegion(ToLower(image.locationName), 0).None? ==>
      r == CoordinateRegion(image.latitude, image.longitude)
    ensures CityRegion(ToLower(image.locationName), 0).Some? ==>
      r == CityRegion(ToLower(image.locationName), 0).value
  {
    var city := CityRegion(ToLower(image.locationName), 0);
    CityRegionIsRegionName(ToLower(image.locationName), 0);
    if city.Some? then city.value else CoordinateRegion(image.latitude, image.longitude)
  }

  lemma {:induction false} CityRegionIsRegionName(location: string, i: nat)
    requires i <= |CityRegions|
    ensures CityRegion(location, i).Some? ==> IsRegionName(CityRegion(location, i).value)
    decreases |CityRegions| - i
  {
    if i < |CityRegions| && !Contains(location, CityRegions[i].0) {
      CityRegionIsRegionName(location, i + 1);
    }
  }

  /** Below the equator and with no city keyword, the hint is "Southern Hemisphere". */
  lemma SouthernHemisphere(image: GameImage)
    requires image.latitude < 0.0
    requires forall j :: 0 <= j < |CityRegions| ==> !Contains(ToLower(image.locationName), CityRegions[j].0)
    ensures RegionHint(image) == "Southern Hemisphere"
  {
  }

  /** A keyword anywhere in the name, in any letter case, beats the coordinates:
      a Berlin photograph placed in the southern hemisphere is still "Central Europe". */
  lemma KeywordBeatsCoordinates()
    ensures RegionHint(GameImage("1", "t", "d", -33.9, 151.2, 1950, "u", "Old BERLIN")) == "Central Europe"
  {
    var lower := ToLower("Old BERLIN");
    assert lower == "old berlin";
    assert lower[4..4 + |"berlin"|] == "berlin";
    assert OccursAt(lower, "berlin", 4);
    ContainsMeansOccurs(lower, "berlin");
  }

  /** The decade containing `year`: the multiple of ten at or below it. */
  function DecadeOf(year: int): (d: int)
    ensures d % 10 == 0 && d <= year < d + 10
  {
    (year / 10) * 10
  }

  /** `generateDecadeHint`: the decade followed by "s", or "Unknown Period" for a
      falsy year. */
  function DecadeHint(image: GameImage): (r: string)
    ensures image.year == 0 <==> r == "Unknown Period"
    ensures image.year != 0 ==> r == IntToString(DecadeOf(image.year)) + "s"
    ensures r != ""
  {
    if image.year == 0 then "Unknown Period"
    else
      var r := IntToString(DecadeOf(image.year)) + "s";
      assert r[|r| - 1] != "Unknown Period"[|"Unknown Period"| - 1];
      r
  }

  /** The decade of a year from the 1940s reads "1940s". */
  lemma DecadeHintExample()
    ensures DecadeHint(GameImage("1", "t", "d", 52.5, 13.4, 1948, "u", "Berlin")) == "1940s"
  {
    assert NatToString(1940) == NatToString(194) + "0";
    assert NatToString(194) == NatToString(19) + "4";
    assert NatToString(19) == NatToString(1) + "9";
  }

  /** The hint-generation effect for the round's image: both kinds always have
      content, so the "no hint data" error is never raised. */
  function GenerateHintData(s: HintState, image: Option<GameImage>): (r: HintState)
    ensures image.None? ==> r == s
    ensures image.Some? ==>
      r.hintContents.Keys == {Where, When} &&
      r.hintContents[Where] == RegionHint(image.value) &&
      r.hintContents[When] == DecadeHint(image.value) &&
      !r.loading && r.error.None? &&
      r.selectedHintTypes == s.selectedHintTypes &&
      r.hintsUsedThisRound == s.hintsUsedThisRound && r.hintsUsedTotal == s.hintsUsedTotal
  {
    if image.None? then s
    else
      var whereHint := RegionHint(image.value);
      var whenHint := DecadeHint(image.value);
      if whereHint == "" && whenHint == "" then
        s.(loading := false, error := Some("No hint data available for this image"))
      else
        var contents := (if whereHint != "" then map[Where := whereHint] else map[])
          + (if whenHint != "" then map[When := whenHint] else map[]);
        s.(hintContents := contents, loading := false, error := None)
  }

  /** The counters within their caps. */
  predicate WithinLimits(s: HintState) {
    0 <= s.hintsUsedThisRound <= HintsPerRound && 0 <= s.hintsUsedTotal <= HintsPerGame
  }

  /** The hook's operations other than `incrementHints`. */
  datatype HintOp = Select(hintType: Option<HintType>) | Reset | ResetForRound | Generate(image: Option<GameImage>)

  function Apply(s: HintState, op: HintOp): HintState {
    match op
    case Select(t) => SelectHint(s, t)
    case Reset => ResetHint(s)
    case ResetForRound => ResetHintsForRound(s)
    case Generate(image) => GenerateHintData(s, image)
  }

  function ApplyAll(s: HintState, ops: seq<HintOp>): HintState
    decreases |ops|
  {
    if ops == [] then s else ApplyAll(Apply(s, ops[0]), ops[1..])
  }

  /** Each operation keeps the counters within their caps. */
  lemma ApplyKeepsLimits(s: HintState, op: HintOp)
    requires WithinLimits(s)
    ensures WithinLimits(Apply(s, op))
  {
  }

  /** Starting within the caps, no sequence of selections and resets exceeds them. */
  lemma {:induction false} ApplyAllKeepsLimits(s: HintState, ops: seq<HintOp>)
    requires WithinLimits(s)
    ensures WithinLimits(ApplyAll(s, ops))
    decreases |ops|
  {
    if ops != [] {
      ApplyKeepsLimits(s, ops[0]);
      ApplyAllKeepsLimits(Apply(s, ops[0]), ops[1..]);
    }
  }

  /** `incrementHints` alone can push the game total past its cap. */
  lemma IncrementPassesCap()
    ensures WithinLimits(InitialHintState.(hintsUsedTotal := HintsPerGame))
    ensures !WithinLimits(IncrementHints(InitialHintState.(hintsUsedTotal := HintsPerGame)))
  {
  }
}

=== FILE: hints_v2.dfy ===
/** The purchasable hint system (src/hooks/useHintV2.ts): hints at four levels,
    bought one at a time through a remote call, with the XP and accuracy
    "debts" of the purchased ones. The remote call is an input: it either
    fails or succeeds. The cost table lives outside the core and is a parameter. */
module HintsV2 {
  import opened Js

  /** A hint; a missing cost counts as 0. */
  datatype Hint = Hint(
    id: string,
    kind: string,
    text: string,
    level: int,
    imageId: string,
    xpCost: Option<real>,
    accuracyPenalty: Option<real>)

  datatype HintV2State = HintV2State(
    availableHints: seq<Hint>,
    purchasedHintIds: seq<string>,
    isLoading: bool,
    isHintLoading: bool)

  predicate IsAvailable(hints: seq<Hint>, hintId: string) {
    exists i :: 0 <= i < |hints| && hints[i].id == hintId
  }

  /** The checks `purchaseHint` makes before calling out: a signed-in user, an
      image, a known hint id not yet purchased. */
  predicate MayPurchase(s: HintV2State, hasUser: bool, hasImage: bool, hintId: string) {
    hasUser && hasImage && IsAvailable(s.availableHints, hintId) && hintId !in s.purchasedHintIds
  }

  /** The state while the purchase call is in flight: `None` when a guard returns early. */
  function BeginPurchase(s: HintV2State, hasUser: bool, hasImage: bool, hintId: string): (r: Option<HintV2State>)
    ensures r.Some? <==> MayPurchase(s, hasUser, hasImage, hintId)
    ensures r.Some? ==> r.value == s.(isHintLoading := true)
  {
    if !hasUser || !hasImage then None
    else if !IsAvailable(s.availableHints, hintId) then None
    else if hintId in s.purchasedHintIds then None
    else Some(s.(isHintLoading := true))
  }

  /** The state once the call has returned: the id appended on success, nothing
      else changed on an error; loading ends either way. */
  function FinishPurchase(s: HintV2State, hintId: string, callFailed: bool): (r: HintV2State)
    ensures !r.isHintLoading
    ensures callFailed ==> r.purchasedHintIds == s.purchasedHintIds
    ensures !callFailed ==> r.purchasedHintIds == s.purchasedHintIds + [hintId]
    ensures r.availableHints == s.availableHints && r.isLoading == s.isLoading
  {
    var bought := if callFailed then s.purchasedHintIds else s.purchasedHintIds + [hintId];
    s.(purchasedHintIds := bought, isHintLoading := false)
  }

  function Count(xs: seq<string>, x: string): nat {
    if xs == [] then 0 else (if xs[0] == x then 1 else 0) + Count(xs[1..], x)
  }

  lemma {:induction false} CountAppend(xs: seq<string>, y: string, x: string)
    ensures Count(xs + [y], x) == Count(xs, x) + (if y == x then 1 else 0)
  {
    if xs != [] {
      assert (xs + [y])[1..] == xs[1..] + [y];
      CountAppend(xs[1..], y, x);
    }
  }

  lemma {:induction false} CountAbsent(xs: seq<string>, x: string)
    requires x !in xs
    ensures Count(xs, x) == 0
  {
    if xs != [] {
      CountAbsent(xs[1..], x);
    }
  }

  /** `purchaseHint` from start to finish. */
  function PurchaseHint(s: HintV2State, hasUser: bool, hasImage: bool, hintId: string, callFailed: bool)
    : (r: HintV2State)
    ensures !MayPurchase(s, hasUser, hasImage, hintId) ==> r == s
    ensures MayPurchase(s, hasUser, hasImage, hintId) && callFailed ==> r == s.(isHintLoading := false)
    ensures MayPurchase(s, hasUser, hasImage, hintId) && !callFailed ==>
      r == s.(purchasedHintIds := s.purchasedHintIds + [hintId], isHintLoading := false) &&
      Count(r.purchasedHintIds, hintId) == 1
  {
    match BeginPurchase(s, hasUser, hasImage, hintId)
    case None => s
    case Some(pending) =>
      CountAbsent(s.purchasedHintIds, hintId);
      CountAppend(s.purchasedHintIds, hintId, hintId);
      FinishPurchase(pending, hintId, callFailed)
  }

  /** Purchasing keeps the id list free of duplicates. */
  lemma PurchaseKeepsIdsDistinct(s: HintV2State, hasUser: bool, hasImage: bool, hintId: string, callFailed: bool)
    requires forall x :: x in s.purchasedHintIds ==> Count(s.purchasedHintIds, x) == 1
    ensures var r := PurchaseHint(s, hasUser, hasImage, hintId, callFailed);
      forall x :: x in r.purchasedHintIds ==> Count(r.purchasedHintIds, x) == 1
  {
    var r := PurchaseHint(s, hasUser, hasImage, hintId, callFailed);
    if MayPurchase(s, hasUser, hasImage, hintId) && !callFailed {
      forall x | x in r.purchasedHintIds
        ensures Count(r.purchasedHintIds, x) == 1
      {
        CountAppend(s.purchasedHintIds, hintId, x);
      }
    }
  }

  /** The hints of one level, in their original order. */
  function OfLevel(hints: seq<Hint>, level: int): (r: seq<Hint>)
    ensures forall h :: h in r <==> h in hints && h.level == level
  {
    if hints == [] then []
    else
      var init := OfLevel(hints[..|hints| - 1], level);
      var last := hints[|hints| - 1];
      assert hints == hints[..|hints| - 1] + [last];
      if last.level == level then init + [last] else init
  }

  function Levels(hints: seq<Hint>): (r: set<int>)
    ensures forall l :: l in r <==> exists h :: h in hints && h.level == l
  {
    set h | h in hints :: h.level
  }

  /** `hintsByLevel`: the `reduce` that pushes each hint into the bucket of its level. */
  function HintsByLevel(hints: seq<Hint>): map<int, seq<Hint>>
  {
    if hints == [] then map[]
    else
      var acc := HintsByLevel(hints[..|hints| - 1]);
      var h := hints[|hints| - 1];
      var bucket := if h.level in acc then acc[h.level] else [];
      acc[h.level := bucket + [h]]
  }

  /** The buckets are exactly the levels present, and each bucket is the
      order-preserving selection of the hints at that level; so every hint
      sits in the bucket of its own level and in no other. */
  lemma {:induction false} HintsByLevelPartitions(hints: seq<Hint>)
    ensures HintsByLevel(hints).Keys == Levels(hints)
    ensures forall l :: l in HintsByLevel(hints) ==> HintsByLevel(hints)[l] == OfLevel(hints, l)
  {
    if hints != [] {
      var init := hints[..|hints| - 1];
      var h := hints[|hints| - 1];
      assert hints == init + [h];
      HintsByLevelPartitions(init);
      var acc := HintsByLevel(init);
      forall l | l in HintsByLevel(hints)
        ensures HintsByLevel(hints)[l] == OfLevel(hints, l)
      {
        if l != h.level {
          assert l in acc;
        } else if l !in acc {
          assert l !in Levels(init);
          assert OfLevel(init, l) == [] by {
            if OfLevel(init, l) != [] {
              assert OfLevel(init, l)[0] in OfLevel(init, l);
            }
          }
        }
      }
    }
  }

  /** `purchasedHints`: the available hints whose id was purchased, in order. */
  function PurchasedHints(available: seq<Hint>, purchasedIds: seq<string>): (r: seq<Hint>)
    ensures |r| <= |available|
    ensures forall h :: h in r <==> h in available && h.id in purchasedIds
  {
    if available == [] then []
    else
      var rest := PurchasedHints(available[1..], purchasedIds);
      assert available == [available[0]] + available[1..];
      if available[0].id in purchasedIds then [available[0]] + rest else rest
  }

  /** Filtering from the other end gives the same list: a hint appended to the
      available ones is appended to the purchased ones exactly when its id was
      bought. With `PurchasedHints([], ids) == []` this pins the result down as
      the order-preserving filter. */
  lemma {:induction false} PurchasedHintsSnoc(available: seq<Hint>, h: Hint, ids: seq<string>)
    ensures PurchasedHints(available + [h], ids) == PurchasedHints(available, ids) + (if h.id in ids then [h] else [])
    decreases |available|
  {
    if available != [] {
      assert (available + [h])[1..] == available[1..] + [h];
      PurchasedHintsSnoc(available[1..], h, ids);
    }
  }

  /** Each purchased hint is kept as many times as it is available, and no other
      hint is kept. */
  lemma {:induction false} PurchasedHintsCount(available: seq<Hint>, ids: seq<string>)
    ensures forall h :: multiset(PurchasedHints(available, ids))[h] == if h.id in ids then multiset(available)[h] else 0
  {
    if available != [] {
      assert available == [available[0]] + available[1..];
      PurchasedHintsCount(available[1..], ids);
    }
  }

  function XpCost(h: Hint): real { OptOrReal(h.xpCost, 0.0) }
  function AccCost(h: Hint): real { OptOrReal(h.accuracyPenalty, 0.0) }

  function SumXp(hints: seq<Hint>): real {
    if hints == [] then 0.0 else XpCost(hints[0]) + SumXp(hints[1..])
  }

  function SumAcc(hints: seq<Hint>): real {
    if hints == [] then 0.0 else AccCost(hints[0]) + SumAcc(hints[1..])
  }

  /** `xpDebt` and `accDebt`. */
  function Debts(s: HintV2State): (r: (real, real))
    ensures s.purchasedHintIds == [] ==> r == (0.0, 0.0)
  {
    var bought := PurchasedHints(s.availableHints, s.purchasedHintIds);
    NothingPurchased(s.availableHints, s.purchasedHintIds);
    (SumXp(bought), SumAcc(bought))
  }

  lemma {:induction false} NothingPurchased(available: seq<Hint>, ids: seq<string>)
    ensures ids == [] ==> PurchasedHints(available, ids) == []
  {
    if available != [] {
      NothingPurchased(available[1..], ids);
    }
  }

  /** The hints whose id is `hintId`. */
  function WithId(hints: seq<Hint>, hintId: string): seq<Hint> {
    if hints == [] then []
    else (if hints[0].id == hintId then [hints[0]] else []) + WithId(hints[1..], hintId)
  }

  lemma {:induction false} SumXpConcat(a: seq<Hint>, b: seq<Hint>)
    ensures SumXp(a + b) == SumXp(a) + SumXp(b)
  {
    if a != [] {
      assert (a + b)[1..] == a[1..] + b;
      SumXpConcat(a[1..], b);
    } else {
      assert a + b == b;
    }
  }

  lemma {:induction false} SumAccConcat(a: seq<Hint>, b: seq<Hint>)
    ensures SumAcc(a + b) == SumAcc(a) + SumAcc(b)
  {
    if a != [] {
      assert (a + b)[1..] == a[1..] + b;
      SumAccConcat(a[1..], b);
    } else {
      assert a + b == b;
    }
  }

  /** Buying a hint id adds the costs of the hints carrying that id to the debts. */
  lemma {:induction false} PurchaseAddsCost(available: seq<Hint>, ids: seq<string>, hintId: string)
    requires hintId !in ids
    ensures SumXp(PurchasedHints(available, ids + [hintId]))
         == SumXp(PurchasedHints(available, ids)) + SumXp(WithId(available, hintId))
    ensures SumAcc(PurchasedHints(available, ids + [hintId]))
         == SumAcc(PurchasedHints(available, ids)) + SumAcc(WithId(available, hintId))
  {
    if available != [] {
      var h := available[0];
      PurchaseAddsCost(available[1..], ids, hintId);
      var restNew := PurchasedHints(available[1..], ids + [hintId]);
      var restOld := PurchasedHints(available[1..], ids);
      var restId := WithId(available[1..], hintId);
      SumXpConcat([h], restNew);
      SumXpConcat([h], restOld);
      SumXpConcat([h], restId);
      SumXpConcat([], restId);
      SumAccConcat([h], restNew);
      SumAccConcat([h], restOld);
      SumAccConcat([h], restId);
      SumAccConcat([], restId);
      assert [] + restId == restId;
    }
  }

  /** With distinct hint ids, a successful purchase raises the XP debt by exactly
      the purchased hint's cost. */
  lemma PurchaseRaisesXpDebt(s: HintV2State, hasUser: bool, hasImage: bool, k: int)
    requires 0 <= k < |s.availableHints|
    requires forall i, j :: 0 <= i < j < |s.availableHints| ==> s.availableHints[i].id != s.availableHints[j].id
    requires MayPurchase(s, hasUser, hasImage, s.availableHints[k].id)
    ensures Debts(PurchaseHint(s, hasUser, hasImage, s.availableHints[k].id, false)).0
         == Debts(s).0 + XpCost(s.availableHints[k])
  {
    var id := s.availableHints[k].id;
    PurchaseAddsCost(s.availableHints, s.purchasedHintIds, id);
    WithIdUnique(s.availableHints, k);
  }

  lemma {:induction false} WithIdUnique(hints: seq<Hint>, k: int)
    requires 0 <= k < |hints|
    requires forall i, j :: 0 <= i < j < |hints| ==> hints[i].id != hints[j].id
    ensures WithId(hints, hints[k].id) == [hints[k]]
  {
    if k == 0 {
      WithIdNone(hints[1..], hints[0].id);
    } else {
      WithIdUnique(hints[1..], k - 1);
    }
  }

  lemma {:induction false} WithIdNone(hints: seq<Hint>, hintId: string)
    requires forall i :: 0 <= i < |hints| ==> hints[i].id != hintId
    ensures WithId(hints, hintId) == []
  {
    if hints != [] {
      WithIdNone(hints[1..], hintId);
    }
  }

  /** An entry of the cost table: XP and accuracy taken off for one hint kind. */
  datatype HintCost = HintCost(xp: real, acc: real)

  /** One sample hint: id prefix, kind, text, level and the key of its cost. */
  datatype SampleSpec = SampleSpec(idPrefix: string, kind: string, text: string, level: int, costKey: string)

  const SampleSpecs: seq<SampleSpec> := [
    SampleSpec("sample-continent-", "continent", "Europe", 1, "continent"),
    SampleSpec("sample-century-", "century", "20th Century", 1, "century"),
    SampleSpec("sample-distant-landmark-", "distant_landmark", "Eiffel Tower", 2, "distantLandmark"),
    SampleSpec("sample-distant-distance-", "distant_distance", "Distance > 350km", 2, "distantDistance"),
    SampleSpec("sample-distant-event-", "distant_event", "World War II", 2, "distantEvent"),
    SampleSpec("sample-distant-time-diff-", "distant_time_diff", "Time Difference > 15 years", 2, "distantTimeDiff"),
    SampleSpec("sample-region-", "region", "Germany", 3, "region"),
    SampleSpec("sample-narrow-decade-", "narrow_decade", "1940s", 3, "narrowDecade"),
    SampleSpec("sample-nearby-landmark-", "nearby_landmark", "Brandenburg Gate", 4, "nearbyLandmark"),
    SampleSpec("sample-nearby-distance-", "nearby_distance", "Distance < 5km", 4, "nearbyDistance"),
    SampleSpec("sample-contemporary-event-", "contemporary_event", "Berlin Blockade", 4, "contemporaryEvent"),
    SampleSpec("sample-close-time-diff-", "close_time_diff", "Time Difference < 3 years", 4, "closeTimeDiff")]

  /** The sample hint built from one spec. */
  function SampleHint(spec: SampleSpec, imageId: string, costs: string -> HintCost): Hint {
    var cost := costs(spec.costKey);
    Hint(spec.idPrefix + imageId, spec.kind, spec.text, spec.level, imageId, Some(cost.xp), Some(cost.acc))
  }

  /** `generateSampleHints(imageId)`: the twelve stand-in hints used when the
      image has none. */
  function GenerateSampleHints(imageId: string, costs: string -> HintCost): (r: seq<Hint>)
    ensures |r| == 12
    ensures forall i :: 0 <= i < |r| ==> r[i].imageId == imageId && 1 <= r[i].level <= 4
    ensures forall i :: 0 <= i < |r| ==> r[i].xpCost.Some? && r[i].accuracyPenalty.Some?
    ensures forall i, j :: 0 <= i < j < |r| ==> r[i].id != r[j].id
    ensures Levels(r) == {1, 2, 3, 4}
  {
    var r := seq(|SampleSpecs|, i requires 0 <= i < |SampleSpecs| => SampleHint(SampleSpecs[i], imageId, costs));
    SampleIdsDistinct(r, imageId);
    SampleLevels(r);
    r
  }

  lemma SampleIdsDistinct(r: seq<Hint>, imageId: string)
    requires |r| == |SampleSpecs|
    requires forall i :: 0 <= i < |r| ==> r[i].id == SampleSpecs[i].idPrefix + imageId
    ensures forall i, j :: 0 <= i < j < |r| ==> r[i].id != r[j].id
  {
    SamplePrefixesDistinct();
    forall i, j | 0 <= i < j < |r|
      ensures r[i].id != r[j].id
    {
      SuffixCancels(SampleSpecs[i].idPrefix, SampleSpecs[j].idPrefix, imageId);
    }
  }

  lemma SampleLevels(r: seq<Hint>)
    requires |r| == |SampleSpecs|
    requires forall i :: 0 <= i < |r| ==> r[i].level == SampleSpecs[i].level
    ensures Levels(r) == {1, 2, 3, 4}
  {
    assert r[0].level == 1 && r[2].level == 2 && r[6].level == 3 && r[8].level == 4;
    assert r[0] in r && r[2] in r && r[6] in r && r[8] in r;
    forall h | h in r
      ensures 1 <= h.level <= 4
    {
      var i :| 0 <= i < |r| && r[i] == h;
    }
  }

  lemma SamplePrefixesDistinct()
    ensures forall i, j :: 0 <= i < j < |SampleSpecs| ==> SampleSpecs[i].idPrefix != SampleSpecs[j].idPrefix
  {
  }

  lemma SuffixCancels(p: string, q: string, x: string)
    requires p != q
    ensures p + x != q + x
  {
    if |p| == |q| {
      assert (p + x)[..|p|] == p;
      assert (q + x)[..|q|] == q;
    }
  }
}

=== FILE: js.dfy ===
/** The JavaScript built-ins the game engine leans on, given an exact meaning:
    ECMAScript `Math.round`, `Math.max`/`Math.min`, the `x || d` and `x ?? d`
    defaulting idioms, decimal rendering of integers, `padStart`, `includes`
    and `toLowerCase`. */
module Js {

  /** `null`/`undefined` versus a present value. */
  datatype Option<+T> = None | Some(value: T) {
    /** `x ?? d`: the value when present, otherwise the default. */
    function GetOr(default: T): T {
      match this
      case Some(v) => v
      case None => default
    }
  }

  /** The result of a call that may throw: the value it returned, or an exception. */
  datatype Outcome<+T> = Returned(value: T) | Threw

  /** ECMAScript `Math.round`: the nearest integer, half-way cases rounded
      toward +infinity (section 21.3.2.28 of ECMA-262), i.e. floor(x + 0.5). */
  function Round(x: real): (r: int)
    ensures x - 0.5 < r as real <= x + 0.5
  {
    (x + 0.5).Floor
  }

  lemma RoundMonotone(a: real, b: real)
    requires a <= b
    ensures Round(a) <= Round(b)
  {
  }

  lemma RoundOfInteger(n: int)
    ensures Round(n as real) == n
  {
  }

  /** `Math.max` and `Math.min` on two finite numbers. */
  function Max(a: real, b: real): (r: real)
    ensures r >= a && r >= b && (r == a || r == b)
  {
    if a >= b then a else b
  }

  function Min(a: real, b: real): (r: real)
    ensures r <= a && r <= b && (r == a || r == b)
  {
    if a <= b then a else b
  }

  function Abs(x: int): (r: nat)
    ensures r == x || r == -x
  {
    if x < 0 then -x else x
  }

  /** The JavaScript `%` operator on integers: the remainder takes the sign of
      the dividend (truncating division), unlike Dafny's Euclidean `%`. */
  function JsRem(a: int, b: int): (r: int)
    requires b > 0
    ensures a >= 0 ==> r == a % b
    ensures -b < r < b
    ensures a < 0 ==> r <= 0
  {
    if a >= 0 then a % b else -((-a) % b)
  }

  /** `x || d` for a number: 0 is falsy, so it is replaced by the default. */
  function OrInt(x: int, d: int): (r: int)
    ensures x != 0 ==> r == x
    ensures x == 0 ==> r == d
  {
    if x != 0 then x else d
  }

  function OrReal(x: real, d: real): (r: real)
    ensures x != 0.0 ==> r == x
    ensures x == 0.0 ==> r == d
  {
    if x != 0.0 then x else d
  }

  /** `x || d` for a string: the empty string is falsy. */
  function OrStr(s: string, d: string): (r: string)
    ensures s != "" ==> r == s
    ensures s == "" ==> r == d
  {
    if s != "" then s else d
  }

  /** `x || d` where `x` may also be missing. */
  function OptOrInt(x: Option<int>, d: int): (r: int)
    ensures x.Some? && x.value != 0 ==> r == x.value
    ensures x.None? || x.value == 0 ==> r == d
  {
    match x
    case Some(v) => OrInt(v, d)
    case None => d
  }

  function OptOrReal(x: Option<real>, d: real): (r: real)
    ensures x.Some? && x.value != 0.0 ==> r == x.value
    ensures x.None? || x.value == 0.0 ==> r == d
  {
    match x
    case Some(v) => OrReal(v, d)
    case None => d
  }

  function OptOrStr(x: Option<string>, d: string): (r: string)
    ensures x.Some? && x.value != "" ==> r == x.value
    ensures x.None? || x.value == "" ==> r == d
  {
    match x
    case Some(v) => OrStr(v, d)
    case None => d
  }

  /** A string is truthy when present and non-empty. */
  predicate TruthyStr(x: Option<string>) {
    x.Some? && x.value != ""
  }

  /** `xs.reduce((sum, x) => sum + x, 0)`. */
  function Sum(xs: seq<real>): real {
    if xs == [] then 0.0 else Sum(xs[..|xs| - 1]) + xs[|xs| - 1]
  }

  /** Adding a number at the end adds it to the sum. */
  lemma SumAppend(xs: seq<real>, x: real)
    ensures Sum(xs + [x]) == Sum(xs) + x
  {
    assert (xs + [x])[..|xs|] == xs;
  }

  /** A sum of numbers in [lo, hi] lies in [n * lo, n * hi]. */
  lemma {:induction false} SumBounds(xs: seq<real>, lo: real, hi: real)
    requires forall i :: 0 <= i < |xs| ==> lo <= xs[i] <= hi
    ensures |xs| as real * lo <= Sum(xs) <= |xs| as real * hi
    decreases |xs|
  {
    if xs != [] {
      var init := xs[..|xs| - 1];
      assert forall i :: 0 <= i < |init| ==> init[i] == xs[i];
      SumBounds(init, lo, hi);
      assert |xs| as real * lo == |init| as real * lo + lo;
      assert |xs| as real * hi == |init| as real * hi + hi;
    }
  }

  /** A non-negative number divided by a positive one stays non-negative. */
  lemma DivNonNegative(a: real, n: real)
    requires 0.0 <= a && 0.0 < n
    ensures 0.0 <= a / n
  {
  }

  /** The mean of a list of numbers, 0 for an empty list. */
  function Mean(xs: seq<real>): (r: real)
    ensures xs == [] ==> r == 0.0
    ensures xs != [] ==> r * |xs| as real == Sum(xs)
  {
    if |xs| > 0 then Sum(xs) / |xs| as real else 0.0
  }

  // ---------------------------------------------------------------------
  // Decimal rendering of integers (`Number.prototype.toString` on integers)
  // ---------------------------------------------------------------------

  predicate IsDigit(c: char) {
    '0' <= c <= '9'
  }

  predicate AllDigits(s: string) {
    forall i :: 0 <= i < |s| ==> IsDigit(s[i])
  }

  function DigitChar(d: int): (c: char)
    requires 0 <= d < 10
    ensures IsDigit(c)
  {
    ('0' as int + d) as char
  }

  function DigitValue(c: char): (d: nat)
    requires IsDigit(c)
    ensures d < 10 && DigitChar(d) == c
  {
    c as int - '0' as int
  }

  /** The decimal digits of `n`, most significant first, without leading zeros. */
  function NatToString(n: nat): (s: string)
    ensures 1 <= |s| && AllDigits(s)
    ensures s[0] == '0' ==> n == 0
    decreases n
  {
    if n < 10 then [DigitChar(n)] else NatToString(n / 10) + [DigitChar(n % 10)]
  }

  /** `String(n)` for an integer `n` (a leading '-' for negatives). */
  function IntToString(n: int): (s: string)
    ensures n >= 0 ==> s == NatToString(n)
    ensures n < 0 ==> s == "-" + NatToString(-n)
  {
    if n < 0 then "-" + NatToString(-n) else NatToString(n)
  }

  /** Reads a string of decimal digits back as a number (`parseInt`, base 10). */
  function ParseDigits(s: string): nat
    requires AllDigits(s)
  {
    if s == [] then 0 else ParseDigits(s[..|s| - 1]) * 10 + DigitValue(s[|s| - 1])
  }

  /** Rendering then reading a natural number gives it back. */
  lemma {:induction false} ParseNatToString(n: nat)
    ensures ParseDigits(NatToString(n)) == n
    decreases n
  {
    var s := NatToString(n);
    if n >= 10 {
      var prefix := NatToString(n / 10);
      assert s[..|s| - 1] == prefix;
      ParseNatToString(n / 10);
    }
  }

  /** `s.padStart(2, '0')`. */
  function PadStart2(s: string): (r: string)
    ensures |s| >= 2 ==> r == s
    ensures |s| < 2 ==> |r| == 2 && r[2 - |s|..] == s
    ensures forall i :: 0 <= i < |r| - |s| ==> r[i] == '0'
  {
    if |s| >= 2 then s else if |s| == 1 then "0" + s else "00"
  }

  // ---------------------------------------------------------------------
  // Strings
  // ---------------------------------------------------------------------

  /** `s.includes(sub)`. */
  function Contains(s: string, sub: string): bool
    decreases |s|
  {
    if |sub| > |s| then false
    else if s[..|sub|] == sub then true
    else |s| > 0 && Contains(s[1..], sub)
  }

  /** `sub` occurs in `s` starting at position `i`. */
  predicate OccursAt(s: string, sub: string, i: int) {
    0 <= i && i + |sub| <= |s| && s[i..i + |sub|] == sub
  }

  /** `includes` holds exactly when `sub` occurs at some position of `s`. */
  lemma {:induction false} ContainsMeansOccurs(s: string, sub: string)
    ensures Contains(s, sub) <==> exists i :: OccursAt(s, sub, i)
    decreases |s|
  {
    if |sub| > |s| {
    } else if s[..|sub|] == sub {
      assert OccursAt(s, sub, 0);
    } else if |s| == 0 {
    } else {
      ContainsMeansOccurs(s[1..], sub);
      OccursShift(s, sub);
      if Contains(s, sub) {
        var i :| OccursAt(s[1..], sub, i);
        assert s[i + 1..i + 1 + |sub|] == s[1..][i..i + |sub|];
        assert OccursAt(s, sub, i + 1);
      }
    }
  }

  /** An occurrence past the first position is an occurrence in the tail. */
  lemma OccursShift(s: string, sub: string)
    requires |s| > 0
    ensures forall i :: OccursAt(s, sub, i) && i > 0 ==> OccursAt(s[1..], sub, i - 1)
  {
    forall i | OccursAt(s, sub, i) && i > 0
      ensures OccursAt(s[1..], sub, i - 1)
    {
      var t := s[1..];
      assert forall k :: 0 <= k < |sub| ==> t[i - 1 + k] == sub[k];
    }
  }

  /** `toLowerCase`, restricted to the ASCII letters. */
  function LowerChar(c: char): char {
    if 'A' <= c <= 'Z' then (c as int + 32) as char else c
  }

  function ToLower(s: string): (r: string)
    ensures |r| == |s|
    ensures forall i :: 0 <= i < |s| ==> r[i] == LowerChar(s[i])
  {
    seq(|s|, i requires 0 <= i < |s| => LowerChar(s[i]))
  }
}

=== FILE: layout.dfy ===
/** The round screen's own guards (src/components/layouts/GameLayout1.tsx):
    the clock text, the submit button and its re-entrancy guard, the timeout
    handler and map selection. Calls the screen makes to its parent are
    returned as a list of effects. */
module GameLayout {
  import opened Js
  import opened GameTypes

  /** `formatTime`: whole minutes (rounded down), a colon, and the seconds
      (JavaScript remainder) left-padded to two digits. */
  function FormatTime(seconds: int): (r: string)
    ensures seconds >= 0 ==> r == NatToString(seconds / 60) + ":" + PadStart2(NatToString(seconds % 60))
  {
    IntToString(seconds / 60) + ":" + PadStart2(IntToString(JsRem(seconds, 60)))
  }

  /** Splits at the first ':'. */
  function SplitAtColon(t: string): (r: Option<(string, string)>)
    ensures r.Some? ==> t == r.value.0 + ":" + r.value.1 && ':' !in r.value.0
  {
    if t == [] then None
    else if t[0] == ':' then Some(([], t[1..]))
    else
      match SplitAtColon(t[1..])
      case None => None
      case Some((a, b)) => Some(([t[0]] + a, b))
  }

  /** Reads "m:ss" back as a number of seconds. */
  function ParseTime(t: string): Option<int> {
    match SplitAtColon(t)
    case None => None
    case Some((m, s)) =>
      if AllDigits(m) && AllDigits(s) && |s| == 2 then Some(ParseDigits(m) * 60 + ParseDigits(s)) else None
  }

  lemma {:induction false} SplitAfterDigits(a: string, b: string)
    requires AllDigits(a)
    ensures SplitAtColon(a + ":" + b) == Some((a, b))
  {
    if a != [] {
      assert (a + ":" + b)[1..] == a[1..] + ":" + b;
      SplitAfterDigits(a[1..], b);
      assert [a[0]] + a[1..] == a;
    } else {
      assert a + ":" + b == [':'] + b;
    }
  }

  /** The seconds field of a clock value from 0 up is always two digits, and the
      minutes and seconds read back give the number of seconds shown. */
  lemma FormatTimeRoundTrip(seconds: int)
    requires seconds >= 0
    ensures var t := FormatTime(seconds);
      SplitAtColon(t).Some? && |SplitAtColon(t).value.1| == 2 && ParseTime(t) == Some(seconds)
  {
    var m := NatToString(seconds / 60);
    var padded := PadStart2(NatToString(seconds % 60));
    ParseNatToString(seconds / 60);
    PaddedSecondsReadBack(seconds % 60);
    SplitAfterDigits(m, padded);
  }

  /** A seconds value below 60, padded to two characters, is two digits that
      read back as that value. */
  lemma PaddedSecondsReadBack(sec: nat)
    requires sec < 60
    ensures var padded := PadStart2(NatToString(sec));
      |padded| == 2 && AllDigits(padded) && ParseDigits(padded) == sec
  {
    var padded := PadStart2(NatToString(sec));
    if sec < 10 {
      assert padded == "0" + NatToString(sec);
      assert padded[..1] == "0";
      assert ParseDigits(padded) == ParseDigits(padded[..1]) * 10 + DigitValue(padded[1]);
      assert ParseDigits(padded[..1]) == 0 by {
        assert padded[..1][..0] == [];
      }
      assert ParseDigits(NatToString(sec)) == DigitValue(padded[1]) by {
        assert NatToString(sec) == [padded[1]];
        assert NatToString(sec)[..0] == [];
      }
      ParseNatToString(sec);
    } else {
      assert |NatToString(sec)| == 2 by {
        assert NatToString(sec) == NatToString(sec / 10) + [DigitChar(sec % 10)];
      }
      ParseNatToString(sec);
    }
  }

  /** One minute five reads "1:05"; a negative count keeps JavaScript's signs. */
  lemma FormatTimeExamples()
    ensures FormatTime(65) == "1:05"
    ensures FormatTime(-5) == "-1:-5"
  {
    assert NatToString(1) == "1";
    assert NatToString(5) == "5";
  }

  datatype LayoutState = LayoutState(currentGuess: Option<Coordinates>, isSubmitting: bool)

  /** What the screen asks of its parent. */
  datatype LayoutEffect = MapGuess(lat: real, lng: real) | Complete

  /** The submit button is disabled without a guess or while submitting. */
  predicate SubmitDisabled(s: LayoutState) {
    s.currentGuess.None? || s.isSubmitting
  }

  /** `handleCoordinatesSelect`: the pin becomes the guess and is passed up unchanged. */
  function SelectCoordinates(s: LayoutState, lat: real, lng: real): (r: (LayoutState, seq<LayoutEffect>))
    ensures r.0.currentGuess == Some(Coordinates(lat, lng)) && r.0.isSubmitting == s.isSubmitting
    ensures r.1 == [MapGuess(lat, lng)]
  {
    (s.(currentGuess := Some(Coordinates(lat, lng))), [MapGuess(lat, lng)])
  }

  /** The first half of `handleSubmit`: nothing happens without a completion
      callback, without a guess, or while a submission is in flight; otherwise
      the screen is marked as submitting and the callback is invoked. */
  function BeginSubmit(s: LayoutState, hasOnComplete: bool): (r: (LayoutState, seq<LayoutEffect>))
    ensures !hasOnComplete || s.currentGuess.None? || s.isSubmitting ==> r == (s, [])
    ensures hasOnComplete && s.currentGuess.Some? && !s.isSubmitting ==>
      r.0 == s.(isSubmitting := true) && r.1 == [Complete]
  {
    if !hasOnComplete || s.currentGuess.None? || s.isSubmitting then (s, [])
    else (s.(isSubmitting := true), [Complete])
  }

  /** The `finally` of `handleSubmit`: the flag is cleared whether the callback
      succeeded or threw, as long as the screen is still mounted. The source
      clears its mounted flag only in a cleanup closure that the handler
      returns and nobody calls, so in the program `stillMounted` is always
      true and the flag always clears. */
  function FinishSubmit(s: LayoutState, stillMounted: bool): (r: LayoutState)
    ensures stillMounted ==> r == s.(isSubmitting := false)
    ensures !stillMounted ==> r == s
  {
    if stillMounted then s.(isSubmitting := false) else s
  }

  /** A click on the button does something exactly when the button is enabled
      and the screen has a completion callback. */
  lemma DisabledMeansNoSubmit(s: LayoutState, hasOnComplete: bool)
    ensures SubmitDisabled(s) ==> BeginSubmit(s, hasOnComplete) == (s, [])
    ensures !SubmitDisabled(s) && hasOnComplete ==> BeginSubmit(s, hasOnComplete).1 == [Complete]
  {
  }

  datatype SubmitEvent = Click | Settled

  function CompleteCalls(s: LayoutState, hasOnComplete: bool, events: seq<SubmitEvent>): nat
    decreases |events|
  {
    if events == [] then 0
    else match events[0]
      case Click =>
        var (next, effects) := BeginSubmit(s, hasOnComplete);
        |effects| + CompleteCalls(next, hasOnComplete, events[1..])
      case Settled => CompleteCalls(FinishSubmit(s, true), hasOnComplete, events[1..])
  }

  function Settlements(events: seq<SubmitEvent>): nat {
    if events == [] then 0 else (if events[0] == Settled then 1 else 0) + Settlements(events[1..])
  }

  /** Repeated clicks cannot start a second submission before the first settles:
      the callback runs at most once per settlement, plus once. */
  lemma {:induction false} SubmitOncePerSettlement(s: LayoutState, hasOnComplete: bool, events: seq<SubmitEvent>)
    ensures CompleteCalls(s, hasOnComplete, events) <= (if s.isSubmitting then 0 else 1) + Settlements(events)
    decreases |events|
  {
    if events != [] {
      match events[0]
      case Click =>
        SubmitOncePerSettlement(BeginSubmit(s, hasOnComplete).0, hasOnComplete, events[1..]);
      case Settled =>
        SubmitOncePerSettlement(FinishSubmit(s, true), hasOnComplete, events[1..]);
    }
  }

  /** `handleTimeout`, once its idle callback runs: a missing guess is replaced by
      a pin at (0, 0) before completing; the screen's own guess is not updated.
      The source aborts only in a cleanup closure that the handler returns and
      nobody calls, so in the program `aborted` is always false. */
  function HandleTimeout(s: LayoutState, hasOnComplete: bool, aborted: bool): (r: seq<LayoutEffect>)
    ensures aborted ==> r == []
    ensures !aborted && s.currentGuess.None? && hasOnComplete ==> r == [MapGuess(0.0, 0.0), Complete]
    ensures !aborted && hasOnComplete ==> |r| > 0 && r[|r| - 1] == Complete
    ensures !hasOnComplete ==> Complete !in r
    ensures s.currentGuess.Some? ==> forall e :: e in r ==> !e.MapGuess?
  {
    if aborted then []
    else
      (if s.currentGuess.None? then [MapGuess(0.0, 0.0)] else []) + (if hasOnComplete then [Complete] else [])
  }
}

=== FILE: local_store.dfy ===
/** The browser's `localStorage` as an abstract key-value map. JSON encoding
    is the identity: a stored value is already the parsed JSON document. */
module LocalStore {
  import opened Js
  import opened GameTypes

  /** A JSON object carrying game-state keys. `None` marks a key that is absent
      or holds a value of another JSON type; `roomId` distinguishes an absent
      key (`None`) from `null` (`Some(None)`). */
  datatype Snapshot = Snapshot(
    gameId: Option<string>,
    roomId: Option<Option<string>>,
    images: Option<seq<GameImage>>,
    roundResults: Option<seq<RoundResult>>,
    hintsAllowed: Option<int>,
    roundTimerSec: Option<int>,
    totalGameAccuracy: Option<real>,
    totalGameXP: Option<real>,
    timestamp: Option<int>)

  /** A JSON object with none of the game-state keys. */
  const EmptySnapshot := Snapshot(None, None, None, None, None, None, None, None, None)

  /** The per-user play statistics the badge service keeps (badgeService.ts
      `UserGameMetrics`). Every figure is a JavaScript number, counts included. */
  datatype UserGameMetrics = UserGameMetrics(
    totalRoundsPlayed: real,
    totalGamesPlayed: real,
    perfectYearGuesses: real,
    perfectLocationGuesses: real,
    perfectRounds: real,
    highestYearAccuracy: real,
    highestLocationAccuracy: real,
    uniqueCenturiesSeen: seq<int>,
    uniquePeriodsSeen: seq<string>)

  /** What a slot can hold: the empty string (falsy, read as "nothing saved"),
      text that `JSON.parse` rejects, a game snapshot, or a metrics record. */
  datatype StoredValue =
    | Blank
    | Unparsable
    | GameRecord(snapshot: Snapshot)
    | MetricsRecord(metrics: UserGameMetrics)

  type Store = map<string, StoredValue>

  /** `localStorage.getItem(key)` is truthy. */
  predicate HasText(store: Store, key: string) {
    key in store && store[key] != Blank
  }

  /** The object `JSON.parse` yields when read for game-state keys; `None` when
      parsing fails. A metrics record parses to an object without those keys. */
  function ParseSnapshot(v: StoredValue): (r: Option<Snapshot>)
    ensures r.None? <==> v.Blank? || v.Unparsable?
    ensures v.GameRecord? ==> r == Some(v.snapshot)
  {
    match v
    case Blank => None
    case Unparsable => None
    case GameRecord(s) => Some(s)
    case MetricsRecord(_) => Some(EmptySnapshot)
  }

  /** `localStorage.removeItem(key)`. */
  function Remove(store: Store, key: string): (r: Store)
    ensures key !in r
    ensures forall k :: k in store && k != key ==> k in r && r[k] == store[k]
    ensures forall k :: k in r ==> k in store
  {
    store - {key}
  }
}

=== FILE: reducer.dfy ===
/** The game context's reducer (src/contexts/GameContext/reducer.ts) and its
    action vocabulary, which actionTypes.ts and actionCreators.ts repeat tag for
    tag. Each constructor of `GameAction` is the matching action creator. */
module Reducer {
  import opened Js
  import opened GameTypes

  /** The state a game starts from. */
  const InitialGameState := GameState(
    gameId := None,
    roomId := None,
    images := [],
    roundResults := [],
    isLoading := false,
    error := None,
    hintsAllowed := 3,
    roundTimerSec := 60,
    totalGameAccuracy := 0.0,
    totalGameXP := 0.0)

  datatype GameAction =
    | SetGameId(id: Option<string>)
    | SetRoomId(roomId: Option<string>)
    | SetImages(images: seq<GameImage>)
    | SetRoundResults(results: seq<RoundResult>)
    | SetIsLoading(loading: bool)
    | SetError(error: Option<GameError>)
    | SetHintsAllowed(hints: int)
    | SetRoundTimerSec(seconds: int)
    | SetTotalGameAccuracy(accuracy: real)
    | SetTotalGameXP(xp: real)
    | ResetGame(payload: GameState)
    | Unknown(tag: string)
      /** An action whose type matches no case: the reducer's `default`. */

  /** The fields of the game state, to say which one an action writes. */
  datatype Field =
    | GameIdField | RoomIdField | ImagesField | RoundResultsField | IsLoadingField
    | ErrorField | HintsAllowedField | RoundTimerSecField | TotalGameAccuracyField | TotalGameXPField

  /** `s` and `t` hold the same value in field `f`. */
  predicate SameField(s: GameState, t: GameState, f: Field) {
    match f
    case GameIdField => s.gameId == t.gameId
    case RoomIdField => s.roomId == t.roomId
    case ImagesField => s.images == t.images
    case RoundResultsField => s.roundResults == t.roundResults
    case IsLoadingField => s.isLoading == t.isLoading
    case ErrorField => s.error == t.error
    case HintsAllowedField => s.hintsAllowed == t.hintsAllowed
    case RoundTimerSecField => s.roundTimerSec == t.roundTimerSec
    case TotalGameAccuracyField => s.totalGameAccuracy == t.totalGameAccuracy
    case TotalGameXPField => s.totalGameXP == t.totalGameXP
  }

  /** Two states agreeing on every field are the same state. */
  lemma SameFieldsSameState(s: GameState, t: GameState)
    requires forall f :: SameField(s, t, f)
    ensures s == t
  {
    assert SameField(s, t, GameIdField) && SameField(s, t, RoomIdField) && SameField(s, t, ImagesField);
    assert SameField(s, t, RoundResultsField) && SameField(s, t, IsLoadingField) && SameField(s, t, ErrorField);
    assert SameField(s, t, HintsAllowedField) && SameField(s, t, RoundTimerSecField);
    assert SameField(s, t, TotalGameAccuracyField) && SameField(s, t, TotalGameXPField);
  }

  /** The field a `SET_*` action writes. */
  function Target(a: GameAction): Field
    requires !a.ResetGame? && !a.Unknown?
  {
    match a
    case SetGameId(_) => GameIdField
    case SetRoomId(_) => RoomIdField
    case SetImages(_) => ImagesField
    case SetRoundResults(_) => RoundResultsField
    case SetIsLoading(_) => IsLoadingField
    case SetError(_) => ErrorField
    case SetHintsAllowed(_) => HintsAllowedField
    case SetRoundTimerSec(_) => RoundTimerSecField
    case SetTotalGameAccuracy(_) => TotalGameAccuracyField
    case SetTotalGameXP(_) => TotalGameXPField
  }

  /** State `s` holds the payload of `SET_*` action `a` in the field it writes. */
  predicate Holds(s: GameState, a: GameAction)
    requires !a.ResetGame? && !a.Unknown?
  {
    match a
    case SetGameId(id) => s.gameId == id
    case SetRoomId(id) => s.roomId == id
    case SetImages(images) => s.images == images
    case SetRoundResults(results) => s.roundResults == results
    case SetIsLoading(loading) => s.isLoading == loading
    case SetError(e) => s.error == e
    case SetHintsAllowed(h) => s.hintsAllowed == h
    case SetRoundTimerSec(t) => s.roundTimerSec == t
    case SetTotalGameAccuracy(x) => s.totalGameAccuracy == x
    case SetTotalGameXP(x) => s.totalGameXP == x
  }

  /** `gameReducer`. A `SET_*` action stores its payload in its own field and
      leaves every other field alone; `RESET_GAME` ignores its payload and the
      current state; anything else changes nothing. */
  function Reduce(s: GameState, a: GameAction): (r: GameState)
    ensures !a.ResetGame? && !a.Unknown? ==>
      Holds(r, a) && forall f :: f != Target(a) ==> SameField(r, s, f)
    ensures a.ResetGame? ==> r == InitialGameState
    ensures a.Unknown? ==> r == s
  {
    match a
    case SetGameId(id) => s.(gameId := id)
    case SetRoomId(id) => s.(roomId := id)
    case SetImages(images) => s.(images := images)
    case SetRoundResults(results) => s.(roundResults := results)
    case SetIsLoading(loading) => s.(isLoading := loading)
    case SetError(e) => s.(error := e)
    case SetHintsAllowed(h) => s.(hintsAllowed := h)
    case SetRoundTimerSec(t) => s.(roundTimerSec := t)
    case SetTotalGameAccuracy(x) => s.(totalGameAccuracy := x)
    case SetTotalGameXP(x) => s.(totalGameXP := x)
    case ResetGame(_) => InitialGameState
    case Unknown(_) => s
  }

  /** The effect of a `SET_*` action is fixed by its payload and the other
      fields: any state with those contents is the reducer's result. */
  lemma ReduceCharacterised(s: GameState, a: GameAction, t: GameState)
    requires !a.ResetGame? && !a.Unknown?
    ensures Reduce(s, a) == t <==> Holds(t, a) && forall f :: f != Target(a) ==> SameField(t, s, f)
  {
    var r := Reduce(s, a);
    if Holds(t, a) && forall f :: f != Target(a) ==> SameField(t, s, f) {
      forall f ensures SameField(r, t, f) {
        if f != Target(a) {
          assert SameField(r, s, f) && SameField(t, s, f);
        }
      }
      SameFieldsSameState(r, t);
    }
  }

  /** Every action is idempotent: dispatching it twice is dispatching it once. */
  lemma ReduceIdempotent(s: GameState, a: GameAction)
    ensures Reduce(Reduce(s, a), a) == Reduce(s, a)
  {
  }

  /** A second write to the same field wins over the first. */
  lemma LastWriteWins(s: GameState, a: GameAction, b: GameAction)
    requires !a.ResetGame? && !a.Unknown? && !b.ResetGame? && !b.Unknown?
    requires Target(a) == Target(b)
    ensures Reduce(Reduce(s, a), b) == Reduce(s, b)
  {
    var r1 := Reduce(Reduce(s, a), b);
    var r2 := Reduce(s, b);
    forall f ensures SameField(r1, r2, f) {
      if f != Target(b) {
        assert SameField(r1, Reduce(s, a), f) && SameField(Reduce(s, a), s, f) && SameField(r2, s, f);
      } else {
        HoldsDeterminesField(r1, r2, b);
      }
    }
    SameFieldsSameState(r1, r2);
  }

  /** Writes to different fields commute. */
  lemma DistinctWritesCommute(s: GameState, a: GameAction, b: GameAction)
    requires !a.ResetGame? && !a.Unknown? && !b.ResetGame? && !b.Unknown?
    requires Target(a) != Target(b)
    ensures Reduce(Reduce(s, a), b) == Reduce(Reduce(s, b), a)
  {
    var ab := Reduce(Reduce(s, a), b);
    var ba := Reduce(Reduce(s, b), a);
    forall f ensures SameField(ab, ba, f) {
      if f == Target(a) {
        assert SameField(ab, Reduce(s, a), f);
        HoldsDeterminesField(Reduce(s, a), ba, a);
      } else if f == Target(b) {
        assert SameField(ba, Reduce(s, b), f);
        HoldsDeterminesField(ab, Reduce(s, b), b);
      } else {
        assert SameField(ab, Reduce(s, a), f) && SameField(Reduce(s, a), s, f);
        assert SameField(ba, Reduce(s, b), f) && SameField(Reduce(s, b), s, f);
      }
    }
    SameFieldsSameState(ab, ba);
  }

  /** Two states holding the same payload agree on the field it goes to. */
  lemma HoldsDeterminesField(s: GameState, t: GameState, a: GameAction)
    requires !a.ResetGame? && !a.Unknown?
    requires Holds(s, a) && Holds(t, a)
    ensures SameField(s, t, Target(a))
  {
  }

  /** `gameActionCreators.resetGame()` takes no argument and carries the initial state. */
  function ResetGameAction(): (a: GameAction)
    ensures a.ResetGame? && a.payload == InitialGameState
  {
    ResetGame(InitialGameState)
  }

  /** `resetGame(initialState)` of actionCreators.ts carries whatever it is
      given; the reducer ignores it, so both creators reset to the same state. */
  lemma ResetCreatorsAgree(s: GameState, t: GameState, payload: GameState)
    ensures Reduce(s, ResetGame(payload)) == Reduce(t, ResetGameAction())
    ensures Reduce(s, ResetGame(payload)) == InitialGameState
  {
  }
}

=== FILE: round_results.dfy ===
/** The round results screen (src/pages/RoundResultsPage.tsx): which result and
    image it shows, the accuracy figures it hands to the badge service, the
    record it gives the layout, and where "Next" leads. */
module RoundResultsPage {
  import opened Js
  import opened GameTypes

  /** Rounds assumed while no images are loaded. */
  const FallbackTotalRounds: int := 5

  /** The year shown when an image has a falsy year. */
  const FallbackYear: int := 1900

  /** Distance at which the badge location accuracy reaches 0. */
  const BadgeMaxDistanceKm: real := 2000.0

  /** The digits at the start of a string. */
  function LeadingDigits(s: string): (r: string)
    ensures AllDigits(r) && |r| <= |s| && r == s[..|r|]
    ensures |r| < |s| ==> !IsDigit(s[|r|])
  {
    if s == [] || !IsDigit(s[0]) then [] else [s[0]] + LeadingDigits(s[1..])
  }

  /** `parseInt(roundNumberStr || '1', 10)`; `None` is `NaN`. */
  function ParseRoundNumber(param: Option<string>): (r: Option<int>)
    ensures !TruthyStr(param) ==> r == Some(1)
    ensures TruthyStr(param) && !IsDigit(param.value[0]) ==> r.None?
  {
    var s := OptOrStr(param, "1");
    var digits := LeadingDigits(s);
    assert LeadingDigits("1") == "1" by { assert "1"[1..] == []; }
    if digits == [] then None else Some(ParseDigits(digits))
  }

  /** The round number in the address bar is read back as written. */
  lemma ParseRoundNumberRoundTrip(n: nat)
    ensures n != 0 ==> ParseRoundNumber(Some(NatToString(n))) == Some(n)
  {
    if n != 0 {
      var s := NatToString(n);
      LeadingDigitsOfDigits(s);
      ParseNatToString(n);
    }
  }

  lemma {:induction false} LeadingDigitsOfDigits(s: string)
    requires AllDigits(s)
    ensures LeadingDigits(s) == s
  {
    if s != [] {
      LeadingDigitsOfDigits(s[1..]);
      assert [s[0]] + s[1..] == s;
    }
  }

  /** `totalRounds`: the number of images, or 5 before they are loaded. */
  function TotalRounds(images: seq<GameImage>): (r: int)
    ensures r >= 1
    ensures |images| > 0 ==> r == |images|
  {
    if |images| > 0 then |images| else FallbackTotalRounds
  }

  /** `roundResults.find(r => r.roundIndex === currentRoundIndex)`; a `NaN`
      index matches nothing. */
  function FindResult(results: seq<RoundResult>, index: Option<int>): (r: Option<RoundResult>)
    ensures r.Some? ==> index.Some? && r.value in results && r.value.roundIndex == index.value
    ensures r.None? ==> index.None? || forall i :: 0 <= i < |results| ==> results[i].roundIndex != index.value
  {
    if index.None? || results == [] then None
    else if results[0].roundIndex == index.value then Some(results[0])
    else FindResult(results[1..], index)
  }

  /** `find` picks the earliest matching result. */
  lemma {:induction false} FindResultFirst(results: seq<RoundResult>, index: int, k: int)
    requires 0 <= k < |results| && results[k].roundIndex == index
    requires forall i :: 0 <= i < k ==> results[i].roundIndex != index
    ensures FindResult(results, Some(index)) == Some(results[k])
  {
    if k > 0 {
      FindResultFirst(results[1..], index, k - 1);
    }
  }

  /** `images.length > currentRoundIndex ? images[currentRoundIndex] : null`;
      a negative index reads `undefined`. */
  function CurrentImage(images: seq<GameImage>, index: Option<int>): (r: Option<GameImage>)
    ensures r.Some? <==> index.Some? && 0 <= index.value < |images|
    ensures r.Some? ==> r.value == images[index.value]
  {
    if index.Some? && 0 <= index.value < |images| then Some(images[index.value]) else None
  }

  /** The year-difference figure given to the badge service: 100 only for an
      exact year, 2 points off per year of difference, 0 from 50 years on. */
  function BadgeYearAccuracy(yearDifference: nat): (r: real)
    ensures r == 100.0 <==> yearDifference == 0
    ensures 0.0 <= r <= 100.0
    ensures yearDifference >= 50 ==> r == 0.0
    ensures yearDifference < 50 ==> r == 100.0 - 2.0 * yearDifference as real
  {
    if yearDifference == 0 then 100.0
    else Max(0.0, 100.0 - (yearDifference as real / 50.0) * 100.0)
  }

  /** The distance figure given to the badge service: 100 at distance 0, 0 from
      2000 km on or when no distance was recorded. */
  function BadgeLocationAccuracy(distanceKm: Option<real>): (r: int)
    ensures distanceKm.None? ==> r == 0
    ensures distanceKm.Some? && distanceKm.value >= 0.0 ==> 0 <= r <= 100
    ensures distanceKm == Some(0.0) ==> r == 100
    ensures distanceKm.Some? && distanceKm.value >= BadgeMaxDistanceKm ==> r == 0
  {
    var clamped := Min(distanceKm.GetOr(BadgeMaxDistanceKm), BadgeMaxDistanceKm);
    Round(100.0 * (1.0 - clamped / BadgeMaxDistanceKm))
  }

  /** The arguments of the `awardRoundBadges` call the page makes. */
  datatype BadgeCall = BadgeCall(
    userId: string,
    gameId: string,
    roundIndex: int,
    yearAccuracy: real,
    locationAccuracy: int,
    guessYear: int,
    actualYear: int)

  /** The badge effect: no call without a signed-in user, a result, an image and
      a room id; otherwise accuracies computed from the result and image. */
  function BadgeEffect(userId: Option<string>, result: Option<RoundResult>, image: Option<GameImage>,
                       roomId: Option<string>, roundIndex: int): (r: Option<BadgeCall>)
    ensures r.Some? <==> userId.Some? && result.Some? && image.Some? && TruthyStr(roomId)
    ensures r.Some? ==>
      r.value.actualYear == OrInt(image.value.year, FallbackYear) &&
      r.value.guessYear == result.value.guessYear.GetOr(r.value.actualYear) &&
      r.value.yearAccuracy == BadgeYearAccuracy(Abs(r.value.actualYear - r.value.guessYear)) &&
      (r.value.yearAccuracy == 100.0 <==> r.value.guessYear == r.value.actualYear) &&
      r.value.locationAccuracy == BadgeLocationAccuracy(result.value.distanceKm) &&
      r.value.gameId == roomId.value && r.value.roundIndex == roundIndex
  {
    if userId.None? || result.None? || image.None? || !TruthyStr(roomId) then None
    else
      var actualYear := OrInt(image.value.year, FallbackYear);
      var guessYear := result.value.guessYear.GetOr(actualYear);
      Some(BadgeCall(userId.value, roomId.value, roundIndex,
        BadgeYearAccuracy(Abs(actualYear - guessYear)),
        BadgeLocationAccuracy(result.value.distanceKm), guessYear, actualYear))
  }

  /** The record the results layout displays. */
  datatype LayoutResult = LayoutResult(
    imageId: string,
    eventLat: real,
    eventLng: real,
    locationName: string,
    timeDifferenceDesc: string,
    guessLat: Option<real>,
    guessLng: Option<real>,
    distanceKm: int,
    locationAccuracy: int,
    guessYear: int,
    eventYear: int,
    yearDifference: int,
    timeAccuracy: int,
    xpTotal: real,
    xpWhere: real,
    xpWhen: real,
    hintsUsed: int,
    hintPenalty: int,
    hintPenaltyPercent: int,
    imageTitle: string,
    imageDescription: string,
    imageUrl: string)

  /** Points taken off per hint on this screen (both as XP and as a percentage). */
  const HintPenalty: int := 30

  /** `mapToLayoutResultType`. The description of the year gap comes from a
      helper outside the core, a parameter here. */
  function MapToLayout(result: Option<RoundResult>, image: Option<GameImage>,
                       timeDifferenceDescription: (int, int) -> string): (r: Option<LayoutResult>)
    ensures r.None? <==> result.None? || image.None?
    ensures r.Some? ==>
      var res := result.value;
      var img := image.value;
      var l := r.value;
      l.eventYear == OrInt(img.year, FallbackYear) &&
      l.guessYear == res.guessYear.GetOr(l.eventYear) &&
      l.yearDifference == Abs(l.eventYear - l.guessYear) &&
      (res.guessYear.None? ==> l.yearDifference == 0) &&
      l.hintPenalty == HintPenalty * res.hintsUsed &&
      l.hintPenaltyPercent == l.hintPenalty &&
      (res.score.Some? ==> l.xpTotal == res.score.value) &&
      (res.score.None? ==> l.xpTotal == Max(0.0, res.xpWhere + res.xpWhen - l.hintPenalty as real)) &&
      (res.score.None? ==> l.xpTotal >= 0.0) &&
      l.locationAccuracy == Round(res.xpWhere) && l.timeAccuracy == Round(res.xpWhen) &&
      l.imageId == img.id &&
      l.eventLat == res.actualCoordinates.lat && l.eventLng == res.actualCoordinates.lng &&
      (res.guessCoordinates.None? <==> l.guessLat.None? && l.guessLng.None?) &&
      (res.guessCoordinates.Some? ==>
         l.guessLat == Some(res.guessCoordinates.value.lat) && l.guessLng == Some(res.guessCoordinates.value.lng)) &&
      (res.distanceKm.None? ==> l.distanceKm == 0) &&
      (res.distanceKm.Some? ==> l.distanceKm == Round(res.distanceKm.value)) &&
      l.xpWhere == res.xpWhere && l.xpWhen == res.xpWhen && l.hintsUsed == res.hintsUsed &&
      l.timeDifferenceDesc == timeDifferenceDescription(l.guessYear, l.eventYear) &&
      l.locationName == OrStr(img.locationName, "Unknown Location") &&
      l.imageTitle == OrStr(img.title, "Untitled") &&
      l.imageDescription == OrStr(img.description, "No description.") &&
      l.imageUrl == OrStr(img.imageUrl, "placeholder.jpg")
  {
    if result.None? || image.None? then None
    else
      var res := result.value;
      var img := image.value;
      var actualYear := OrInt(img.year, FallbackYear);
      var guessYear := res.guessYear.GetOr(actualYear);
      var hintsUsed := res.hintsUsed;
      var hintPenalty := hintsUsed * HintPenalty;
      Some(LayoutResult(
        imageId := img.id,
        eventLat := res.actualCoordinates.lat,
        eventLng := res.actualCoordinates.lng,
        locationName := OrStr(img.locationName, "Unknown Location"),
        timeDifferenceDesc := timeDifferenceDescription(guessYear, actualYear),
        guessLat := if res.guessCoordinates.Some? then Some(res.guessCoordinates.value.lat) else None,
        guessLng := if res.guessCoordinates.Some? then Some(res.guessCoordinates.value.lng) else None,
        distanceKm := Round(res.distanceKm.GetOr(0.0)),
        locationAccuracy := Round((res.xpWhere / 100.0) * 100.0),
        guessYear := guessYear,
        eventYear := actualYear,
        yearDifference := Abs(actualYear - guessYear),
        timeAccuracy := Round((res.xpWhen / 100.0) * 100.0),
        xpTotal := res.score.GetOr(Max(0.0, res.xpWhere + res.xpWhen - hintPenalty as real)),
        xpWhere := res.xpWhere,
        xpWhen := res.xpWhen,
        hintsUsed := hintsUsed,
        hintPenalty := hintPenalty,
        hintPenaltyPercent := hintsUsed * HintPenalty,
        imageTitle := OrStr(img.title, "Untitled"),
        imageDescription := OrStr(img.description, "No description."),
        imageUrl := OrStr(img.imageUrl, "placeholder.jpg")))
  }

  /** The badge effect and the layout read the same years from a result and
      its image: the badge call's year accuracy is 100 exactly when the layout
      shows no year gap. */
  lemma LayoutAgreesWithBadges(userId: string, result: RoundResult, image: GameImage, roomId: string, roundIndex: int,
                               timeDifferenceDescription: (int, int) -> string)
    requires roomId != ""
    ensures var b := BadgeEffect(Some(userId), Some(result), Some(image), Some(roomId), roundIndex);
      var l := MapToLayout(Some(result), Some(image), timeDifferenceDescription);
      b.Some? && l.Some? &&
      b.value.guessYear == l.value.guessYear && b.value.actualYear == l.value.eventYear &&
      (b.value.yearAccuracy == 100.0 <==> l.value.yearDifference == 0)
  {
  }

  /** Where "Next" leads. */
  datatype NextStep =
    | MissingRoomError                  // toast, no navigation
    | FinalResults(roomId: string)
    | NextRound(roomId: string, roundNumber: Option<int>)

  /** `handleNext`, with the round number as parsed from the address (`None` is `NaN`).
      Returns the step and the new `navigating` flag. */
  function HandleNext(roomId: Option<string>, roundNumber: Option<int>, images: seq<GameImage>, navigating: bool)
    : (r: (NextStep, bool))
    ensures !TruthyStr(roomId) <==> r.0 == MissingRoomError
    ensures r.0 == MissingRoomError ==> r.1 == navigating
    ensures r.0 != MissingRoomError ==> r.1
    ensures r.0.FinalResults? <==>
      TruthyStr(roomId) && roundNumber.Some? && roundNumber.value - 1 == TotalRounds(images) - 1
    ensures r.0.NextRound? ==>
      (r.0.roundNumber == if roundNumber.Some? then Some(roundNumber.value + 1) else None)
  {
    if !TruthyStr(roomId) then (MissingRoomError, navigating)
    else
      var isLastRound := roundNumber.Some? && roundNumber.value - 1 == TotalRounds(images) - 1;
      if isLastRound then (FinalResults(roomId.value), true)
      else (NextRound(roomId.value, if roundNumber.Some? then Some(roundNumber.value + 1) else None), true)
  }

  /** Viewing the last round of a loaded game leads to the final results, and
      every earlier round leads to the following one. */
  lemma NextAfterEachRound(roomId: string, images: seq<GameImage>, n: int)
    requires roomId != "" && |images| > 0 && 1 <= n <= |images|
    ensures n == |images| ==> HandleNext(Some(roomId), Some(n), images, false).0 == FinalResults(roomId)
    ensures n < |images| ==> HandleNext(Some(roomId), Some(n), images, false).0 == NextRound(roomId, Some(n + 1))
  {
  }

  /** Before images are loaded, round 5 is treated as the last one. */
  lemma NextWithoutImages(roomId: string)
    requires roomId != ""
    ensures HandleNext(Some(roomId), Some(5), [], false).0 == FinalResults(roomId)
    ensures HandleNext(Some(roomId), Some(4), [], false).0 == NextRound(roomId, Some(5))
  {
  }
}

=== FILE: round_scores.dfy ===
/** The per-round detail scores of the final results screen
    (src/hooks/useRoundScores.ts). The distance between two points and the
    time accuracy of a year guess come from helpers outside the core; they are
    parameters here and may throw, which the hook catches. */
module RoundScores {
  import opened Js
  import opened GameTypes

  /** Distance in km at which the location score reaches 0. */
  const LocationScoreDistance: real := 5000.0

  datatype LocationAccuracy = LocationAccuracy(score: real, distanceKm: real)

  /** The time accuracy object; the helper may leave `score` or `yearDiff` out. */
  datatype TimeAccuracy = TimeAccuracy(score: Option<real>, yearDiff: Option<int>)

  /** `calculateTimeAccuracy` returns either a bare number or an object. */
  datatype TimeResult = TimeNumber(n: real) | TimeObject(accuracy: TimeAccuracy)

  /** `getDistanceFromLatLonInKm(lat1, lng1, lat2, lng2)`. */
  type DistanceFn = (real, real, real, real) -> Outcome<real>

  /** `calculateTimeAccuracy(guessYear, actualYear)`. */
  type TimeAccuracyFn = (int, int) -> Outcome<TimeResult>

  datatype DetailedRoundScore = DetailedRoundScore(
    roundXP: real,
    roundPercent: real,
    locationAccuracy: LocationAccuracy,
    timeAccuracy: TimeAccuracy,
    timeDifference: int,
    distanceKm: real,
    hintPenalty: int,
    hintPenaltyPercent: real,
    originalImageId: string,
    originalImageUrl: string,
    originalYear: int,
    originalLatitude: real,
    originalLongitude: real,
    originalGuessCoordinates: Option<Coordinates>,
    originalGuessYear: Option<int>,
    originalHintsUsed: int)

  /** The location score out of 100: linear in the distance, 0 from 5000 km on. */
  function LocationScore(distanceKm: real): (r: int)
    ensures distanceKm >= 0.0 ==> 0 <= r <= 100
    ensures distanceKm <= 0.0 ==> r >= 100
    ensures distanceKm >= LocationScoreDistance ==> r == 0
  {
    var raw := Max(0.0, 100.0 - Min(100.0, (distanceKm / LocationScoreDistance) * 100.0));
    Round(raw)
  }

  /** A distance rounded to one decimal place. */
  function RoundToTenth(d: real): (r: real)
    ensures d - 0.05 < r <= d + 0.05
    ensures (r * 10.0).Floor as real == r * 10.0
  {
    Round(d * 10.0) as real / 10.0
  }

  /** The location accuracy: nothing scored without a guess or when the distance helper throws. */
  function LocationAccuracyOf(guess: Option<Coordinates>, image: GameImage, distance: DistanceFn): (r: LocationAccuracy)
    ensures guess.None? ==> r == LocationAccuracy(0.0, 0.0)
    ensures guess.Some? && distance(guess.value.lat, guess.value.lng, image.latitude, image.longitude).Threw?
      ==> r == LocationAccuracy(0.0, 0.0)
    ensures guess.Some? && distance(guess.value.lat, guess.value.lng, image.latitude, image.longitude).Returned?
      ==> var d := distance(guess.value.lat, guess.value.lng, image.latitude, image.longitude).value;
          r.score == LocationScore(d) as real && d - 0.05 < r.distanceKm <= d + 0.05
  {
    match guess
    case None => LocationAccuracy(0.0, 0.0)
    case Some(g) =>
      match distance(g.lat, g.lng, image.latitude, image.longitude)
      case Threw => LocationAccuracy(0.0, 0.0)
      case Returned(d) => LocationAccuracy(LocationScore(d) as real, RoundToTenth(d))
  }

  /** A guessed year counts only when truthy (present and not 0). */
  predicate YearGuessed(guessYear: Option<int>) {
    guessYear.Some? && guessYear.value != 0
  }

  /** The time accuracy: score 0 without a truthy year guess or when the helper throws;
      a bare number becomes the score; an object is taken as it is. */
  function TimeAccuracyOf(guessYear: Option<int>, actualYear: int, timeAccuracy: TimeAccuracyFn): (r: TimeAccuracy)
    ensures !YearGuessed(guessYear) ==> r == TimeAccuracy(Some(0.0), None)
    ensures YearGuessed(guessYear) ==>
      match timeAccuracy(guessYear.value, actualYear)
      case Threw => r == TimeAccuracy(Some(0.0), None)
      case Returned(TimeNumber(n)) => r == TimeAccuracy(Some(n), None)
      case Returned(TimeObject(a)) => r == a
  {
    if !YearGuessed(guessYear) then TimeAccuracy(Some(0.0), None)
    else
      match timeAccuracy(guessYear.value, actualYear)
      case Threw => TimeAccuracy(Some(0.0), None)
      case Returned(TimeNumber(n)) => TimeAccuracy(Some(n), None)
      case Returned(TimeObject(a)) => a
  }

  /** The detail score of one result against the image at the same index. */
  function ScoreRound(result: RoundResult, image: GameImage, distance: DistanceFn, timeAccuracy: TimeAccuracyFn)
    : (r: DetailedRoundScore)
    ensures r.locationAccuracy == LocationAccuracyOf(result.guessCoordinates, image, distance)
    ensures r.timeAccuracy == TimeAccuracyOf(result.guessYear, image.year, timeAccuracy)
    ensures r.roundXP == OrReal(r.locationAccuracy.score, 0.0) + OptOrReal(r.timeAccuracy.score, 0.0)
    ensures r.roundPercent * 2.0 == r.roundXP
    ensures r.distanceKm == r.locationAccuracy.distanceKm
    ensures YearGuessed(result.guessYear) ==> r.timeDifference == Abs(result.guessYear.value - image.year)
    ensures !YearGuessed(result.guessYear) ==> r.timeDifference == 0 && r.timeAccuracy.score == Some(0.0)
    ensures r.hintPenalty == 30 * result.hintsUsed
    ensures r.hintPenaltyPercent == 15.0 * result.hintsUsed as real
    ensures r.originalImageId == image.id && r.originalImageUrl == image.imageUrl
    ensures r.originalYear == image.year
    ensures r.originalLatitude == image.latitude && r.originalLongitude == image.longitude
    ensures r.originalGuessCoordinates == result.guessCoordinates
    ensures r.originalGuessYear == result.guessYear
    ensures r.originalHintsUsed == result.hintsUsed
  {
    var location := LocationAccuracyOf(result.guessCoordinates, image, distance);
    var time := TimeAccuracyOf(result.guessYear, image.year, timeAccuracy);
    var xp := OrReal(location.score, 0.0) + OptOrReal(time.score, 0.0);
    DetailedRoundScore(
      roundXP := xp,
      roundPercent := (xp / 200.0) * 100.0,
      locationAccuracy := location,
      timeAccuracy := time,
      timeDifference := if YearGuessed(result.guessYear) then Abs(result.guessYear.value - image.year) else 0,
      distanceKm := location.distanceKm,
      hintPenalty := if result.hintsUsed != 0 then result.hintsUsed * 30 else 0,
      hintPenaltyPercent := if result.hintsUsed != 0 then (result.hintsUsed * 30) as real / 2.0 else 0.0,
      originalImageId := image.id,
      originalImageUrl := image.imageUrl,
      originalYear := image.year,
      originalLatitude := image.latitude,
      originalLongitude := image.longitude,
      originalGuessCoordinates := result.guessCoordinates,
      originalGuessYear := result.guessYear,
      originalHintsUsed := result.hintsUsed)
  }

  /** `roundResults.map(...)`: a result whose index has no image maps to `null`. */
  function MapResults(images: seq<GameImage>, results: seq<RoundResult>, distance: DistanceFn, timeAccuracy: TimeAccuracyFn)
    : seq<Option<DetailedRoundScore>>
  {
    seq(|results|, i requires 0 <= i < |results| =>
      if i < |images| then Some(ScoreRound(results[i], images[i], distance, timeAccuracy)) else None)
  }

  /** `.filter(score => score !== null)`. */
  function Present<T>(s: seq<Option<T>>): seq<T> {
    if s == [] then [] else (if s[0].Some? then [s[0].value] else []) + Present(s[1..])
  }

  /** Filtering a list with one more entry at the end keeps what the shorter
      list kept, followed by that entry's value when present. */
  lemma {:induction false} PresentSnoc<T>(s: seq<Option<T>>, x: Option<T>)
    ensures Present(s + [x]) == Present(s) + (if x.Some? then [x.value] else [])
    decreases |s|
  {
    if s != [] {
      assert (s + [x])[1..] == s[1..] + [x];
      PresentSnoc(s[1..], x);
    }
  }

  /** `useRoundScores`: one detail score per result that has an image at its index. */
  function RoundScoresOf(images: seq<GameImage>, results: seq<RoundResult>, distance: DistanceFn, timeAccuracy: TimeAccuracyFn)
    : seq<DetailedRoundScore>
  {
    if |images| == 0 || |results| == 0 then []
    else Present(MapResults(images, results, distance, timeAccuracy))
  }

  function MinInt(a: int, b: int): int {
    if a <= b then a else b
  }

  /** Filtering a list made of present values followed only by `null`s keeps the present prefix. */
  lemma {:induction false} PresentOfPrefix<T>(s: seq<Option<T>>, n: nat)
    requires n <= |s|
    requires forall i :: 0 <= i < n ==> s[i].Some?
    requires forall i :: n <= i < |s| ==> s[i].None?
    ensures |Present(s)| == n
    ensures forall i :: 0 <= i < n ==> Present(s)[i] == s[i].value
  {
    if s != [] {
      if n == 0 {
        PresentOfPrefix(s[1..], 0);
      } else {
        PresentOfPrefix(s[1..], n - 1);
        var tail := Present(s[1..]);
        assert Present(s) == [s[0].value] + tail;
        forall i | 0 <= i < n
          ensures Present(s)[i] == s[i].value
        {
          if i > 0 {
            assert Present(s)[i] == tail[i - 1] == s[1..][i - 1].value;
          }
        }
      }
    }
  }

  /** The detail scores are exactly the results below `|images|`, each scored
      against the image at its own index; in particular no images or no results
      give no scores, and results past the last image are dropped. */
  lemma RoundScoresSpec(images: seq<GameImage>, results: seq<RoundResult>, distance: DistanceFn, timeAccuracy: TimeAccuracyFn)
    ensures var r := RoundScoresOf(images, results, distance, timeAccuracy);
      |r| == MinInt(|images|, |results|) &&
      forall i :: 0 <= i < |r| ==> r[i] == ScoreRound(results[i], images[i], distance, timeAccuracy)
  {
    if |images| > 0 && |results| > 0 {
      var m := MapResults(images, results, distance, timeAccuracy);
      PresentOfPrefix(m, MinInt(|images|, |results|));
    }
  }
}

=== FILE: scoring.dfy ===
/** The per-round scoring formulas of src/contexts/GameContext/gameUtils.ts.
    The haversine distance is not modelled: distances arrive as inputs. */
module Scoring {
  import opened Js

  /** Distance in km at which accuracy reaches 0 (half the Earth's circumference). */
  const MaxAccuracyDistance: real := 20000.0

  /** Seconds after which the time factor of a score reaches 0. */
  const ScoreTimeLimit: real := 300.0

  /** The unrounded accuracy: 100 at distance 0, falling linearly to 0 at 20000 km. */
  function RawAccuracy(distanceKm: real): real {
    Max(0.0, 100.0 - (distanceKm / MaxAccuracyDistance) * 100.0)
  }

  /** `calculateAccuracy`: the raw accuracy rounded to two decimals. */
  function Accuracy(distanceKm: real): (r: real)
    ensures RawAccuracy(distanceKm) - 0.005 < r <= RawAccuracy(distanceKm) + 0.005
    ensures (r * 100.0).Floor as real == r * 100.0
    ensures distanceKm >= 0.0 ==> 0.0 <= r <= 100.0
    ensures distanceKm == 0.0 ==> r == 100.0
    ensures distanceKm >= MaxAccuracyDistance ==> r == 0.0
  {
    Round(RawAccuracy(distanceKm) * 100.0) as real / 100.0
  }

  /** A longer distance never gives a higher accuracy. */
  lemma AccuracyNonIncreasing(d1: real, d2: real)
    requires d1 <= d2
    ensures Accuracy(d2) <= Accuracy(d1)
  {
    RoundMonotone(RawAccuracy(d2) * 100.0, RawAccuracy(d1) * 100.0);
  }

  /** The time factor: 1 at time 0, falling linearly to 0 at 300 seconds and staying there. */
  function TimeFactor(timeTakenSeconds: real): (r: real)
    ensures 0.0 <= r
    ensures timeTakenSeconds >= 0.0 ==> r <= 1.0
  {
    Max(0.0, 1.0 - timeTakenSeconds / ScoreTimeLimit)
  }

  /** `calculateScore`: accuracy scaled by the time factor, rounded. */
  function Score(accuracy: real, timeTakenSeconds: real): (r: int)
    ensures timeTakenSeconds >= ScoreTimeLimit ==> r == 0
    ensures timeTakenSeconds == 0.0 ==> r == Round(accuracy)
    ensures accuracy >= 0.0 && timeTakenSeconds >= 0.0 ==> 0 <= r <= Round(accuracy)
  {
    var tf := TimeFactor(timeTakenSeconds);
    RoundScaledBelow(accuracy, tf);
    Round(accuracy * tf)
  }

  /** Scaling a non-negative number by a factor in [0, 1] cannot raise its rounding. */
  lemma RoundScaledBelow(a: real, f: real)
    ensures a >= 0.0 && 0.0 <= f <= 1.0 ==> 0 <= Round(a * f) <= Round(a)
  {
    if a >= 0.0 && 0.0 <= f <= 1.0 {
      assert 0.0 <= a * f <= a;
      RoundMonotone(a * f, a);
      RoundMonotone(0.0, a * f);
    }
  }

  /** `calculateXPEarned`: accuracy with a 1.5 bonus factor above 90 and a
      1.25 factor above 75, rounded. */
  function XPEarned(accuracy: real): (r: int)
    ensures accuracy <= 75.0 ==> r == Round(accuracy)
    ensures 75.0 < accuracy <= 90.0 ==> r == Round(accuracy * 1.25)
    ensures accuracy > 90.0 ==> r == Round(accuracy * 1.5)
    ensures accuracy >= 0.0 ==> r >= Round(accuracy)
  {
    var xp :=
      if accuracy > 90.0 then accuracy * 1.5
      else if accuracy > 75.0 then accuracy * 1.25
      else accuracy;
    RoundMonotone(accuracy, xp);
    Round(xp)
  }

  /** The values the bonus tiers give at full, good and middling accuracy. */
  lemma XPEarnedExamples()
    ensures XPEarned(100.0) == 150
    ensures XPEarned(80.0) == 100
    ensures XPEarned(50.0) == 50
    ensures XPEarned(90.0) == 113
  {
  }

  /** For non-negative accuracy, more accuracy never earns less XP, including
      across the tier boundaries at 75 and 90. */
  lemma XPEarnedMonotone(a1: real, a2: real)
    requires 0.0 <= a1 <= a2
    ensures XPEarned(a1) <= XPEarned(a2)
  {
    var x1 := if a1 > 90.0 then a1 * 1.5 else if a1 > 75.0 then a1 * 1.25 else a1;
    var x2 := if a2 > 90.0 then a2 * 1.5 else if a2 > 75.0 then a2 * 1.25 else a2;
    assert x1 <= x2;
    RoundMonotone(x1, x2);
  }
}

=== FILE: settings.dfy ===
/** The global settings store (src/lib/useSettingsStore.ts). */
module SettingsStore {
  import opened Js

  datatype Settings = Settings(soundEnabled: bool, timerSeconds: int, hintsPerGame: int)

  /** The store's initial contents: sound on, 60 seconds, 3 hints. */
  const DefaultSettings := Settings(true, 60, 3)

  function EnableSound(s: Settings): (r: Settings)
    ensures r.soundEnabled && r.timerSeconds == s.timerSeconds && r.hintsPerGame == s.hintsPerGame
  {
    s.(soundEnabled := true)
  }

  function DisableSound(s: Settings): (r: Settings)
    ensures !r.soundEnabled && r.timerSeconds == s.timerSeconds && r.hintsPerGame == s.hintsPerGame
  {
    s.(soundEnabled := false)
  }

  function ToggleSound(s: Settings): (r: Settings)
    ensures r.soundEnabled != s.soundEnabled
    ensures r.timerSeconds == s.timerSeconds && r.hintsPerGame == s.hintsPerGame
  {
    s.(soundEnabled := !s.soundEnabled)
  }

  /** Toggling twice restores the store; toggling agrees with enabling or
      disabling according to the current value. */
  lemma ToggleLaws(s: Settings)
    ensures ToggleSound(ToggleSound(s)) == s
    ensures ToggleSound(s) == if s.soundEnabled then DisableSound(s) else EnableSound(s)
    ensures EnableSound(EnableSound(s)) == EnableSound(s) && DisableSound(DisableSound(s)) == DisableSound(s)
  {
  }

  function SetTimerSeconds(s: Settings, seconds: int): (r: Settings)
    ensures r.timerSeconds == seconds
    ensures r.soundEnabled == s.soundEnabled && r.hintsPerGame == s.hintsPerGame
  {
    s.(timerSeconds := seconds)
  }

  function SetHintsPerGame(s: Settings, hints: int): (r: Settings)
    ensures r.hintsPerGame == hints
    ensures r.soundEnabled == s.soundEnabled && r.timerSeconds == s.timerSeconds
  {
    s.(hintsPerGame := hints)
  }

  /** The two setters touch different fields, so their order does not matter. */
  lemma SettersCommute(s: Settings, seconds: int, hints: int)
    ensures SetHintsPerGame(SetTimerSeconds(s, seconds), hints) == SetTimerSeconds(SetHintsPerGame(s, hints), seconds)
  {
  }

  /** The row `syncToSupabase` upserts: the user id and the current settings. */
  datatype SettingsRow = SettingsRow(id: string, value: Settings)

  /** `syncToSupabase`: nothing for an empty user id, otherwise one row keyed
      by the user holding the three settings. */
  function SyncRow(s: Settings, userId: string): (r: Option<SettingsRow>)
    ensures r.None? <==> userId == ""
    ensures r.Some? ==> r.value.id == userId && r.value.value == s
  {
    if userId == "" then None else Some(SettingsRow(userId, s))
  }
}

=== FILE: storage.dfy ===
/** The game context's save slot (src/contexts/GameContext/storage.ts): one
    `localStorage` entry under `gh_current_game`, validated on load and kept
    without any expiry. */
module Storage {
  import opened Js
  import opened GameTypes
  import opened LocalStore
  import Validation
  import ContextErrors

  /** `persistGameState`. A write that the browser refuses (`writeFails`, e.g.
      a full quota) raises a `PersistenceError` and leaves the store as it was;
      otherwise the slot is overwritten and nothing else changes. */
  function Persist(store: Store, state: PersistedGameState, writeFails: bool): (r: (Store, Option<Thrown>))
    ensures writeFails ==> r == (store, Some(ContextErrors.PersistenceFailure))
    ensures !writeFails ==> r.1.None? && GameStorageKey in r.0 && r.0[GameStorageKey] == GameRecord(Validation.ToSnapshot(state))
    ensures forall k :: k != GameStorageKey ==> (k in r.0 <==> k in store) && (k in store ==> r.0[k] == store[k])
  {
    if writeFails then (store, Some(ContextErrors.PersistenceFailure))
    else (store[GameStorageKey := GameRecord(Validation.ToSnapshot(state))], None)
  }

  /** `loadPersistedState`: nothing saved gives `null` and leaves the store
      alone; text that does not parse, or a parsed object that fails
      `validatePersistedState`, gives `null` and removes the slot; a valid one
      is returned and kept. */
  function Load(store: Store, currentYear: int): (r: (Option<PersistedGameState>, Store))
    ensures !HasText(store, GameStorageKey) ==> r == (None, store)
    ensures r.0.None? && HasText(store, GameStorageKey) ==> r.1 == Remove(store, GameStorageKey)
    ensures r.0.Some? ==> r.1 == store && HasText(store, GameStorageKey)
    ensures r.0.Some? ==> Validation.ValidPersistedState(Validation.ToSnapshot(r.0.value), currentYear)
    ensures HasText(store, GameStorageKey) ==>
      (r.0.Some? <==> ParseSnapshot(store[GameStorageKey]).Some? &&
                      Validation.ValidPersistedState(ParseSnapshot(store[GameStorageKey]).value, currentYear))
    ensures r.0.Some? ==> r.0.value == Validation.FromSnapshot(ParseSnapshot(store[GameStorageKey]).value, currentYear)
  {
    if !HasText(store, GameStorageKey) then (None, store)
    else match ParseSnapshot(store[GameStorageKey])
      case None => (None, Remove(store, GameStorageKey))
      case Some(snapshot) =>
        if Validation.ValidPersistedState(snapshot, currentYear) then
          (Some(Validation.FromSnapshot(snapshot, currentYear)), store)
        else (None, Remove(store, GameStorageKey))
  }

  /** Text that does not parse loads as `null` and is removed, whatever else
      the store holds. */
  lemma UnparsableDropped(store: Store, currentYear: int)
    requires GameStorageKey in store && store[GameStorageKey] == Unparsable
    ensures Load(store, currentYear) == (None, Remove(store, GameStorageKey))
  {
  }

  /** `clearSavedGameState`: the slot is gone afterwards; a failing removal is
      swallowed and leaves the store as it was, so it never raises. */
  function Clear(store: Store, removeFails: bool): (r: Store)
    ensures !removeFails ==> GameStorageKey !in r
    ensures removeFails ==> r == store
    ensures forall k :: k != GameStorageKey && k in store ==> k in r && r[k] == store[k]
  {
    if removeFails then store else Remove(store, GameStorageKey)
  }

  /** Saving a valid state and loading it back gives that state, however old
      the save is: no timestamp is written or checked. */
  lemma PersistLoadRoundTrip(store: Store, state: PersistedGameState, currentYear: int)
    requires Validation.ValidPersistedState(Validation.ToSnapshot(state), currentYear)
    ensures var saved := Persist(store, state, false).0;
      Load(saved, currentYear) == (Some(state), saved)
  {
    Validation.SnapshotRoundTrip(state, currentYear);
  }

  /** Saving a state that fails validation and loading it back gives `null`
      and empties the slot. */
  lemma PersistInvalidDropped(store: Store, state: PersistedGameState, currentYear: int)
    requires !Validation.ValidPersistedState(Validation.ToSnapshot(state), currentYear)
    ensures var saved := Persist(store, state, false).0;
      Load(saved, currentYear).0.None? && GameStorageKey !in Load(saved, currentYear).1
  {
  }

  /** After clearing, a load finds nothing and changes nothing. */
  lemma ClearThenLoad(store: Store, currentYear: int)
    ensures var cleared := Clear(store, false);
      Load(cleared, currentYear) == (None, cleared)
  {
  }

  /** A load is settled after one call: loading again returns the same and
      leaves the store where the first load left it. */
  lemma LoadIdempotent(store: Store, currentYear: int)
    ensures var (v, s1) := Load(store, currentYear);
      Load(s1, currentYear) == (v, s1)
  {
  }
}

=== FILE: timer.dfy ===
/** The round countdown (src/hooks/useGameTimer.ts). Each one-second timeout
    of the hook is an explicit `Tick`; whether the round is active is the
    tick's input. The timeout callback is reported as a flag. */
module GameTimer {

  datatype TimerState = TimerState(remainingTime: int, hasTimedOut: bool)

  /** The state on mount, and after `resetTimer` or a change of `initialTime`. */
  function Start(initialTime: int): (r: TimerState)
    ensures r.remainingTime == initialTime && !r.hasTimedOut
  {
    TimerState(initialTime, false)
  }

  /** The guard of the timer effect: a tick is scheduled only while active,
      with time left and before a timeout. */
  predicate Ticking(s: TimerState, isActive: bool) {
    isActive && s.remainingTime > 0 && !s.hasTimedOut
  }

  /** One second elapses: the new state and whether `onTimeout` fired. */
  function Tick(s: TimerState, isActive: bool): (r: (TimerState, bool))
    ensures !Ticking(s, isActive) ==> r == (s, false)
    ensures Ticking(s, isActive) ==> r.0.remainingTime == s.remainingTime - 1 && r.0.remainingTime >= 0
    ensures Ticking(s, isActive) ==> (r.1 <==> r.0.remainingTime == 0) && r.0.hasTimedOut == r.1
  {
    if !Ticking(s, isActive) then (s, false)
    else
      var newTime := s.remainingTime - 1;
      if newTime <= 0 then (TimerState(newTime, true), true)
      else (TimerState(newTime, s.hasTimedOut), false)
  }

  /** `pauseTimer` changes nothing; pausing is done through `isActive`. */
  function Pause(s: TimerState): (r: TimerState)
    ensures r == s
  {
    s
  }

  datatype TimerEvent = Second(isActive: bool) | ResetTimer(initialTime: int) | InitialTimeChanged(initialTime: int)

  function StepEvent(s: TimerState, e: TimerEvent): (TimerState, bool) {
    match e
    case Second(active) => Tick(s, active)
    case ResetTimer(t) => (Start(t), false)
    case InitialTimeChanged(t) => (Start(t), false)
  }

  /** The final state and the number of times `onTimeout` fired. */
  function Run(s: TimerState, events: seq<TimerEvent>): (TimerState, nat)
    decreases |events|
  {
    if events == [] then (s, 0)
    else
      var (next, fired) := StepEvent(s, events[0]);
      var (final, count) := Run(next, events[1..]);
      (final, count + if fired then 1 else 0)
  }

  function Resets(events: seq<TimerEvent>): nat {
    if events == [] then 0 else (if events[0].Second? then 0 else 1) + Resets(events[1..])
  }

  /** `onTimeout` fires at most once per reset: over any run, the firings are at
      most one more than the resets (none more if the timer had already timed out). */
  lemma {:induction false} AtMostOncePerReset(s: TimerState, events: seq<TimerEvent>)
    ensures Run(s, events).1 <= (if s.hasTimedOut then 0 else 1) + Resets(events)
    decreases |events|
  {
    if events != [] {
      AtMostOncePerReset(StepEvent(s, events[0]).0, events[1..]);
    }
  }

  /** Seconds alone never take the remaining time of a non-negative timer below 0. */
  lemma {:induction false} NeverNegative(s: TimerState, events: seq<TimerEvent>)
    requires s.remainingTime >= 0
    requires forall i :: 0 <= i < |events| ==> events[i].Second?
    ensures Run(s, events).0.remainingTime >= 0
    decreases |events|
  {
    if events != [] {
      NeverNegative(StepEvent(s, events[0]).0, events[1..]);
    }
  }

  /** A timer started at 0 never fires, however long it runs without a reset. */
  lemma {:induction false} ZeroNeverFires(s: TimerState, events: seq<TimerEvent>)
    requires s.remainingTime <= 0
    requires forall i :: 0 <= i < |events| ==> events[i].Second?
    ensures Run(s, events).1 == 0 && Run(s, events).0 == s
    decreases |events|
  {
    if events != [] {
      ZeroNeverFires(s, events[1..]);
    }
  }

  function ActiveSeconds(n: nat): (r: seq<TimerEvent>)
    ensures |r| == n && forall i :: 0 <= i < n ==> r[i] == Second(true)
  {
    seq(n, _ => Second(true))
  }

  /** An active timer started at n > 0 counts down to 0 and fires exactly once
      after n seconds, and stays put afterwards. */
  lemma {:induction false} FiresAfterFullCountdown(n: nat, extra: nat)
    requires n > 0
    ensures Run(Start(n), ActiveSeconds(n + extra)) == (TimerState(0, true), 1)
    decreases n
  {
    var events := ActiveSeconds(n + extra);
    assert events[1..] == ActiveSeconds(n - 1 + extra);
    if n == 1 {
      ZeroNeverFires(TimerState(0, true), ActiveSeconds(extra));
    } else {
      FiresAfterFullCountdown(n - 1, extra);
    }
  }
}

=== FILE: validation.dfy ===
/** The range checks of the game context (src/contexts/GameContext/validation.ts),
    with the bounds of src/constants/game.ts. `MAX_YEAR` is the calendar year
    the module was loaded in, passed as `currentYear`. */
module Validation {
  import opened Js
  import opened GameTypes
  import opened LocalStore

  /** `validateGameSettings`. */
  predicate ValidSettings(s: GameSettings) {
    s.timerSeconds >= 0 && s.hintsPerGame >= 0
  }

  /** `validateCoordinates`: both bounds inclusive. */
  predicate ValidCoordinates(c: Coordinates) {
    MinLatitude <= c.lat <= MaxLatitude && MinLongitude <= c.lng <= MaxLongitude
  }

  /** `validateRoundResult`. Score and the XP and accuracy fields must lie in
      [0, 100]; `hintsUsed` has no upper bound. */
  predicate ValidRoundResult(r: RoundResult, currentYear: int) {
    r.roundIndex >= 0 &&
    |r.imageId| > 0 &&
    (r.guessCoordinates.None? || ValidCoordinates(r.guessCoordinates.value)) &&
    ValidCoordinates(r.actualCoordinates) &&
    (r.distanceKm.None? || r.distanceKm.value >= 0.0) &&
    (r.score.None? || 0.0 <= r.score.value <= 100.0) &&
    (r.guessYear.None? || MinYear <= r.guessYear.value <= currentYear) &&
    0.0 <= r.xpWhere <= 100.0 &&
    0.0 <= r.xpWhen <= 100.0 &&
    0.0 <= r.accuracy <= 100.0 &&
    r.hintsUsed >= 0
  }

  /** The coordinate bounds are inclusive; settings may be 0; a result may use
      any number of hints but may not score above 100. */
  lemma BoundaryCases(r: RoundResult, currentYear: int)
    requires ValidRoundResult(r, currentYear)
    ensures ValidCoordinates(Coordinates(MaxLatitude, MinLongitude)) && !ValidCoordinates(Coordinates(90.5, 0.0))
    ensures ValidSettings(GameSettings(0, 0)) && !ValidSettings(GameSettings(-1, 3))
    ensures ValidRoundResult(r.(hintsUsed := r.hintsUsed + 1000), currentYear)
    ensures !ValidRoundResult(r.(score := Some(150.0)), currentYear)
    ensures !ValidRoundResult(r.(guessYear := Some(currentYear + 1)), currentYear)
  {
  }

  /** `s` starts with `prefix`, ignoring the case of ASCII letters. */
  predicate StartsWithIgnoringCase(s: string, prefix: string) {
    |prefix| <= |s| && ToLower(s[..|prefix|]) == prefix
  }

  /** A character JavaScript's `.` does not match: the line terminators. */
  predicate IsLineTerminator(c: char) {
    c == '\n' || c == '\r' || c == '\U{2028}' || c == '\U{2029}'
  }

  /** The regular expression `^https?:\/\/.+` with the `i` flag: an http or
      https scheme in any case, then at least one character that is not a line
      terminator. */
  predicate IsHttpUrl(url: string) {
    (StartsWithIgnoringCase(url, "http://") && |url| > 7 && !IsLineTerminator(url[7])) ||
    (StartsWithIgnoringCase(url, "https://") && |url| > 8 && !IsLineTerminator(url[8]))
  }

  /** `validateGameImage`. */
  predicate ValidGameImage(image: GameImage, currentYear: int) {
    |image.id| > 0 &&
    |image.title| > 0 &&
    |image.description| > 0 &&
    MinLatitude <= image.latitude <= MaxLatitude &&
    MinLongitude <= image.longitude <= MaxLongitude &&
    MinYear <= image.year <= currentYear &&
    IsHttpUrl(image.imageUrl) &&
    |image.locationName| > 0
  }

  /** The pattern accepts either scheme in any case and needs something after
      the slashes. */
  lemma UrlPatternExamples()
    ensures IsHttpUrl("https://x.org/a.jpg")
    ensures IsHttpUrl("HTTP://a")
    ensures !IsHttpUrl("http://")
    ensures !IsHttpUrl("ftp://a")
    ensures !IsHttpUrl("http://\n")
  {
    assert ToLower("https://x.org/a.jpg"[..8]) == "https://";
    assert ToLower("HTTP://a"[..7]) == "http://";
    assert ToLower("ftp://a"[..7]) != "http://" by {
      assert ToLower("ftp://a"[..7])[0] == 'f';
    }
  }

  /** `validatePersistedState` on a parsed JSON object: `gameId` a string,
      `roomId` null or a string, both lists present with every element valid,
      and the four numbers present. */
  predicate ValidPersistedState(s: Snapshot, currentYear: int) {
    s.gameId.Some? &&
    s.roomId.Some? &&
    s.images.Some? && (forall i :: 0 <= i < |s.images.value| ==> ValidGameImage(s.images.value[i], currentYear)) &&
    s.roundResults.Some? && (forall i :: 0 <= i < |s.roundResults.value| ==> ValidRoundResult(s.roundResults.value[i], currentYear)) &&
    s.hintsAllowed.Some? && s.roundTimerSec.Some? && s.totalGameAccuracy.Some? && s.totalGameXP.Some?
  }

  /** The JSON object `JSON.stringify` writes for a persisted game state. */
  function ToSnapshot(p: PersistedGameState): (r: Snapshot)
    ensures r.timestamp.None?
  {
    Snapshot(Some(p.gameId), Some(p.roomId), Some(p.images), Some(p.roundResults),
             Some(p.hintsAllowed), Some(p.roundTimerSec), Some(p.totalGameAccuracy), Some(p.totalGameXP), None)
  }

  /** The persisted game state a valid snapshot denotes. */
  function FromSnapshot(s: Snapshot, currentYear: int): (r: PersistedGameState)
    requires ValidPersistedState(s, currentYear)
    ensures ToSnapshot(r) == s.(timestamp := None)
  {
    PersistedGameState(s.gameId.value, s.roomId.value, s.images.value, s.roundResults.value,
                       s.hintsAllowed.value, s.roundTimerSec.value, s.totalGameAccuracy.value, s.totalGameXP.value)
  }

  /** A written state passes validation exactly when all its images and
      results do, and reads back as itself. */
  lemma SnapshotRoundTrip(p: PersistedGameState, currentYear: int)
    ensures ValidPersistedState(ToSnapshot(p), currentYear) <==>
      (forall i :: 0 <= i < |p.images| ==> ValidGameImage(p.images[i], currentYear)) &&
      (forall i :: 0 <= i < |p.roundResults| ==> ValidRoundResult(p.roundResults[i], currentYear))
    ensures ValidPersistedState(ToSnapshot(p), currentYear) ==> FromSnapshot(ToSnapshot(p), currentYear) == p
  {
  }

  /** A snapshot without a `gameId` key, such as the one the game-state hook
      writes, never validates. */
  lemma NoGameIdRejected(s: Snapshot, currentYear: int)
    requires s.gameId.None?
    ensures !ValidPersistedState(s, currentYear)
  {
  }
}
